=== FILE: README.md ===
# Fleet management front end: the pure logic, modelled in Dafny

The system is a React front end over a hosted database. It manages a fleet's
vehicles, drivers, fuel supplies, maintenances and documents for one tenant
at a time. Almost all of it is form markup and remote calls. What is left
once those are removed is a small body of pure logic spread over the pages
and forms:

- the document validity classifier (`getDocumentStatus`) with its chip
  colour and chip label;
- the labels the pages display (the associated vehicle or driver, the
  document type with its "Outro" override, the driver's address, the
  truncated maintenance description, the status chips);
- the form validators, the change handlers that edit form state and clear
  errors, and the mappers that turn a form into the record a submit saves;
- the storage paths (the text after the public-storage marker, the photo
  path built from the file extension, the removal path taken from the last
  URL segment);
- the list controllers: the page range a request asks for, the query
  conditions the filters add, the client-side search and status filter,
  the apply/clear/rows-per-page resets and the delete-by-id list update.

The Dafny project models each of these as pure functions over immutable
datatypes. JavaScript's semantics are written out where they matter:

- **Truthiness.** A nullable string is an `Option<string>`, and it is falsy
  when `None` or `""`. `||` and `|| null` are modelled as `OrElse` and
  `NullIfEmpty`.
- **Numbers.** `Number()` reads the whole string and gives 0 on blank input.
  `parseFloat` and `parseInt` read a numeric prefix. NaN is `None`.
- **Dates.** They are whole day numbers, and "today" is a parameter.
- **Lower-casing.** It covers ASCII and Latin-1.

One module follows each source file or concern:

- `Wrappers`, `Strings`, `Numbers`, `Lists` and `FormErrors` hold the shared
  semantics.
- `Paging` holds the list-page state shared by the three list pages.
- The remaining modules are one per page or form: `Validity`, `Documents`,
  `DocumentsPage`, `DocumentForm`, `SupplyForm`, `SuppliesPage`,
  `MaintenanceForm`, `MaintenancesPage`, `Drivers`, `DriverForm`,
  `DriverDetail`, `DriverPhoto` and `VehicleForm`.

The classifier is written out three times in the source, in
`frontend/src/pages/DocumentsPage.tsx:21-31`,
`frontend/src/pages/DocumentDetailPage.tsx:21-31` and
`frontend/src/pages/DriverDetailPage.tsx:19-29`. The three copies are
identical, so all three pages use the single `Validity.Classify`, and they
agree by construction.

In `MaintenanceForm.tsx` the submit falls back to a fixed tenant id
(`FallbackTenant`) when the user has no tenant. That fallback can never be
taken, because the guard at the top of the submit has already returned in
that case. `MaintenanceForm.Submit` therefore always saves the user's own
tenant.

## Model

| member | source | states |
|---|---|---|
| Wrappers.TenantOf | frontend/src/components/documents/DocumentForm.tsx:155-158 | a tenant is found exactly when a user is signed in and their `tenant_id` is truthy; it is then that non-empty id |
| Strings.TrimEmptyIffBlank | frontend/src/components/drivers/DriverForm.tsx:96-100 | `x.trim()` is empty exactly when every character of `x` is white space |
| Strings.Trim | frontend/src/components/maintenances/MaintenanceForm.tsx:108 | the trimmed text is a slice of the input with only white space cut from either end, and it neither starts nor ends with white space |
| Strings.ToLowerIdempotent | frontend/src/pages/SuppliesPage.tsx:257-261 | lower-casing twice is lower-casing once |
| Strings.Includes | frontend/src/pages/SuppliesPage.tsx:259-261 | the `includes` search answers true exactly when the needle occurs at some position of the text |
| Strings.SplitJoin | frontend/src/pages/DocumentDetailPage.tsx:111 | joining the pieces of `split(sep)` with `sep` gives back the text |
| Strings.SplitPiecesFree | frontend/src/pages/DocumentDetailPage.tsx:111 | no piece of `split(sep)` contains `sep` |
| Strings.SplitManyIffContains | frontend/src/pages/DocumentDetailPage.tsx:111 | `split(sep)` has a second piece exactly when the text contains `sep` |
| Strings.LastPieceSuffix | frontend/src/components/DriverPhotoUpload.tsx:82 | `split(sep).pop()` is a suffix of the text and does not contain `sep` |
| Strings.LastPiecePreceded | frontend/src/components/DriverPhotoUpload.tsx:82 | when the text contains `sep`, the last piece is immediately preceded by `sep` |
| Strings.LastPieceAfterChar | frontend/src/components/DriverPhotoUpload.tsx:82 | the last piece of `a + c + b`, split on `c`, is `b` whenever `b` has no `c` |
| Strings.DatePart | frontend/src/components/documents/DocumentForm.tsx:90-91 | `split("T")[0]` is a prefix of the timestamp with no "T" in it |
| Strings.DatePartOfDate | frontend/src/components/maintenances/MaintenanceForm.tsx:85-86 | a plain date without "T" is left unchanged by `split('T')[0]` |
| Numbers.JsNumber | frontend/src/components/supplies/SupplyForm.tsx:180 | `Number(x)` is 0 for blank text; otherwise any value it gives is a numeral spelling the whole trimmed text |
| Numbers.ParseFloat | frontend/src/components/maintenances/MaintenanceForm.tsx:112 | `parseFloat` gives a number exactly when the text, after leading white space, starts with a numeral, and that number is the value of the longest numeral there |
| Numbers.NumberOfNumeral | frontend/src/components/supplies/SupplyForm.tsx:180 | a numeral with any white space around it is read by `Number` as that numeral's value |
| Numbers.ParseFloatOfNumeral | frontend/src/components/supplies/SupplyForm.tsx:250-251 | a numeral after white space, followed by anything that does not continue it, is read by `parseFloat` as that numeral's value |
| Numbers.ScanOfNumeral | frontend/src/components/maintenances/MaintenanceForm.tsx:171-172 | the text a numeral is written as scans back to that same numeral |
| Numbers.LongestNumeralIsLongest | frontend/src/components/maintenances/MaintenanceForm.tsx:171-172 | no numeral written at the front of the text is longer than the one `parseFloat` reads |
| Numbers.ParseIntTruncatesParseFloat | frontend/src/components/supplies/SupplyForm.tsx:249-250 | whenever `parseInt` reads a number, `parseFloat` reads one too, and the first is the second truncated toward zero |
| Numbers.NumberAgreesWithParseFloat | frontend/src/components/supplies/SupplyForm.tsx:184-185 | on non-blank text that `Number` accepts, `parseFloat` gives the same value |
| Numbers.NumberOfDigits | frontend/src/pages/DocumentsPage.tsx:158 | a run of decimal digits, such as the text a whole number is written as, is read back as its value by both `Number` and `parseInt` |
| Numbers.Trunc | frontend/src/components/supplies/SupplyForm.tsx:249 | truncation toward zero lands within one unit of the number, on the side of zero |
| Lists.Filter | frontend/src/pages/DocumentsPage.tsx:120-122 | the result keeps exactly the elements the test accepts: every kept element passes and came from the input, and every passing element is kept |
| Lists.FilterIsSubsequence | frontend/src/pages/DocumentsPage.tsx:121 | filtering keeps the original order |
| Lists.FilterKeepsAll | frontend/src/pages/SuppliesPage.tsx:256-263 | a test every element passes keeps the whole list |
| Lists.FilterLength | frontend/src/pages/DocumentsPage.tsx:121 | the filtered list has as many elements as pass the test |
| Lists.RemoveId | frontend/src/pages/DocumentsPage.tsx:189 | removing an id keeps, in order, exactly the elements with another id |
| Lists.RemovePresentIdDropsOne | frontend/src/pages/DocumentsPage.tsx:189-190 | with distinct ids, removing an id that is present shortens the list by exactly one |
| Lists.RemoveAbsentId | frontend/src/pages/SuppliesPage.tsx:173 | removing an id that is absent changes nothing |
| Lists.FirstJoined | frontend/src/pages/MaintenancesPage.tsx:89 | a joined array becomes its first element, an object stays itself, and an empty array or a null gives nothing |
| Paging.PageRange | frontend/src/pages/DocumentsPage.tsx:105 | the request for page p of n rows starts at p·n and covers n indices |
| Paging.IndexIsOnOnePage | frontend/src/pages/DocumentsPage.tsx:105 | row i is requested on page p exactly when p = i div n, so the pages neither overlap nor leave gaps |
| Paging.Initial | frontend/src/pages/DocumentsPage.tsx:39-41 | a list starts on page 0 with 10 rows per page, no rows and a total of 0 |
| Paging.Request | frontend/src/pages/MaintenancesPage.tsx:82 | the range a list asks for starts at its page times its page size and covers one page of indices |
| Paging.Apply | frontend/src/pages/DocumentsPage.tsx:140-143 | applying the filters returns to page 0 and changes nothing else |
| Paging.Clear | frontend/src/pages/SuppliesPage.tsx:137-143 | clearing sets every filter back to empty and the page to 0, and keeps the rows and page size |
| Paging.ChangePage | frontend/src/pages/DocumentsPage.tsx:156 | changing page sets the page and nothing else |
| Paging.ChangeRowsPerPage | frontend/src/pages/MaintenancesPage.tsx:125-128 | a new page size also resets the page to 0 |
| Paging.Loaded | frontend/src/pages/DocumentsPage.tsx:124-125 | loading stores the fetched rows and takes `count \|\| 0` as the total |
| Paging.Deleted | frontend/src/pages/MaintenancesPage.tsx:149 | after a delete the list keeps, in order, exactly the rows with another id; filters and page are unchanged |
| Paging.ResetsRequestFirstPage | frontend/src/pages/SuppliesPage.tsx:132-152 | after apply, clear or a new page size, the next request starts at row 0 |
| Validity.ReadExpiry | frontend/src/pages/DocumentsPage.tsx:22-25 | a missing or empty date is no date; otherwise the date string with "T00:00:00" appended is parsed, and an unreadable one is an invalid date |
| Validity.Classify | frontend/src/pages/DocumentsPage.tsx:21-31 | `não_aplicável` exactly without a date; `vencido` exactly before today; `próximo_vencimento` exactly from today through today+30; `válido` exactly after that or for an unreadable date |
| Validity.MillisAgreesWithDays | frontend/src/pages/DocumentDetailPage.tsx:23-29 | comparing millisecond timestamps against today + 30·24·60·60·1000 gives the same status as comparing days |
| Validity.WindowIsInclusive | frontend/src/pages/DriverDetailPage.tsx:26-27 | expiring today and expiring in exactly 30 days both classify as `próximo_vencimento`; yesterday is `vencido`, and 31 days out is `válido` |
| Validity.LaterExpiryNeverWorse | frontend/src/pages/DocumentsPage.tsx:28-30 | moving the expiry later never makes the status worse |
| Validity.LaterTodayNeverBetter | frontend/src/pages/DocumentsPage.tsx:28-30 | as days pass, a document's status never improves |
| Validity.Colour | frontend/src/pages/DocumentsPage.tsx:309-313 | error exactly for `vencido`, warning exactly for `próximo_vencimento`, success exactly for `válido`, default otherwise |
| Validity.ReplaceFirst | frontend/src/pages/DocumentsPage.tsx:307 | `replace('_', ' ')` changes only the first underscore and keeps the length |
| Validity.UpperWordStarts | frontend/src/pages/DocumentDetailPage.tsx:230 | `replace(/\b\w/g, upper)` upper-cases exactly the ASCII word characters not preceded by one |
| Validity.LabelAsWritten | frontend/src/pages/DocumentsPage.tsx:307 | the chip label as the pages build it keeps the length and changes only letter case, with the first underscore made a space |
| Validity.Label | frontend/src/pages/DocumentsPage.tsx:307 | the corrected label keeps the length and never changes a character inside a word: only a word's first character may change |
| Validity.LabelAsWrittenBreaksAtAccents | frontend/src/pages/DocumentsPage.tsx:307 | the label as written turns "válido" into "VáLido" |
| Validity.LabelOfValid | frontend/src/pages/DriverDetailPage.tsx:258 | the corrected label turns "válido" into "Válido" |
| Validity.LabelIsTheNameUpToCase | frontend/src/pages/DocumentsPage.tsx:307 | the corrected label only changes letter case: lower-cased, it is the status name with its underscore made a space |
| Documents.ReadEntityKindOfName | frontend/src/types/document.ts:4 | the entity kinds are exactly "vehicle" and "driver", and each is read back from its name |
| Documents.ReadKnownTypeOfName | frontend/src/types/document.ts:8-17 | each of the nine known document types is read back from its name |
| Documents.EntityLabel | frontend/src/pages/DocumentsPage.tsx:111-116 | a vehicle with a joined row is labelled "plate (model or N/A)", a driver with one is labelled "name (cpf or N/A)", and there is no label otherwise |
| Documents.Labelled | frontend/src/pages/DocumentsPage.tsx:113-115 | the label is the main text, then " (", then the detail or 'N/A', then ")" |
| Documents.ListEntityDisplay | frontend/src/pages/DocumentsPage.tsx:110-117 | the list's display text is empty exactly when there is no label |
| Documents.DetailEntityDisplay | frontend/src/pages/DocumentDetailPage.tsx:62-67 | the detail page shows the label, or "N/A" without one |
| Documents.ListCellAgreesWithDetail | frontend/src/pages/DocumentsPage.tsx:303 | the list cell (`entity_display \|\| 'N/A'`) always shows what the detail page shows |
| Documents.TypeLabel | frontend/src/pages/DocumentDetailPage.tsx:220 | a type other than "Outro" is shown as itself; "Outro" shows its custom description, or "Outro" when there is none |
| Documents.TypeLabelNotEmpty | frontend/src/pages/DocumentsPage.tsx:302 | a non-empty type never gives an empty type cell |
| Documents.AssociationPrefix | frontend/src/pages/DocumentDetailPage.tsx:242 | "Veículo" exactly for a vehicle, "Motorista" exactly for a driver |
| Documents.AssociatedTo | frontend/src/pages/DocumentDetailPage.tsx:242 | the "Associado a" line starts with "Veículo: " exactly for a vehicle and with "Motorista: " exactly for a driver, and ends with the entity's name |
| Documents.StoragePath | frontend/src/pages/DocumentDetailPage.tsx:110-111 | without the public-storage marker there is no path; a path found is non-empty, free of the marker, and follows the marker in the URL path |
| Documents.SecondPieceFollowsMarker | frontend/src/pages/DocumentsPage.tsx:176 | the second piece of a split is found right after the separator in the text |
| Documents.StoragePathOfPublished | frontend/src/pages/DocumentsPage.tsx:176-177 | the path of a published file, placed after the marker, is read back exactly |
| Documents.PlanDelete | frontend/src/pages/DocumentDetailPage.tsx:109-125 | the row is deleted exactly when the row has no file URL or `new URL` accepts it; a rejected URL ends in the `catch` with nothing deleted; a stored file is removed only at the path read from a parsed URL |
| Documents.DeleteRemovesPublishedFile | frontend/src/pages/DocumentsPage.tsx:175-181 | a file published under the storage marker is removed along with its row |
| DocumentsPage.Conditions | frontend/src/pages/DocumentsPage.tsx:94-103 | each non-empty filter adds its condition, and only then; the entity id becomes a `vehicle_id` or `driver_id` condition only together with an entity kind |
| DocumentsPage.ClearedFiltersAddNoCondition | frontend/src/pages/DocumentsPage.tsx:145-152 | cleared filters put no condition on the query |
| DocumentsPage.Process | frontend/src/pages/DocumentsPage.tsx:109-118 | every fetched row keeps its place and gets its classified status and its entity display |
| DocumentsPage.StatusFilter | frontend/src/pages/DocumentsPage.tsx:120-122 | without a status filter all rows stay; with one, exactly the rows with that status stay, in order |
| DocumentsPage.Fetched | frontend/src/pages/DocumentsPage.tsx:105-125 | the listed rows never outnumber the fetched ones, and the total is the server count or 0 |
| DocumentsPage.TotalIgnoresStatusFilter | frontend/src/pages/DocumentsPage.tsx:120-125 | the total does not depend on the status filter, which runs after the count |
| DocumentsPage.SelectEntityType | frontend/src/pages/DocumentsPage.tsx:243 | choosing an entity kind clears the chosen entity and keeps the other filters |
| DocumentsPage.ClearFilters | frontend/src/pages/DocumentsPage.tsx:145-154 | all six filters are cleared and the next request starts at row 0 |
| DocumentsPage.DeleteDocument | frontend/src/pages/DocumentsPage.tsx:189-190 | only rows with the deleted id leave the list, and the total drops by one |
| DocumentsPage.HandleDeleteDocument | frontend/src/pages/DocumentsPage.tsx:171-196 | the total drops by one exactly when a tenant is signed in and the file URL is absent or parses; then the list loses the row's id; otherwise the list and total are unchanged |
| DocumentsPage.DeleteListedDropsOne | frontend/src/pages/DocumentsPage.tsx:189-190 | deleting a listed document with a unique id shortens the list by one, in step with the total |
| DocumentForm.HandleChange | frontend/src/components/documents/DocumentForm.tsx:126-135 | the edited field takes the value; a type other than "Outro" clears the custom description, a new entity kind clears the entity id, and nothing else changes |
| DocumentForm.ChoosingOtherKeepsDescription | frontend/src/components/documents/DocumentForm.tsx:129-131 | choosing "Outro" keeps the custom description |
| DocumentForm.HandleFileChange | frontend/src/components/documents/DocumentForm.tsx:137-146 | picking a file queues it and cancels a pending removal; picking none clears the queue and clears the shown name only when there is no current file |
| DocumentForm.HandleRemoveFile | frontend/src/components/documents/DocumentForm.tsx:148-151 | removal clears the queue, marks the current file for removal and clears the shown name |
| DocumentForm.PickAfterRemoveCancelsRemoval | frontend/src/components/documents/DocumentForm.tsx:140 | a file picked after a removal is queued, and the removal is cancelled |
| DocumentForm.Load | frontend/src/components/documents/DocumentForm.tsx:82-99 | a stored document loads with missing texts as '', dates cut to their date part, and no file queued or marked for removal |
| DocumentForm.LoadThenSaveKeepsDocument | frontend/src/components/documents/DocumentForm.tsx:82-99 | saving an edit form right after it loaded updates the row at the route id and keeps the entity, the type, the texts (with '' stored as null), plain dates and the stored file; the custom description is saved back only for "Outro" and is null otherwise |
| DocumentForm.SubmitDisabled | frontend/src/components/documents/DocumentForm.tsx:416 | when idle, the button is disabled exactly when the entity kind or the entity is missing |
| DocumentForm.CheckSubmit | frontend/src/components/documents/DocumentForm.tsx:155-162 | submit fails when no user is signed in or the user's tenant id is missing or empty, otherwise when the entity kind or the entity is missing, and only then; a passing submit carries the user's non-empty tenant |
| DocumentForm.EnabledButtonPassesEntityGuard | frontend/src/components/documents/DocumentForm.tsx:159-162 | a submit from an enabled button passes the entity guard |
| DocumentForm.UploadPath | frontend/src/components/documents/DocumentForm.tsx:207 | the upload path lies in the tenant's folder; when tenant, entity type, entity id and file name hold no '/', splitting the path on '/' gives back exactly those four parts, the last with its time stamp |
| DocumentForm.FileColumnsOf | frontend/src/components/documents/DocumentForm.tsx:169-221 | a queued file saves its own URL, name, size and type; otherwise the current file is kept in full when the keep rule holds, and all file columns are null when it does not |
| DocumentForm.KeepsCurrentFile | frontend/src/components/documents/DocumentForm.tsx:169-174 | the stored file is kept only in edit mode, when there is one, it is not marked for removal and no new file is queued |
| DocumentForm.ToSave | frontend/src/components/documents/DocumentForm.tsx:223-242 | the name, type, entity kind and entity id are the form's; `vehicle_id` is the entity id exactly for a vehicle and `driver_id` exactly for a driver; the custom description is saved only for "Outro"; empty optional texts are saved as null |
| DocumentForm.Submit | frontend/src/components/documents/DocumentForm.tsx:153-272 | a submit fails exactly when the guards fail, or when the stored file is to be removed or replaced and `new URL` rejects its stored URL, which throws into the `catch` with nothing saved; otherwise it writes the mapped record with its file columns, as an update of the route id exactly in edit mode with an id and as an insert otherwise |
| DocumentForm.UrlMattersOnlyForRemoval | frontend/src/components/documents/DocumentForm.tsx:178-203 | the stored URL is parsed only in the two branches that remove the stored file, so a submit that removes nothing does not depend on it |
| DocumentForm.SavedReferencesOneEntity | frontend/src/components/documents/DocumentForm.tsx:231-232 | a saved document references exactly one of a vehicle or a driver, matching its kind |
| FormErrors.ClearError | frontend/src/components/supplies/SupplyForm.tsx:198-200 | clearing a field's error removes only that field's entry |
| FormErrors.ClearAbsentChangesNothing | frontend/src/components/maintenances/MaintenanceForm.tsx:126-128 | clearing a field without an error changes nothing |
| FormErrors.NoErrorsIffNoKey | frontend/src/components/supplies/SupplyForm.tsx:191-192 | the form is valid exactly when the error map has no key |
| SupplyForm.Initial | frontend/src/components/supplies/SupplyForm.tsx:30-41 | a new supply starts empty, dated now, with "gasolina comum", no driver, and '' for station, invoice and notes |
| SupplyForm.Failing | frontend/src/components/supplies/SupplyForm.tsx:176-190 | a field fails exactly when the vehicle, date or fuel is empty, or when the odometer, quantity or price is blank, not a whole-string number, or not positive |
| SupplyForm.Validate | frontend/src/components/supplies/SupplyForm.tsx:176-193 | the error map has exactly the failing fields, each with its message |
| SupplyForm.ValidIffAllChecksPass | frontend/src/components/supplies/SupplyForm.tsx:191-192 | the form is valid exactly when all six checks pass |
| SupplyForm.PositiveWholeNumberPasses | frontend/src/components/supplies/SupplyForm.tsx:180 | any run of digits with a positive value passes the number check |
| SupplyForm.ReadPositive | frontend/src/components/supplies/SupplyForm.tsx:184 | non-blank text that `Number` reads as positive passes |
| SupplyForm.TrailingTextFails | frontend/src/components/supplies/SupplyForm.tsx:187 | "1x" fails, because `Number` reads the whole string |
| SupplyForm.HandleChange | frontend/src/components/supplies/SupplyForm.tsx:195-204 | the edited field takes the value and loses its error, and other fields and errors stay; typing a price with the default on also sets the default price |
| SupplyForm.HandleSelectChange | frontend/src/components/supplies/SupplyForm.tsx:206-212 | the selected field takes the value and loses its error, and nothing else changes |
| SupplyForm.FindIndex | frontend/src/components/supplies/SupplyForm.tsx:158 | `find` gives the first vehicle with the id, or nothing when none has it |
| SupplyForm.SyncFuelType | frontend/src/components/supplies/SupplyForm.tsx:155-164 | choosing a known vehicle sets the fuel to that vehicle's fuel; otherwise the form is unchanged |
| SupplyForm.PriceFor | frontend/src/components/supplies/SupplyForm.tsx:170 | the stored price of the fuel, or '' when there is none |
| SupplyForm.SyncDefaultPrice | frontend/src/components/supplies/SupplyForm.tsx:166-174 | with the default on and a fuel chosen, the price becomes the fuel's stored price; otherwise nothing changes |
| SupplyForm.HandleDefaultPriceChange | frontend/src/components/supplies/SupplyForm.tsx:214-219 | the default price takes the value, and so does the form's price when the default is on |
| SupplyForm.HandleUseDefaultPrice | frontend/src/components/supplies/SupplyForm.tsx:221-231 | switching the default on with a fuel chosen sets the price to the stored price and the station to the tenant default or '' |
| SupplyForm.UseDefaultPriceIsStable | frontend/src/components/supplies/SupplyForm.tsx:166-174 | after switching the default on, the price effect has nothing left to change |
| SupplyForm.ToSave | frontend/src/components/supplies/SupplyForm.tsx:245-254 | the saved quantity and price are `parseFloat` of the inputs, the odometer is `parseInt`, and the total is the product of the two numbers; the vehicle, fuel, station, invoice, driver and notes are the form's, and the tenant is the signed-in one |
| SupplyForm.Submit | frontend/src/components/supplies/SupplyForm.tsx:233-271 | submit fails when no user is signed in or the user's tenant id is missing or empty, fails with the error map when the form is invalid, and otherwise writes the mapped record, as an update of the route id exactly in edit mode with an id and as an insert otherwise |
| SupplyForm.SavedTotalIsProduct | frontend/src/components/supplies/SupplyForm.tsx:245 | for a positive quantity and price, the saved total is their product and is positive |
| SupplyForm.ValidSubmitSavesPositiveTotal | frontend/src/components/supplies/SupplyForm.tsx:245-253 | every valid submit saves a positive total, with the numbers the validator accepted |
| SupplyForm.AcceptedNumberIsSaved | frontend/src/components/supplies/SupplyForm.tsx:250-251 | a number the validator accepts is what `parseFloat` saves |
| SupplyForm.SavedOdometerTruncates | frontend/src/components/supplies/SupplyForm.tsx:249 | the saved odometer is the accepted reading truncated toward zero |
| SuppliesPage.DefaultFuelIsFirstOption | frontend/src/types/supply.ts:3-15 | the supply form's default fuel is the first fuel option |
| SuppliesPage.Conditions | frontend/src/pages/SuppliesPage.tsx:78-89 | each non-empty filter adds its condition, and only then |
| SuppliesPage.Normalise | frontend/src/pages/SuppliesPage.tsx:94-97 | each fetched supply keeps its place and fields, with its vehicle join reduced to one row or none |
| SuppliesPage.Search | frontend/src/pages/SuppliesPage.tsx:256-263 | the search keeps, in order, exactly the supplies whose lower-cased plate, model or fuel contains the lower-cased term |
| SuppliesPage.EmptySearchKeepsAll | frontend/src/pages/SuppliesPage.tsx:256-263 | an empty term keeps every supply |
| SuppliesPage.SearchIgnoresTermCase | frontend/src/pages/SuppliesPage.tsx:257 | a term and its lower-case form find the same supplies |
| SuppliesPage.ClearFilters | frontend/src/pages/SuppliesPage.tsx:137-143 | all four filters are cleared, the page is 0, and the query has no condition |
| SuppliesPage.DeleteSupply | frontend/src/pages/SuppliesPage.tsx:164-180 | only rows with the deleted id leave the list, and the order is kept |
| SuppliesPage.HandleDeleteSupply | frontend/src/pages/SuppliesPage.tsx:164-180 | nothing changes without a picked supply, without a tenant, or when the delete fails; after a successful delete no listed row has the id, the rest keep their order, and filters and page stay |
| SuppliesPage.UpsertsFor | frontend/src/pages/SuppliesPage.tsx:234-245 | one upsert per option with a filled-in price, carrying that price, and none for any other |
| SuppliesPage.PriceUpserts | frontend/src/pages/SuppliesPage.tsx:234-245 | saving the settings upserts exactly the fuel options whose price is filled in |
| SuppliesPage.PricesOf | frontend/src/pages/SuppliesPage.tsx:116-119 | the price map has exactly the fuels of the stored rows, each with the price of one of its rows |
| SuppliesPage.PricesOfLastRowWins | frontend/src/pages/SuppliesPage.tsx:116-119 | when a fuel is stored in several rows, the map takes the price of the last row read |
| SuppliesPage.Upsert | frontend/src/pages/SuppliesPage.tsx:236-243 | an upsert on (tenant, fuel) sets that fuel's price and leaves every other stored price alone, and afterwards every row of the fuel is the new row |
| SuppliesPage.UpsertAllPrices | frontend/src/pages/SuppliesPage.tsx:234-245 | after a run of upserts, the upserted fuels carry their new prices, and every other stored fuel keeps its price |
| SuppliesPage.SavedPricesReload | frontend/src/pages/SuppliesPage.tsx:108-123 | starting from any stored rows, reloading after a save shows the new price of every filled-in fuel option and the old price of every other stored fuel, since the save deletes nothing |
| MaintenanceForm.OptionsAreTheTypes | frontend/src/components/maintenances/MaintenanceForm.tsx:40-41 | the select options are exactly the category and status types, and each is read back from its name |
| MaintenanceForm.Failing | frontend/src/components/maintenances/MaintenanceForm.tsx:105-117 | a field fails exactly when the vehicle, type or status is empty, the description is blank, or a cost is truthy and has no numeric prefix |
| MaintenanceForm.DescriptionCheckIsTrim | frontend/src/components/maintenances/MaintenanceForm.tsx:108 | the description check is `description.trim()` being empty |
| MaintenanceForm.Validate | frontend/src/components/maintenances/MaintenanceForm.tsx:105-121 | the error map has exactly the failing fields, each with its message |
| MaintenanceForm.ValidIffAllChecksPass | frontend/src/components/maintenances/MaintenanceForm.tsx:119-120 | the form is valid exactly when every check passes |
| MaintenanceForm.InitialFailsOnVehicleAndDescription | frontend/src/components/maintenances/MaintenanceForm.tsx:23-34 | a new maintenance fails on the vehicle and description only |
| MaintenanceForm.HandleChange | frontend/src/components/maintenances/MaintenanceForm.tsx:123-129 | the edited field takes the value and loses its error; other fields and errors stay |
| MaintenanceForm.CostValue | frontend/src/components/maintenances/MaintenanceForm.tsx:171-172 | an empty cost is saved as 0, and any other as `parseFloat` of it |
| MaintenanceForm.SavedCostIsNumberIffAccepted | frontend/src/components/maintenances/MaintenanceForm.tsx:112-117 | a cost is saved as a number exactly when the validator accepts it |
| MaintenanceForm.PrefixCostAccepted | frontend/src/components/maintenances/MaintenanceForm.tsx:112 | "1x" is accepted as a cost and saved as 1, although the supply form rejects it |
| MaintenanceForm.ToPayload | frontend/src/components/maintenances/MaintenanceForm.tsx:163-178 | empty dates are saved as null and the others as typed; each cost is saved as `CostValue` of its text (0 when empty, a number exactly when accepted); supplier and notes are copied, with null as ''; vehicle, type, description, status and tenant are copied |
| MaintenanceForm.Submit | frontend/src/components/maintenances/MaintenanceForm.tsx:139-198 | submit fails without a tenant or with errors; otherwise it updates when editing with an id and inserts otherwise, with the same payload |
| MaintenanceForm.InsertAndUpdateAgree | frontend/src/components/maintenances/MaintenanceForm.tsx:165-198 | the update and the insert carry the same payload |
| MaintenanceForm.ValidSubmitSavesNumbers | frontend/src/components/maintenances/MaintenanceForm.tsx:169-172 | a valid submit never saves a NaN cost |
| MaintenanceForm.LoadedCost | frontend/src/components/maintenances/MaintenanceForm.tsx:83-84 | a stored cost loads as its text, and a missing one as '' |
| MaintenanceForm.LoadedDate | frontend/src/components/maintenances/MaintenanceForm.tsx:85-86 | a stored date loads as its part before "T", and a missing one as '' |
| MaintenanceForm.Load | frontend/src/components/maintenances/MaintenanceForm.tsx:81-87 | a stored maintenance loads with its costs as text and its dates cut to the day; vehicle, type, description, status, supplier and notes are loaded as stored |
| MaintenanceForm.LoadedCostSavedBack | frontend/src/components/maintenances/MaintenanceForm.tsx:83 | a loaded cost saves back as the stored number, and a missing one as 0 |
| MaintenanceForm.LoadedDateSavedBack | frontend/src/components/maintenances/MaintenanceForm.tsx:85 | a loaded plain date saves back as the stored date, and a missing one as null |
| MaintenanceForm.LoadThenSave | frontend/src/components/maintenances/MaintenanceForm.tsx:81-87 | saving a loaded maintenance unchanged writes back its vehicle, type, description and status as stored, its costs (missing ones as 0), its plain dates, and its supplier and notes with null as '' |
| Drivers.OptionsAreTheTypes | frontend/src/types/driver.ts:1-2 | the CNH categories and driver statuses are read back from their names, and each appears among the form's options |
| DriverForm.TestEmail | frontend/src/components/drivers/DriverForm.tsx:107 | the search answers true exactly when `\S+@\S+\.\S+` occurs somewhere in the e-mail |
| DriverForm.TestAfterAt | frontend/src/components/drivers/DriverForm.tsx:107 | from a given '@', the search answers true exactly when the rest of the pattern follows it |
| DriverForm.EmailExamples | frontend/src/components/drivers/DriverForm.tsx:107 | "ana@frota.com" and "x y@z.w" match; "ana@frota" and "ana@fro ta.com" do not |
| DriverForm.Failing | frontend/src/components/drivers/DriverForm.tsx:94-109 | a field fails exactly when one of the nine required fields is empty (four of them after trimming), or when a non-empty e-mail lacks the pattern |
| DriverForm.TrimmedChecksAreTrim | frontend/src/components/drivers/DriverForm.tsx:96-100 | the name, CPF, phone and CNH checks are `x.trim()` being empty |
| DriverForm.Validate | frontend/src/components/drivers/DriverForm.tsx:94-113 | the error map has exactly the failing fields, each with its message |
| DriverForm.ValidIffAllChecksPass | frontend/src/components/drivers/DriverForm.tsx:111-112 | the form is valid exactly when every check passes |
| DriverForm.InitialFailures | frontend/src/components/drivers/DriverForm.tsx:23-45 | a new driver fails on the seven fields that have no default |
| DriverForm.Flatten | frontend/src/components/drivers/DriverForm.tsx:68-78 | each address part loads as itself or '', and no address loads as seven '' |
| DriverForm.Assemble | frontend/src/components/drivers/DriverForm.tsx:145-153 | each address input is saved as itself, or as null when empty |
| DriverForm.FlattenThenAssemble | frontend/src/components/drivers/DriverForm.tsx:145-153 | loading an address and saving it unchanged gives it back, with '' stored as null; no address comes back as seven nulls |
| DriverForm.AssembleThenFlatten | frontend/src/components/drivers/DriverForm.tsx:71-77 | saving the inputs and loading them back restores the inputs, with null shown as '' |
| DriverForm.ToSave | frontend/src/components/drivers/DriverForm.tsx:155-172 | the address is assembled, empty optional texts become null, no optional text is saved as '', and the required texts, dates and status are copied |
| DriverForm.Submit | frontend/src/components/drivers/DriverForm.tsx:131-189 | submit fails without a tenant or with errors; otherwise it updates when editing with an id and inserts otherwise |
| DriverForm.Load | frontend/src/components/drivers/DriverForm.tsx:67-78 | a stored driver loads with its address flattened into the seven inputs and every other field copied as stored |
| DriverForm.LoadThenSave | frontend/src/components/drivers/DriverForm.tsx:68-78 | saving a loaded driver unchanged writes back every stored field: the address, e-mail, photo URL, emergency contacts and notes up to '' against null, and name, CPF, phone, CNH number and category, the three dates and the status as they were |
| DriverDetail.Piece | frontend/src/pages/DriverDetailPage.tsx:145-151 | a part adds nothing exactly when it is missing or empty |
| DriverDetail.AppendPresentEmptyIff | frontend/src/pages/DriverDetailPage.tsx:144-151 | the address text is empty exactly when no part is present |
| DriverDetail.FullAddress | frontend/src/pages/DriverDetailPage.tsx:144-151 | the step-by-step `+=` text is the present parts in order, each after its separator |
| DriverDetail.AddressText | frontend/src/pages/DriverDetailPage.tsx:141-153 | no address shows "N/A"; otherwise the address text is shown, or "N/A" when it is empty |
| DriverDetail.EmptyAddressShowsNA | frontend/src/pages/DriverDetailPage.tsx:152 | an address shows "N/A" exactly when none of its parts is present (or its text is literally "N/A") |
| DriverDetail.Capitalize | frontend/src/pages/DriverDetailPage.tsx:198 | the first letter is upper-cased, and the rest is kept |
| DriverDetail.CapitalizeOnlyChangesCase | frontend/src/pages/DriverDetailPage.tsx:198 | capitalising changes letter case only |
| DriverDetail.StatusColour | frontend/src/pages/DriverDetailPage.tsx:198 | success exactly for "ativo", error exactly for "inativo" or "desligado", and default for every other status |
| MaintenancesPage.Conditions | frontend/src/pages/MaintenancesPage.tsx:69-80 | each non-empty filter adds its condition, and only then |
| MaintenancesPage.Normalise | frontend/src/pages/MaintenancesPage.tsx:87-90 | each fetched maintenance keeps its place and fields, with its vehicle join reduced to one row or none |
| MaintenancesPage.Truncate | frontend/src/pages/MaintenancesPage.tsx:287 | a description of at most 50 characters is shown whole; a longer one is shown as its first 50 characters followed by "..." |
| MaintenancesPage.TruncateUnchanged | frontend/src/pages/MaintenancesPage.tsx:287 | the cell equals the description exactly when it has at most 50 characters, or has 53 and already ends in "..." |
| MaintenancesPage.VehicleCell | frontend/src/pages/MaintenancesPage.tsx:285 | no vehicle shows "N/A (N/A)"; otherwise the cell is the plate or 'N/A', then " (", then the model or 'N/A', then ")" |
| MaintenancesPage.ClearFilters | frontend/src/pages/MaintenancesPage.tsx:112-119 | all four filters are cleared, the page is 0, and the query has no condition |
| MaintenancesPage.DeleteMaintenance | frontend/src/pages/MaintenancesPage.tsx:139-155 | only rows with the deleted id leave the list, and the order is kept |
| MaintenancesPage.HandleDeleteMaintenance | frontend/src/pages/MaintenancesPage.tsx:140-156 | nothing changes without a picked maintenance, without a tenant, or when the delete fails; after a successful delete no listed row has the id, the rest keep their order, and filters and page stay |
| DriverPhoto.FileExtension | frontend/src/components/DriverPhotoUpload.tsx:50 | the extension is a suffix of the name with no '.', and the whole name when the name has no '.' |
| DriverPhoto.PhotoFileName | frontend/src/components/DriverPhotoUpload.tsx:51 | the stored name ends with '.' and the extension, so reading its extension gives the original extension |
| DriverPhoto.PhotoPath | frontend/src/components/DriverPhotoUpload.tsx:50-52 | the path lies in the tenant's folder and keeps the picked file's extension |
| DriverPhoto.HandleFileUpload | frontend/src/components/DriverPhotoUpload.tsx:28-52 | no upload without a file or tenant; a non-image is rejected, then an image over 5 MiB; anything else is uploaded to the photo path |
| DriverPhoto.SizeLimitIsInclusive | frontend/src/components/DriverPhotoUpload.tsx:45-47 | exactly 5 MiB is uploaded, and one byte more is rejected |
| DriverPhoto.RemovalPath | frontend/src/components/DriverPhotoUpload.tsx:77-85 | a removal happens exactly with a URL, a tenant and a non-empty last URL segment, at the tenant folder plus that segment |
| DriverPhoto.RemovalFindsUploadedPhoto | frontend/src/components/DriverPhotoUpload.tsx:77-85 | removing a photo just uploaded deletes the very path it was stored at |
| VehicleForm.Initial | frontend/src/components/vehicles/VehicleForm.tsx:17-28 | a new vehicle is an empty car, active, on flex fuel, at 0 km, built and modelled this year, with no price or consumption |
| VehicleForm.HandleChange | frontend/src/components/vehicles/VehicleForm.tsx:59-66 | a number input keeps '' as text and stores `parseFloat` of anything else; other inputs store the text; other keys stay |
| VehicleForm.KeepIfTruthy | frontend/src/components/vehicles/VehicleForm.tsx:95-96 | an optional number is kept, as `Number` of it, exactly when it is truthy |
| VehicleForm.ToSave | frontend/src/components/vehicles/VehicleForm.tsx:89-97 | the years and km become numbers, the price and consumption become numbers when truthy and are dropped otherwise, and other keys stay |
| VehicleForm.ZeroPriceIsDropped | frontend/src/components/vehicles/VehicleForm.tsx:95 | a price of 0, '' or none is not saved |
| VehicleForm.TypedPriceIsSaved | frontend/src/components/vehicles/VehicleForm.tsx:62-64 | a non-zero price typed into the number input is saved as that number |
| VehicleForm.Submit | frontend/src/components/vehicles/VehicleForm.tsx:74-108 | fails exactly without a user, or when plate, brand or model is falsy; otherwise it saves the coerced draft, updating exactly in edit mode with an id |
| VehicleForm.AfterSave | frontend/src/components/vehicles/VehicleForm.tsx:115-121 | after a creation the form is back to the initial defaults, whatever was typed; after an edit it is kept as it was |
| VehicleForm.CreatedFormCannotBeResubmitted | frontend/src/components/vehicles/VehicleForm.tsx:117-121 | after any successful creation the reset form fails the required-field check, whatever was created and whatever mode or id the next submit carries |

## Left out

- Database and storage calls are not modelled. This covers select, insert, update, delete, upsert, upload and remove. Each submit stops at the write it would perform (`SaveAction`, `UploadOutcome`, `DeletePlan`). `getPublicUrl` is a function parameter.
- Async fetching, effects and React re-rendering are not modelled, because they are concurrency, not contracts. Each effect is a plain function applied to the state it reads (`SyncFuelType`, `SyncDefaultPrice`). The double `setDocuments` on the driver detail page is left out.
- Dates are whole day numbers. The millisecond arithmetic appears only in `Validity.ClassifyMillis`, which is proved to agree with the day model on midnight timestamps. DST skew and time zones are left out.
- Clocks and randomness are parameters: `Date.now()`, `new Date()` and `Math.random()`. So are `toISOString` and `toLocaleDateString`, and `toString` of a stored cost (the `show` parameter).
- Floating-point precision is left out. Numbers are exact reals. `Number`/`parseFloat` read signs, digits and one decimal point. Exponents, hexadecimal, `Infinity` and numeric separators are not parsed. They read as NaN, or as a shorter prefix.
- `new URL(x).pathname` is not modelled. The caller supplies it as a partial function, `None` where the constructor throws (`Documents.PlanDelete`, `DocumentForm.Submit`).
- `toLowerCase`/`toUpperCase` map only ASCII and Latin-1 letters.
- The file download (fetch, blob and a DOM anchor) is I/O and is left out.
- Auth context, routing, layout, theme, dashboard data and the registration page are UI plumbing and are left out.
- The driver form's `handleChange`/`handleSelectChange` are left out. They are the same field-and-error update as `MaintenanceForm.HandleChange`. The photo-upload callbacks that write the photo URL into the form are left out too.
- The capitalised status and type cells of the maintenances table are left out. They are display-only `charAt(0).toUpperCase()` calls, like `DriverDetail.Capitalize`. The supplies table's vehicle cell is the same as `MaintenancesPage.VehicleCell`.
- The supplies and maintenances pages do not count rows: their queries ask for no count, and their paginators are given `count={-1}` (SuppliesPage.tsx:450, MaintenancesPage.tsx:316). Their lists keep the total they had, which is 0 from `Paging.Initial`.
- MaintenancesPage.Truncate: the model counts characters, while `length` and `substring` count UTF-16 code units. A description written entirely in characters outside the Basic Multilingual Plane takes two units per character. Thirty car emoji are 60 units: the page shows the first 25 followed by "...", but the model shows all thirty. A cut at an odd unit can also split a surrogate pair, which the model cannot express.

## Findings

| source | as written | input that shows it | evidently intended | confidence | as-written member | corrected member |
|---|---|---|---|---|---|---|
| frontend/src/pages/DocumentsPage.tsx:307 | the chip label upper-cases every `\b\w` match; `\w` is ASCII only, so an accented letter ends a word (the same code is in DocumentDetailPage.tsx:230 and DriverDetailPage.tsx:258) | status "válido" | "Válido", each word capitalised once | not executed | Validity.LabelAsWrittenBreaksAtAccents | Validity.LabelOfValid |

=== FILE: document_form.dfy ===
/** The document form: its state, the change handlers, the submit guard,
    the file decisions of a submit and the record it saves. */
module DocumentForm {
  import opened Wrappers
  import opened Strings
  import opened Numbers
  import opened Documents

  /** A file picked in the file input. */
  datatype PickedFile = PickedFile(name: string, size: nat, mimeType: string)

  /** `DocumentFormData`. `entityType` is the select's text: '' until a kind is chosen. */
  datatype FormData = FormData(
    documentName: string,
    documentType: string,
    customDescription: string,
    description: Option<string>,
    entityType: string,
    entityId: string,
    issueDate: Option<string>,
    expirationDate: Option<string>,
    issuingAuthority: Option<string>,
    documentNumber: Option<string>,
    fileToUpload: Option<PickedFile>,
    currentFileName: Option<string>,
    removeCurrentFile: bool,
    notes: Option<string>)

  /** The form together with the file name it shows. */
  datatype Editor = Editor(form: FormData, shownFileName: string)

  /** The state of a new document's form. */
  const Blank: Editor := Editor(
    FormData("", "", "", Some(""), "", "", None, None, Some(""), Some(""), None, None, false, Some("")),
    "")

  /** The text inputs and selects `handleChange` serves, by their `name`. */
  datatype Field =
    | DocumentName | DocumentType | CustomDescription | Description | EntityType | EntityId
    | IssueDate | ExpirationDate | IssuingAuthority | DocumentNumber | Notes

  /** The current value of a field. */
  function Get(f: FormData, field: Field): Option<string> {
    match field
    case DocumentName => Some(f.documentName)
    case DocumentType => Some(f.documentType)
    case CustomDescription => Some(f.customDescription)
    case Description => f.description
    case EntityType => Some(f.entityType)
    case EntityId => Some(f.entityId)
    case IssueDate => f.issueDate
    case ExpirationDate => f.expirationDate
    case IssuingAuthority => f.issuingAuthority
    case DocumentNumber => f.documentNumber
    case Notes => f.notes
  }

  /** `{ ...prev, [name]: value }`. */
  function Set(f: FormData, field: Field, value: string): (r: FormData)
    ensures Get(r, field) == Some(value)
    ensures forall g :: g != field ==> Get(r, g) == Get(f, g)
    ensures r.fileToUpload == f.fileToUpload && r.currentFileName == f.currentFileName
    ensures r.removeCurrentFile == f.removeCurrentFile
  {
    match field
    case DocumentName => f.(documentName := value)
    case DocumentType => f.(documentType := value)
    case CustomDescription => f.(customDescription := value)
    case Description => f.(description := Some(value))
    case EntityType => f.(entityType := value)
    case EntityId => f.(entityId := value)
    case IssueDate => f.(issueDate := Some(value))
    case ExpirationDate => f.(expirationDate := Some(value))
    case IssuingAuthority => f.(issuingAuthority := Some(value))
    case DocumentNumber => f.(documentNumber := Some(value))
    case Notes => f.(notes := Some(value))
  }

  /** `handleChange`: set the field; a type other than "Outro" also empties
      the custom description, and a new entity kind empties the chosen entity. */
  function HandleChange(f: FormData, field: Field, value: string): (r: FormData)
    ensures Get(r, field) == Some(value)
    ensures field == DocumentType && value != Other.Name() ==> r.customDescription == ""
    ensures field == EntityType ==> r.entityId == ""
    ensures forall g ::
      (g != field && !(g == CustomDescription && field == DocumentType && value != Other.Name())
       && !(g == EntityId && field == EntityType)) ==> Get(r, g) == Get(f, g)
    ensures r.fileToUpload == f.fileToUpload && r.currentFileName == f.currentFileName
    ensures r.removeCurrentFile == f.removeCurrentFile
  {
    var r := Set(f, field, value);
    var r := if field == DocumentType && value != "Outro" then Set(r, CustomDescription, "") else r;
    if field == EntityType then Set(r, EntityId, "") else r
  }

  /** Choosing "Outro" keeps what was typed as its description. */
  lemma ChoosingOtherKeepsDescription(f: FormData)
    ensures HandleChange(f, DocumentType, Other.Name()).customDescription == f.customDescription
  {
  }

  /** `handleFileChange`: a picked file replaces any pending one and cancels
      a removal; an empty pick drops the pending file and, when there is no
      current file, the shown name. */
  function HandleFileChange(e: Editor, picked: Option<PickedFile>): (r: Editor)
    ensures picked.Some? ==>
      (r.form.fileToUpload == picked && !r.form.removeCurrentFile && r.shownFileName == picked.value.name)
    ensures picked.None? ==> r.form.fileToUpload.None? && r.form.removeCurrentFile == e.form.removeCurrentFile
    ensures picked.None? && !Truthy(e.form.currentFileName) ==> r.shownFileName == ""
    ensures picked.None? && Truthy(e.form.currentFileName) ==> r.shownFileName == e.shownFileName
    ensures forall g :: Get(r.form, g) == Get(e.form, g)
    ensures r.form.currentFileName == e.form.currentFileName
  {
    match picked
    case Some(file) => Editor(e.form.(fileToUpload := Some(file), removeCurrentFile := false), file.name)
    case None =>
      Editor(e.form.(fileToUpload := None), if !Truthy(e.form.currentFileName) then "" else e.shownFileName)
  }

  /** `handleRemoveFile`. */
  function HandleRemoveFile(e: Editor): (r: Editor)
    ensures r.form.fileToUpload.None? && r.form.removeCurrentFile && r.shownFileName == ""
    ensures forall g :: Get(r.form, g) == Get(e.form, g)
    ensures r.form.currentFileName == e.form.currentFileName
  {
    Editor(e.form.(fileToUpload := None, removeCurrentFile := true), "")
  }

  /** Picking a file after removing the current one cancels the removal. */
  lemma PickAfterRemoveCancelsRemoval(e: Editor, file: PickedFile)
    ensures !HandleFileChange(HandleRemoveFile(e), Some(file)).form.removeCurrentFile
    ensures HandleFileChange(HandleRemoveFile(e), Some(file)).form.fileToUpload == Some(file)
  {
  }

  /** A stored document as the edit form loads it. */
  datatype StoredDocument = StoredDocument(
    documentName: Option<string>,
    documentType: Option<string>,
    customDescription: Option<string>,
    description: Option<string>,
    entityType: Option<string>,
    entityId: Option<string>,
    issueDate: Option<string>,
    expirationDate: Option<string>,
    issuingAuthority: Option<string>,
    documentNumber: Option<string>,
    fileName: Option<string>,
    notes: Option<string>)

  /** `fetchDocumentData`: nulls become '', timestamps keep their date part,
      and nothing is pending or marked for removal. */
  function Load(d: StoredDocument): (e: Editor)
    ensures e.form.documentName == EmptyIfNull(d.documentName)
    ensures e.form.documentType == EmptyIfNull(d.documentType)
    ensures e.form.customDescription == EmptyIfNull(d.customDescription)
    ensures e.form.description == Some(EmptyIfNull(d.description)) && e.form.notes == Some(EmptyIfNull(d.notes))
    ensures e.form.issuingAuthority == Some(EmptyIfNull(d.issuingAuthority))
    ensures e.form.documentNumber == Some(EmptyIfNull(d.documentNumber))
    ensures e.form.entityType == EmptyIfNull(d.entityType) && e.form.entityId == EmptyIfNull(d.entityId)
    ensures e.form.issueDate.None? <==> !Truthy(d.issueDate)
    ensures Truthy(d.issueDate) ==> e.form.issueDate == Some(DatePart(d.issueDate.value))
    ensures e.form.expirationDate.None? <==> !Truthy(d.expirationDate)
    ensures Truthy(d.expirationDate) ==> e.form.expirationDate == Some(DatePart(d.expirationDate.value))
    ensures e.form.currentFileName == NullIfEmpty(d.fileName)
    ensures e.form.fileToUpload.None? && !e.form.removeCurrentFile
    ensures e.shownFileName == EmptyIfNull(d.fileName)
  {
    Editor(
      FormData(
        EmptyIfNull(d.documentName), EmptyIfNull(d.documentType), EmptyIfNull(d.customDescription),
        Some(EmptyIfNull(d.description)), EmptyIfNull(d.entityType), EmptyIfNull(d.entityId),
        if Truthy(d.issueDate) then Some(DatePart(d.issueDate.value)) else None,
        if Truthy(d.expirationDate) then Some(DatePart(d.expirationDate.value)) else None,
        Some(EmptyIfNull(d.issuingAuthority)), Some(EmptyIfNull(d.documentNumber)),
        None, NullIfEmpty(d.fileName), false, Some(EmptyIfNull(d.notes))),
      EmptyIfNull(d.fileName))
  }

  /** Why a submit stops before saving. */
  datatype SubmitError = NotSignedIn | NoEntity | StoredUrlRejected(url: string)

  /** The submit button is disabled while saving or while no entity is chosen. */
  function SubmitDisabled(f: FormData, busy: bool): (d: bool)
    ensures !busy ==> (d <==> f.entityType == "" || f.entityId == "")
    ensures busy ==> d
  {
    busy || f.entityType == "" || f.entityId == ""
  }

  /** The submit guards, in order: a signed-in tenant, then a chosen entity. */
  function CheckSubmit(user: Option<User>, f: FormData): (r: Result<string, SubmitError>)
    ensures r == Err(NotSignedIn) <==> TenantOf(user).None?
    ensures r == Err(NoEntity) <==> TenantOf(user).Some? && (f.entityType == "" || f.entityId == "")
    ensures r.Ok? ==> TenantOf(user) == Some(r.value) && r.value != "" && !SubmitDisabled(f, false)
  {
    match TenantOf(user)
    case None => Err(NotSignedIn)
    case Some(tenant) =>
      if f.entityType == "" || f.entityId == "" then Err(NoEntity) else Ok(tenant)
  }

  /** For a signed-in tenant an enabled submit button always passes the entity guard. */
  lemma EnabledButtonPassesEntityGuard(user: Option<User>, f: FormData)
    requires TenantOf(user).Some? && !SubmitDisabled(f, false)
    ensures CheckSubmit(user, f) == Ok(TenantOf(user).value)
  {
  }

  /** The stored file is kept only when editing, there is one, it is not
      marked for removal and no new file is pending. */
  predicate KeepsCurrentFile(isEdit: bool, f: FormData) {
    isEdit && Truthy(f.currentFileName) && !f.removeCurrentFile && f.fileToUpload.None?
  }

  /** The stored file is removed when asked to, or when a new file replaces it. */
  predicate RemovesCurrentFile(isEdit: bool, f: FormData) {
    (isEdit && f.removeCurrentFile && Truthy(f.currentFileName)) ||
    (f.fileToUpload.Some? && isEdit && Truthy(f.currentFileName) && !f.removeCurrentFile)
  }

  /** Removing the stored file reads its path with `new URL(file_url)`,
      which throws on a URL it rejects (`pathnameOf` gives `None`). */
  predicate RejectsStoredUrl(isEdit: bool, f: FormData, storedUrl: Option<string>,
                             pathnameOf: string -> Option<string>) {
    RemovesCurrentFile(isEdit, f) && Truthy(storedUrl) && pathnameOf(storedUrl.value).None?
  }

  /** `tenant/entity_type/entity_id/<now>_<name>`: the file lands in the
      tenant's folder, and when no part holds a '/' the path splits back
      into tenant, entity type, entity id and the stamped file name. */
  function UploadPath(tenant: string, f: FormData, now: nat, file: PickedFile): (p: string)
    ensures StartsWith(p, tenant + "/")
    ensures '/' !in tenant && '/' !in f.entityType && '/' !in f.entityId && '/' !in file.name ==>
      Split(p, "/") == [tenant, f.entityType, f.entityId, NatText(now) + "_" + file.name]
  {
    var stamped := NatText(now) + "_" + file.name;
    var p := tenant + ("/" + (f.entityType + ("/" + (f.entityId + ("/" + stamped)))));
    assert p[..|tenant| + 1] == tenant + "/";
    if '/' !in tenant && '/' !in f.entityType && '/' !in f.entityId && '/' !in file.name then
      UploadPathSplits(tenant, f.entityType, f.entityId, stamped);
      p
    else p
  }

  /** Four '/'-free parts joined by '/' split back into those parts. */
  lemma UploadPathSplits(a: string, b: string, c: string, d: string)
    requires '/' !in a && '/' !in b && '/' !in c && '/' !in d
    ensures Split(a + ("/" + (b + ("/" + (c + ("/" + d))))), "/") == [a, b, c, d]
  {
    SplitWithoutChar(d, '/');
    SplitBefore(c, d, [d]);
    SplitBefore(b, c + ("/" + d), [c, d]);
    SplitBefore(a, b + ("/" + (c + ("/" + d))), [b, c, d]);
  }

  /** One more '/'-free part in front adds one more piece in front. */
  lemma SplitBefore(a: string, rest: string, pieces: seq<string>)
    requires '/' !in a && Split(rest, "/") == pieces
    ensures Split(a + ("/" + rest), "/") == [a] + pieces
  {
    SplitAtFirstChar(a, '/', rest);
  }

  /** The file columns of the saved record. */
  datatype FileColumns = FileColumns(url: Option<string>, name: Option<string>, size: Option<nat>, mimeType: Option<string>)

  /** The file columns after the submit's file steps. `storedUrl` is the
      current row's `file_url`; `publicUrl` is the bucket's URL for a path. */
  function FileColumnsOf(isEdit: bool, f: FormData, tenant: string, now: nat,
                         storedUrl: Option<string>, publicUrl: string -> string): (c: FileColumns)
    ensures f.fileToUpload.Some? ==>
      c == FileColumns(Some(publicUrl(UploadPath(tenant, f, now, f.fileToUpload.value))),
                       Some(f.fileToUpload.value.name), Some(f.fileToUpload.value.size),
                       Some(f.fileToUpload.value.mimeType))
    ensures KeepsCurrentFile(isEdit, f) ==> c == FileColumns(NullIfEmpty(storedUrl), f.currentFileName, None, None)
    ensures f.fileToUpload.None? && !KeepsCurrentFile(isEdit, f) ==> c == FileColumns(None, None, None, None)
  {
    var keep := KeepsCurrentFile(isEdit, f);
    var c := if keep then FileColumns(NullIfEmpty(storedUrl), f.currentFileName, None, None)
             else FileColumns(None, None, None, None);
    var c := if isEdit && f.removeCurrentFile && Truthy(f.currentFileName) then c.(url := None, name := None) else c;
    match f.fileToUpload
    case Some(file) =>
      FileColumns(Some(publicUrl(UploadPath(tenant, f, now, file))), Some(file.name), Some(file.size), Some(file.mimeType))
    case None => c
  }

  /** `documentToSave`. */
  datatype SavedDocument = SavedDocument(
    tenantId: string,
    documentName: string,
    documentType: string,
    customDescription: Option<string>,
    description: Option<string>,
    entityType: string,
    entityId: string,
    vehicleId: Option<string>,
    driverId: Option<string>,
    issueDate: Option<string>,
    expirationDate: Option<string>,
    issuingAuthority: Option<string>,
    documentNumber: Option<string>,
    file: FileColumns,
    notes: Option<string>)

  function ToSave(tenant: string, f: FormData, file: FileColumns): (s: SavedDocument)
    ensures s.tenantId == tenant && s.entityId == f.entityId && s.file == file
    ensures s.documentName == f.documentName && s.documentType == f.documentType && s.entityType == f.entityType
    ensures s.vehicleId.Some? <==> f.entityType == VehicleKind.Name()
    ensures s.driverId.Some? <==> f.entityType == DriverKind.Name()
    ensures s.vehicleId.Some? ==> s.vehicleId.value == f.entityId
    ensures s.driverId.Some? ==> s.driverId.value == f.entityId
    ensures f.documentType == Other.Name() ==> s.customDescription == Some(f.customDescription)
    ensures f.documentType != Other.Name() ==> s.customDescription.None?
    ensures s.description == NullIfEmpty(f.description) && s.notes == NullIfEmpty(f.notes)
    ensures s.issueDate == NullIfEmpty(f.issueDate) && s.expirationDate == NullIfEmpty(f.expirationDate)
    ensures s.issuingAuthority == NullIfEmpty(f.issuingAuthority) && s.documentNumber == NullIfEmpty(f.documentNumber)
  {
    SavedDocument(
      tenant, f.documentName, f.documentType,
      if f.documentType == "Outro" then Some(f.customDescription) else None,
      NullIfEmpty(f.description), f.entityType, f.entityId,
      if f.entityType == "vehicle" then Some(f.entityId) else None,
      if f.entityType == "driver" then Some(f.entityId) else None,
      NullIfEmpty(f.issueDate), NullIfEmpty(f.expirationDate),
      NullIfEmpty(f.issuingAuthority), NullIfEmpty(f.documentNumber),
      file, NullIfEmpty(f.notes))
  }

  /** The write a submit performs: `update(...).eq("id", id)` or `insert`. */
  datatype SaveAction = Insert(record: SavedDocument) | Update(id: string, record: SavedDocument)

  /** The whole submit up to the database write: the guards, then the file
      steps, where a stored URL that `new URL` rejects throws into the catch
      and nothing is saved, then an update in edit mode with a route id and
      an insert otherwise. */
  function Submit(isEdit: bool, id: Option<string>, user: Option<User>, f: FormData, now: nat, storedUrl: Option<string>,
                  publicUrl: string -> string, pathnameOf: string -> Option<string>): (r: Result<SaveAction, SubmitError>)
    ensures r.Err? <==> CheckSubmit(user, f).Err? || RejectsStoredUrl(isEdit, f, storedUrl, pathnameOf)
    ensures CheckSubmit(user, f).Err? ==> r.error == CheckSubmit(user, f).error
    ensures CheckSubmit(user, f).Ok? && RejectsStoredUrl(isEdit, f, storedUrl, pathnameOf) ==>
      r == Err(StoredUrlRejected(storedUrl.value))
    ensures r.Ok? ==> var tenant := TenantOf(user).value;
      r.value.record == ToSave(tenant, f, FileColumnsOf(isEdit, f, tenant, now, storedUrl, publicUrl))
    ensures r.Ok? ==> (r.value.Update? <==> isEdit && Truthy(id))
    ensures r.Ok? && r.value.Update? ==> r.value.id == id.value
  {
    match CheckSubmit(user, f)
    case Err(e) => Err(e)
    case Ok(t) =>
      if RejectsStoredUrl(isEdit, f, storedUrl, pathnameOf) then Err(StoredUrlRejected(storedUrl.value))
      else
        var record := ToSave(t, f, FileColumnsOf(isEdit, f, t, now, storedUrl, publicUrl));
        if isEdit && Truthy(id) then Ok(Update(id.value, record)) else Ok(Insert(record))
  }

  /** The stored URL is parsed only on the way to removing the stored file:
      a submit that keeps it, or that has none to remove, does not depend on
      how `new URL` treats the URL. */
  lemma UrlMattersOnlyForRemoval(isEdit: bool, id: Option<string>, user: Option<User>, f: FormData, now: nat, storedUrl: Option<string>,
                                 publicUrl: string -> string, p1: string -> Option<string>, p2: string -> Option<string>)
    requires !RemovesCurrentFile(isEdit, f)
    ensures Submit(isEdit, id, user, f, now, storedUrl, publicUrl, p1) == Submit(isEdit, id, user, f, now, storedUrl, publicUrl, p2)
  {
  }

  /** Saving an edit form straight after it loaded writes the document back:
      the same entity and texts, '' stored as null, plain dates unchanged,
      and the stored file kept. */
  lemma LoadThenSaveKeepsDocument(d: StoredDocument, id: string, user: Option<User>, now: nat, storedUrl: Option<string>,
                                  publicUrl: string -> string, pathnameOf: string -> Option<string>)
    requires id != "" && TenantOf(user).Some? && Truthy(d.entityType) && Truthy(d.entityId)
    ensures var r := Submit(true, Some(id), user, Load(d).form, now, storedUrl, publicUrl, pathnameOf);
      r.Ok? && r.value.Update? && r.value.id == id
    ensures var r := Submit(true, Some(id), user, Load(d).form, now, storedUrl, publicUrl, pathnameOf).value.record;
      r.tenantId == TenantOf(user).value &&
      r.entityType == d.entityType.value && r.entityId == d.entityId.value &&
      r.documentName == EmptyIfNull(d.documentName) &&
      r.description == NullIfEmpty(d.description) && r.notes == NullIfEmpty(d.notes) &&
      r.issuingAuthority == NullIfEmpty(d.issuingAuthority) &&
      r.documentNumber == NullIfEmpty(d.documentNumber)
    ensures var r := Submit(true, Some(id), user, Load(d).form, now, storedUrl, publicUrl, pathnameOf).value.record;
      r.documentType == EmptyIfNull(d.documentType) &&
      (EmptyIfNull(d.documentType) == Other.Name() ==> r.customDescription == Some(EmptyIfNull(d.customDescription))) &&
      (EmptyIfNull(d.documentType) != Other.Name() ==> r.customDescription.None?)
    ensures var r := Submit(true, Some(id), user, Load(d).form, now, storedUrl, publicUrl, pathnameOf).value.record;
      (!Truthy(d.issueDate) ==> r.issueDate.None?) &&
      (Truthy(d.issueDate) && !Contains(d.issueDate.value, "T") ==> r.issueDate == d.issueDate) &&
      (!Truthy(d.expirationDate) ==> r.expirationDate.None?) &&
      (Truthy(d.expirationDate) && !Contains(d.expirationDate.value, "T") ==> r.expirationDate == d.expirationDate)
    ensures var r := Submit(true, Some(id), user, Load(d).form, now, storedUrl, publicUrl, pathnameOf).value.record;
      (Truthy(d.fileName) ==> r.file == FileColumns(NullIfEmpty(storedUrl), d.fileName, None, None)) &&
      (!Truthy(d.fileName) ==> r.file == FileColumns(None, None, None, None))
  {
    if Truthy(d.issueDate) && !Contains(d.issueDate.value, "T") {
      DatePartOfDate(d.issueDate.value);
    }
    if Truthy(d.expirationDate) && !Contains(d.expirationDate.value, "T") {
      DatePartOfDate(d.expirationDate.value);
    }
  }

  /** A saved document of a chosen kind references exactly one entity: the
      chosen one, in the column of its kind. */
  lemma SavedReferencesOneEntity(isEdit: bool, id: Option<string>, user: Option<User>, f: FormData, now: nat, storedUrl: Option<string>,
                                 publicUrl: string -> string, pathnameOf: string -> Option<string>)
    requires ReadEntityKind(f.entityType).Some?
    requires Submit(isEdit, id, user, f, now, storedUrl, publicUrl, pathnameOf).Ok?
    ensures var s := Submit(isEdit, id, user, f, now, storedUrl, publicUrl, pathnameOf).value.record;
      (s.vehicleId.Some? != s.driverId.Some?) &&
      (s.vehicleId.Some? ==> s.vehicleId.value != "" && ReadEntityKind(f.entityType) == Some(VehicleKind)) &&
      (s.driverId.Some? ==> s.driverId.value != "" && ReadEntityKind(f.entityType) == Some(DriverKind))
  {
  }
}

=== FILE: documents.dfy ===
/** Document records and the display rules the documents list, the document
    detail page and the driver detail page share: the associated-entity label,
    the type label with its "Outro" override, the association prefix and the
    storage path a delete removes. */
module Documents {
  import opened Wrappers
  import opened Strings

  /** `DocumentEntityType`. */
  datatype EntityKind = VehicleKind | DriverKind {
    function Name(): string {
      match this
      case VehicleKind => "vehicle"
      case DriverKind => "driver"
    }
  }

  /** The text of a select whose value is "" or an entity kind. */
  function ReadEntityKind(s: string): (k: Option<EntityKind>)
    ensures k.Some? ==> k.value.Name() == s
    ensures k.None? ==> s != "vehicle" && s != "driver"
  {
    if s == "vehicle" then Some(VehicleKind)
    else if s == "driver" then Some(DriverKind)
    else None
  }

  lemma ReadEntityKindOfName(k: EntityKind)
    ensures ReadEntityKind(k.Name()) == Some(k)
  {
  }

  /** `KnownDocumentType`. */
  datatype KnownDocumentType =
    | Cnh | Crlv | InsurancePolicy | InspectionCertificate | CourseCertificate
    | ProofOfAddress | Rg | Cpf | Other
  {
    function Name(): string {
      match this
      case Cnh => "CNH"
      case Crlv => "CRLV"
      case InsurancePolicy => "Apólice de Seguro"
      case InspectionCertificate => "Certificado de Inspeção Veicular"
      case CourseCertificate => "Certificado de Curso"
      case ProofOfAddress => "Comprovante de Endereço"
      case Rg => "RG"
      case Cpf => "CPF"
      case Other => "Outro"
    }
  }

  /** The type whose name is `s`, if it is a known one. */
  function ReadKnownType(s: string): (t: Option<KnownDocumentType>)
    ensures t.Some? ==> t.value.Name() == s
  {
    if s == "CNH" then Some(Cnh)
    else if s == "CRLV" then Some(Crlv)
    else if s == "Apólice de Seguro" then Some(InsurancePolicy)
    else if s == "Certificado de Inspeção Veicular" then Some(InspectionCertificate)
    else if s == "Certificado de Curso" then Some(CourseCertificate)
    else if s == "Comprovante de Endereço" then Some(ProofOfAddress)
    else if s == "RG" then Some(Rg)
    else if s == "CPF" then Some(Cpf)
    else if s == "Outro" then Some(Other)
    else None
  }

  /** Every known type is read back from its own name, so the names are distinct. */
  lemma ReadKnownTypeOfName(t: KnownDocumentType)
    ensures ReadKnownType(t.Name()) == Some(t)
  {
  }

  /** The joined `vehicles!vehicle_id(plate, model)` row. */
  datatype JoinedVehicle = JoinedVehicle(plate: string, model: Option<string>)

  /** The joined `drivers!driver_id(name, cpf)` row. */
  datatype JoinedDriver = JoinedDriver(name: string, cpf: Option<string>)

  /** A document row as the list and detail queries return it. */
  datatype DocumentRow = DocumentRow(
    id: string,
    documentName: string,
    documentType: string,
    customDescription: Option<string>,
    entityType: EntityKind,
    vehicle: Option<JoinedVehicle>,
    driver: Option<JoinedDriver>,
    expirationDate: Option<string>,
    fileUrl: Option<string>)

  /** `main (detail || 'N/A')`: the main text, then the detail, or 'N/A'
      without one, in brackets after a space. */
  function Labelled(main: string, detail: Option<string>): (r: string)
    ensures |r| == |main| + |OrElse(detail, "N/A")| + 3
    ensures r[..|main|] == main && r[|main|..|main| + 2] == " ("
    ensures r[|main| + 2..|r| - 1] == OrElse(detail, "N/A") && r[|r| - 1] == ')'
  {
    main + " (" + OrElse(detail, "N/A") + ")"
  }

  /** The associated-entity label, when the row of its own kind was joined:
      a vehicle shows its plate and model, a driver its name and CPF. */
  function EntityLabel(row: DocumentRow): (r: Option<string>)
    ensures r.Some? <==> (row.entityType == VehicleKind && row.vehicle.Some?) ||
                         (row.entityType == DriverKind && row.driver.Some?)
    ensures row.entityType == VehicleKind && row.vehicle.Some? ==>
      r == Some(Labelled(row.vehicle.value.plate, row.vehicle.value.model))
    ensures row.entityType == DriverKind && row.driver.Some? ==>
      r == Some(Labelled(row.driver.value.name, row.driver.value.cpf))
    ensures r.Some? ==> r.value != ""
  {
    if row.entityType == VehicleKind && row.vehicle.Some? then
      Some(Labelled(row.vehicle.value.plate, row.vehicle.value.model))
    else if row.entityType == DriverKind && row.driver.Some? then
      Some(Labelled(row.driver.value.name, row.driver.value.cpf))
    else None
  }

  /** `entity_display` in the documents list: the label, or '' without one. */
  function ListEntityDisplay(row: DocumentRow): (r: string)
    ensures r == "" <==> EntityLabel(row).None?
    ensures EntityLabel(row).Some? ==> r == EntityLabel(row).value
  {
    match EntityLabel(row)
    case Some(l) => l
    case None => ""
  }

  /** The list's entity cell, `entity_display || 'N/A'`. */
  function ListEntityCell(row: DocumentRow): string
  {
    OrElse(Some(ListEntityDisplay(row)), "N/A")
  }

  /** `entityDisplay` on the detail page: the label, or 'N/A' without one. */
  function DetailEntityDisplay(row: DocumentRow): (r: string)
    ensures EntityLabel(row).None? ==> r == "N/A"
    ensures EntityLabel(row).Some? ==> r == EntityLabel(row).value
  {
    match EntityLabel(row)
    case Some(l) => l
    case None => "N/A"
  }

  /** The list cell and the detail page show the same text for every row. */
  lemma ListCellAgreesWithDetail(row: DocumentRow)
    ensures ListEntityCell(row) == DetailEntityDisplay(row)
  {
  }

  /** The type label: for "Outro" the custom description, or "Outro" when
      there is none; any other type is shown as it is. */
  function TypeLabel(documentType: string, customDescription: Option<string>): (r: string)
    ensures documentType != Other.Name() ==> r == documentType
    ensures documentType == Other.Name() && Truthy(customDescription) ==> r == customDescription.value
    ensures documentType == Other.Name() && !Truthy(customDescription) ==> r == Other.Name()
  {
    if documentType == "Outro" then OrElse(customDescription, "Outro") else documentType
  }

  /** The label of a non-empty type is never empty. */
  lemma TypeLabelNotEmpty(documentType: string, customDescription: Option<string>)
    requires documentType != ""
    ensures TypeLabel(documentType, customDescription) != ""
  {
  }

  /** "Associado a": 'Veículo' for a vehicle, 'Motorista' otherwise. */
  function AssociationPrefix(k: EntityKind): (r: string)
    ensures r == "Veículo" <==> k == VehicleKind
    ensures r == "Motorista" <==> k == DriverKind
  {
    if k.Name() == "vehicle" then "Veículo" else "Motorista"
  }

  /** `${prefix}: ${name}`: the line names the entity's kind first and
      ends with the entity's name. */
  function AssociatedTo(k: EntityKind, entityName: string): (r: string)
    ensures StartsWith(r, "Veículo: ") <==> k == VehicleKind
    ensures StartsWith(r, "Motorista: ") <==> k == DriverKind
    ensures |entityName| <= |r| && r[|r| - |entityName|..] == entityName
  {
    var head := AssociationPrefix(k) + ": ";
    var r := head + entityName;
    assert r[..|head|] == head && r[0] == head[0];
    r
  }

  /** The marker the delete handlers split the file URL's path on. */
  const StorageMarker: string := "/render/storage/v1/object/public/"

  /** `pathname.split(marker)[1]`, kept only when truthy. */
  function StoragePath(pathname: string): (r: Option<string>)
    ensures !Contains(pathname, StorageMarker) ==> r.None?
    ensures r.Some? ==> r.value != "" && !Contains(r.value, StorageMarker)
    ensures r.Some? ==> Contains(pathname, StorageMarker + r.value)
  {
    var parts := Split(pathname, StorageMarker);
    SplitManyIffContains(pathname, StorageMarker);
    SplitPiecesFree(pathname, StorageMarker);
    if |parts| > 1 && parts[1] != "" then
      SecondPieceFollowsMarker(pathname, StorageMarker);
      Some(parts[1])
    else None
  }

  /** The second piece of a split sits right after an occurrence of the separator. */
  lemma {:induction false} SecondPieceFollowsMarker(s: string, sep: string)
    requires |sep| > 0 && |Split(s, sep)| > 1
    ensures Contains(s, sep + Split(s, sep)[1])
    decreases |s|
  {
    var parts := Split(s, sep);
    if |s| < |sep| {
    } else if s[..|sep|] == sep {
      var rest := s[|sep|..];
      var p := Split(rest, sep)[0];
      assert parts[1] == p;
      assert p <= rest;
      assert s[..|sep| + |p|] == sep + p;
      assert OccursAt(s, sep + p, 0);
    } else {
      SecondPieceFollowsMarker(s[1..], sep);
      var rest := Split(s[1..], sep);
      assert parts[1] == rest[1];
      ContainsTail(s, sep + parts[1]);
    }
  }

  /** A public file path is read back from the pathname it was published under. */
  lemma StoragePathOfPublished(p: string)
    requires p != "" && !Contains(p, StorageMarker)
    ensures StoragePath(StorageMarker + p) == Some(p)
  {
    var s := StorageMarker + p;
    assert s[..|StorageMarker|] == StorageMarker;
    assert s[|StorageMarker|..] == p;
    SplitWithoutSeparator(p, StorageMarker);
  }

  /** What a confirmed delete does: the storage file it removes, if any, and
      then the row itself. */
  datatype DeletePlan = DeletePlan(removeFile: Option<string>, deleteRowId: string)

  /** Why a delete stops before it touches storage or the table. */
  datatype DeleteFailure = InvalidFileUrl(url: string)

  /** The delete handlers up to the storage and database calls. The caller
      supplies `new URL(url).pathname` as `pathnameOf`, `None` where the
      constructor throws (a relative or malformed URL). That throw lands in
      the handler's `catch`, so neither the file nor the row is deleted. A
      URL that parses but has no storage path only skips the file removal. */
  function PlanDelete(row: DocumentRow, pathnameOf: string -> Option<string>): (r: Result<DeletePlan, DeleteFailure>)
    ensures r.Ok? <==> !Truthy(row.fileUrl) || pathnameOf(row.fileUrl.value).Some?
    ensures r.Err? ==> Truthy(row.fileUrl) && r.error == InvalidFileUrl(row.fileUrl.value)
    ensures r.Ok? ==> r.value.deleteRowId == row.id
    ensures r.Ok? && !Truthy(row.fileUrl) ==> r.value.removeFile.None?
    ensures r.Ok? && Truthy(row.fileUrl) ==> r.value.removeFile == StoragePath(pathnameOf(row.fileUrl.value).value)
  {
    if !Truthy(row.fileUrl) then Ok(DeletePlan(None, row.id))
    else match pathnameOf(row.fileUrl.value)
      case None => Err(InvalidFileUrl(row.fileUrl.value))
      case Some(pathname) => Ok(DeletePlan(StoragePath(pathname), row.id))
  }

  /** A row whose file was published under the storage marker has that file
      removed along with the row. */
  lemma DeleteRemovesPublishedFile(row: DocumentRow, pathnameOf: string -> Option<string>, p: string)
    requires Truthy(row.fileUrl) && pathnameOf(row.fileUrl.value) == Some(StorageMarker + p)
    requires p != "" && !Contains(p, StorageMarker)
    ensures PlanDelete(row, pathnameOf) == Ok(DeletePlan(Some(p), row.id))
  {
    StoragePathOfPublished(p);
  }
}

=== FILE: documents_page.dfy ===
/** The documents list: its six filters, the query they build, the rows
    the fetch turns into table rows, the status filter applied after the
    fetch, and the clear and delete handlers. */
module DocumentsPage {
  import opened Wrappers
  import opened Lists
  import opened Paging
  import opened Validity
  import opened Documents

  /** The filter fields; '' (here `None` for the two selects) means "all". */
  datatype Filters = Filters(
    documentName: string,
    documentType: string,
    entityType: Option<EntityKind>,
    entityId: string,
    entityName: string,
    status: Option<Status>)

  const NoFilters: Filters := Filters("", "", None, "", "", None)

  /** One condition the list query adds to `tenant_id = tenant`. */
  datatype Condition =
    | NameLike(pattern: string)
    | TypeIs(documentType: string)
    | EntityTypeIs(kind: EntityKind)
    | VehicleIdIs(vehicleId: string)
    | DriverIdIs(driverId: string)

  /** The conditions of the list query, in the order the code adds them. The
      status filter is not among them: it runs on the fetched page. */
  function Conditions(f: Filters): (cs: seq<Condition>)
    ensures NameLike("%" + f.documentName + "%") in cs <==> f.documentName != ""
    ensures TypeIs(f.documentType) in cs <==> f.documentType != ""
    ensures forall k :: EntityTypeIs(k) in cs <==> f.entityType == Some(k)
    ensures forall id :: VehicleIdIs(id) in cs <==> f.entityType == Some(VehicleKind) && f.entityId != "" && id == f.entityId
    ensures forall id :: DriverIdIs(id) in cs <==> f.entityType == Some(DriverKind) && f.entityId != "" && id == f.entityId
    ensures |cs| <= 4
  {
    var byName := if f.documentName != "" then [NameLike("%" + f.documentName + "%")] else [];
    var byType := if f.documentType != "" then [TypeIs(f.documentType)] else [];
    var byKind := if f.entityType.Some? then [EntityTypeIs(f.entityType.value)] else [];
    var byEntity :=
      if f.entityId == "" then []
      else match f.entityType
        case Some(VehicleKind) => [VehicleIdIs(f.entityId)]
        case Some(DriverKind) => [DriverIdIs(f.entityId)]
        case None => [];
    byName + byType + byKind + byEntity
  }

  /** Cleared filters add no condition: the query asks for every document of the tenant. */
  lemma ClearedFiltersAddNoCondition()
    ensures Conditions(NoFilters) == []
  {
  }

  /** A fetched document with what the page computes for it. */
  datatype ListedDocument = ListedDocument(row: DocumentRow, status: Status, entityDisplay: string)

  /** The per-row processing: the status from the expiry and the entity display. */
  function Process(data: seq<DocumentRow>, today: int, parse: string -> Option<int>): (r: seq<ListedDocument>)
    ensures |r| == |data|
    ensures forall i :: 0 <= i < |r| ==> r[i].row == data[i]
    ensures forall i :: 0 <= i < |r| ==> r[i].status == Classify(ReadExpiry(data[i].expirationDate, parse), today)
    ensures forall i :: 0 <= i < |r| ==> r[i].entityDisplay == ListEntityDisplay(data[i])
  {
    seq(|data|, i requires 0 <= i < |data| =>
      ListedDocument(data[i], Classify(ReadExpiry(data[i].expirationDate, parse), today), ListEntityDisplay(data[i])))
  }

  /** The status filter on the fetched page. */
  function StatusFilter(docs: seq<ListedDocument>, status: Option<Status>): (r: seq<ListedDocument>)
    ensures status.None? ==> r == docs
    ensures status.Some? ==> forall i :: 0 <= i < |r| ==> r[i].status == status.value
    ensures status.Some? ==> forall i :: 0 <= i < |docs| && docs[i].status == status.value ==> docs[i] in r
    ensures forall i :: 0 <= i < |r| ==> r[i] in docs
    ensures IsSubsequence(r, docs)
  {
    if status.None? then
      SubsequenceOfItself(docs);
      docs
    else
      FilterIsSubsequence(docs, (d: ListedDocument) => d.status == status.value);
      Filter(docs, (d: ListedDocument) => d.status == status.value)
  }

  /** The end of a successful fetch: the processed page after the status
      filter, and `count || 0`. */
  function Fetched(v: ListView<Filters, ListedDocument>, data: seq<DocumentRow>, count: Option<int>,
                   today: int, parse: string -> Option<int>): (r: ListView<Filters, ListedDocument>)
    ensures |r.rows| <= |data|
    ensures r.totalRows == count.GetOr(0)
    ensures v.filters.status.None? ==> |r.rows| == |data|
    ensures r.filters == v.filters && r.page == v.page && r.rowsPerPage == v.rowsPerPage
  {
    Loaded(v, StatusFilter(Process(data, today, parse), v.filters.status), count)
  }

  /** The status filter runs after the count is taken, so the total counts the
      whole query whatever status is chosen. */
  lemma TotalIgnoresStatusFilter(v: ListView<Filters, ListedDocument>, data: seq<DocumentRow>, count: Option<int>,
                                 today: int, parse: string -> Option<int>, s: Option<Status>)
    ensures Fetched(v.(filters := v.filters.(status := s)), data, count, today, parse).totalRows
         == Fetched(v, data, count, today, parse).totalRows
  {
  }

  /** Choosing an entity kind in the filter forgets the chosen entity. */
  function SelectEntityType(f: Filters, k: Option<EntityKind>): (r: Filters)
    ensures r.entityType == k && r.entityId == "" && r.entityName == ""
    ensures r.documentName == f.documentName && r.documentType == f.documentType && r.status == f.status
  {
    f.(entityType := k, entityId := "", entityName := "")
  }

  /** `handleClearFilters`. */
  function ClearFilters(v: ListView<Filters, ListedDocument>): (r: ListView<Filters, ListedDocument>)
    ensures r.filters == NoFilters && r.page == 0
    ensures Conditions(r.filters) == [] && Request(r).first == 0
    ensures r.rows == v.rows && r.totalRows == v.totalRows && r.rowsPerPage == v.rowsPerPage
  {
    Clear(v, NoFilters)
  }

  /** `handleDeleteDocument` after the database delete succeeded: the row
      leaves the list and the total drops by one. */
  function DeleteDocument(v: ListView<Filters, ListedDocument>, id: string): (r: ListView<Filters, ListedDocument>)
    ensures forall i :: 0 <= i < |r.rows| ==> r.rows[i] in v.rows && r.rows[i].row.id != id
    ensures forall i :: 0 <= i < |v.rows| && v.rows[i].row.id != id ==> v.rows[i] in r.rows
    ensures r.totalRows == v.totalRows - 1
    ensures r.filters == v.filters && r.page == v.page && r.rowsPerPage == v.rowsPerPage
  {
    var w := Deleted(v, (d: ListedDocument) => d.row.id, id);
    w.(totalRows := w.totalRows - 1)
  }

  /** On a page of distinct ids, deleting a listed document shortens the page
      by exactly one row, in step with the total. */
  lemma DeleteListedDropsOne(v: ListView<Filters, ListedDocument>, id: string)
    requires DistinctIds(v.rows, (d: ListedDocument) => d.row.id)
    requires exists i :: 0 <= i < |v.rows| && v.rows[i].row.id == id
    ensures |DeleteDocument(v, id).rows| == |v.rows| - 1
    ensures v.totalRows - DeleteDocument(v, id).totalRows == |v.rows| - |DeleteDocument(v, id).rows|
  {
    RemovePresentIdDropsOne(v.rows, (d: ListedDocument) => d.row.id, id);
  }

  /** `handleDeleteDocument` up to the database delete, taken as succeeding:
      without a tenant nothing happens; a file URL that `new URL` rejects
      sends the handler to its `catch` with the list unchanged; otherwise the
      row leaves the list and the total drops by one. */
  function HandleDeleteDocument(v: ListView<Filters, ListedDocument>, row: DocumentRow, user: Option<User>,
                                pathnameOf: string -> Option<string>): (r: ListView<Filters, ListedDocument>)
    ensures r.totalRows == v.totalRows - 1 <==> TenantOf(user).Some? && PlanDelete(row, pathnameOf).Ok?
    ensures TenantOf(user).Some? && PlanDelete(row, pathnameOf).Ok? ==> r == DeleteDocument(v, row.id)
    ensures TenantOf(user).None? || PlanDelete(row, pathnameOf).Err? ==> r == v
  {
    if TenantOf(user).None? then v
    else match PlanDelete(row, pathnameOf)
      case Err(_) => v
      case Ok(plan) => DeleteDocument(v, plan.deleteRowId)
  }
}

=== FILE: driver_detail.dfy ===
/** The driver detail page: the address text, and the status chip with its
    capitalised label and colour. */
module DriverDetail {
  import opened Wrappers
  import opened Strings
  import opened Drivers
  import Validity

  /** What goes in front of each part, in the order of `PrintOrder`. */
  const Separators: seq<string> := ["", ", ", " - ", "\n", " - ", "/", "\nCEP: "]

  /** One part with its separator, or nothing when the part is absent. */
  function Piece(o: Option<string>, sep: string): (r: string)
    ensures r == "" <==> !Truthy(o)
  {
    if Truthy(o) then sep + o.value else ""
  }

  /** The reference reading of the address text: after `acc`, each present
      part with its separator, in order. */
  function AppendPresent(acc: string, seps: seq<string>, parts: seq<Option<string>>): string
    requires |seps| == |parts|
    decreases |parts|
  {
    if parts == [] then acc
    else AppendPresent(acc + Piece(parts[0], seps[0]), seps[1..], parts[1..])
  }

  /** Appending gives nothing exactly when there was nothing and no part is present. */
  lemma {:induction false} AppendPresentEmptyIff(acc: string, seps: seq<string>, parts: seq<Option<string>>)
    requires |seps| == |parts|
    ensures AppendPresent(acc, seps, parts) == "" <==>
      acc == "" && forall i :: 0 <= i < |parts| ==> !Truthy(parts[i])
    decreases |parts|
  {
    if parts != [] {
      AppendPresentEmptyIff(acc + Piece(parts[0], seps[0]), seps[1..], parts[1..]);
      assert forall i :: 1 <= i < |parts| ==> parts[i] == parts[1..][i - 1];
    }
  }

  /** `fullAddress` as the component builds it, one `+=` per present part. */
  function FullAddress(a: Address): (r: string)
    ensures r == AppendPresent("", Separators, PrintOrder(a))
  {
    var s1 := "" + Piece(a.street, "");
    var s2 := s1 + Piece(a.number, ", ");
    var s3 := s2 + Piece(a.complement, " - ");
    var s4 := s3 + Piece(a.neighborhood, "\n");
    var s5 := s4 + Piece(a.city, " - ");
    var s6 := s5 + Piece(a.state, "/");
    var s7 := s6 + Piece(a.cep, "\nCEP: ");
    FullAddressIsAssembled(a, s1, s2, s3, s4, s5, s6, s7);
    s7
  }

  /** Appending the parts one by one, as the component does, is the
      reference reading. */
  lemma FullAddressIsAssembled(a: Address, s1: string, s2: string, s3: string, s4: string,
                               s5: string, s6: string, s7: string)
    requires s1 == "" + Piece(a.street, "") && s2 == s1 + Piece(a.number, ", ")
    requires s3 == s2 + Piece(a.complement, " - ") && s4 == s3 + Piece(a.neighborhood, "\n")
    requires s5 == s4 + Piece(a.city, " - ") && s6 == s5 + Piece(a.state, "/")
    requires s7 == s6 + Piece(a.cep, "\nCEP: ")
    ensures s7 == AppendPresent("", Separators, PrintOrder(a))
  {
    var ss, ps := Separators, PrintOrder(a);
    assert AppendPresent("", ss, ps) == AppendPresent(s1, ss[1..], ps[1..]);
    assert AppendPresent(s1, ss[1..], ps[1..]) == AppendPresent(s2, ss[2..], ps[2..]) by {
      assert ss[1..][1..] == ss[2..] && ps[1..][1..] == ps[2..];
    }
    assert AppendPresent(s2, ss[2..], ps[2..]) == AppendPresent(s3, ss[3..], ps[3..]) by {
      assert ss[2..][1..] == ss[3..] && ps[2..][1..] == ps[3..];
    }
    assert AppendPresent(s3, ss[3..], ps[3..]) == AppendPresent(s4, ss[4..], ps[4..]) by {
      assert ss[3..][1..] == ss[4..] && ps[3..][1..] == ps[4..];
    }
    assert AppendPresent(s4, ss[4..], ps[4..]) == AppendPresent(s5, ss[5..], ps[5..]) by {
      assert ss[4..][1..] == ss[5..] && ps[4..][1..] == ps[5..];
    }
    assert AppendPresent(s5, ss[5..], ps[5..]) == AppendPresent(s6, ss[6..], ps[6..]) by {
      assert ss[5..][1..] == ss[6..] && ps[5..][1..] == ps[6..];
    }
    assert AppendPresent(s6, ss[6..], ps[6..]) == AppendPresent(s7, ss[7..], ps[7..]) by {
      assert ss[6..][1..] == ss[7..] && ps[6..][1..] == ps[7..];
    }
    assert ss[7..] == [] && ps[7..] == [];
  }

  /** `AddressDisplay`: 'N/A' without an address or when no part is present. */
  function AddressText(a: Option<Address>): (r: string)
    ensures a.None? ==> r == "N/A"
    ensures a.Some? ==> (r == "N/A" <==> FullAddress(a.value) == "" || FullAddress(a.value) == "N/A")
    ensures a.Some? && FullAddress(a.value) != "" ==> r == FullAddress(a.value)
  {
    match a
    case None => "N/A"
    case Some(x) => OrElse(Some(FullAddress(x)), "N/A")
  }

  /** An address shows 'N/A' when none of its seven parts is present. */
  lemma EmptyAddressShowsNA(a: Address)
    ensures AddressText(Some(a)) == "N/A" <==>
      (forall i :: 0 <= i < 7 ==> !Truthy(PrintOrder(a)[i])) || FullAddress(a) == "N/A"
  {
    AppendPresentEmptyIff("", Separators, PrintOrder(a));
  }

  /** `s.charAt(0).toUpperCase() + s.slice(1)`. */
  function Capitalize(s: string): (r: string)
    ensures |r| == |s|
    ensures |s| > 0 ==> r[0] == UpperChar(s[0]) && r[1..] == s[1..]
  {
    if s == "" then "" else [UpperChar(s[0])] + s[1..]
  }

  /** Capitalising changes the case of the first letter only. */
  lemma CapitalizeOnlyChangesCase(s: string)
    ensures ToLower(Capitalize(s)) == ToLower(s)
  {
    if s != "" {
      Validity.LowerOfUpper(s[0]);
      assert ToLower(Capitalize(s))[0] == ToLower(s)[0];
    }
  }

  /** The colour of the driver's status chip. */
  function StatusColour(status: string): (c: Validity.ChipColour)
    ensures c == Validity.Success <==> status == Active.Name()
    ensures c == Validity.Error <==> status == Inactive.Name() || status == Dismissed.Name()
    ensures c == Validity.Default <==> ReadDriverStatus(status) != Some(Active) && ReadDriverStatus(status) != Some(Inactive) && ReadDriverStatus(status) != Some(Dismissed)
    ensures c != Validity.Warning
  {
    if status == "ativo" then Validity.Success
    else if status == "inativo" || status == "desligado" then Validity.Error
    else Validity.Default
  }
}

=== FILE: driver_form.dfy ===
/** The driver form: its validation with the e-mail pattern, the address
    the form keeps as seven separate inputs, and the record a submit saves. */
module DriverForm {
  import opened Wrappers
  import opened Strings
  import opened FormErrors
  import opened Drivers

  /** `DriverFormData`; the address is held as its seven `address_*` inputs. */
  datatype FormData = FormData(
    name: string,
    cpf: string,
    birthDate: string,
    phone: string,
    email: Option<string>,
    profilePictureUrl: Option<string>,
    cnhNumber: string,
    cnhCategory: string,
    cnhExpirationDate: string,
    admissionDate: string,
    status: string,
    address: Address,
    emergencyContactName: Option<string>,
    emergencyContactPhone: Option<string>,
    notes: Option<string>)

  /** The fields `validateForm` can find fault with. */
  datatype Field =
    | Name | Cpf | BirthDate | Phone | CnhNumber | CnhCategoryField
    | CnhExpirationDate | AdmissionDate | StatusField | Email

  /** Seven empty address inputs. */
  const EmptyFields: Address := Address(Some(""), Some(""), Some(""), Some(""), Some(""), Some(""), Some(""))

  /** A new driver: empty, category B, active. */
  const Initial: FormData :=
    FormData("", "", "", "", Some(""), Some(""), "", B.Name(), "", "", Active.Name(),
             EmptyFields, Some(""), Some(""), Some(""))

  /** The pattern `\S+@\S+\.\S+` is found with its '@' at `a` and its '.' at
      `b`: a non-space character before the '@', at least one and only
      non-space characters between the two, and a non-space character
      after the '.'. */
  predicate MatchAt(s: string, a: int, b: int) {
    1 <= a && a + 2 <= b && b + 1 < |s| && s[a] == '@' && s[b] == '.' &&
    !IsWhitespace(s[a - 1]) && !IsWhitespace(s[b + 1]) &&
    forall k :: a < k < b ==> !IsWhitespace(s[k])
  }

  /** `/\S+@\S+\.\S+/.test(s)`: the pattern occurs somewhere in `s`. */
  predicate EmailLike(s: string) {
    exists a, b :: 0 <= a < |s| && 0 <= b < |s| && MatchAt(s, a, b)
  }

  /** The search `test` performs: every '@' with a non-space character before
      it is tried in turn. */
  method TestEmail(s: string) returns (found: bool)
    ensures found <==> EmailLike(s)
  {
    found := false;
    var a := 1;
    while a < |s| && !found
      invariant 1 <= a
      invariant found ==> EmailLike(s)
      invariant !found ==> forall x, y :: 0 <= x < a && 0 <= y < |s| ==> !MatchAt(s, x, y)
      decreases |s| - a
    {
      if s[a] == '@' && !IsWhitespace(s[a - 1]) {
        found := TestAfterAt(s, a);
      }
      a := a + 1;
    }
  }

  /** The rest of the search from the '@' at `a`: walk the non-space run after
      it, looking for a '.' that has something before it in the run and a
      non-space character after it. */
  method TestAfterAt(s: string, a: int) returns (found: bool)
    requires 1 <= a < |s| && s[a] == '@' && !IsWhitespace(s[a - 1])
    ensures found <==> exists y :: 0 <= y < |s| && MatchAt(s, a, y)
  {
    found := false;
    var b := a + 1;
    while b + 1 < |s| && !found && !IsWhitespace(s[b])
      invariant a + 1 <= b <= |s|
      invariant forall k :: a < k < b ==> !IsWhitespace(s[k])
      invariant found ==> exists y :: 0 <= y < |s| && MatchAt(s, a, y)
      invariant !found ==> forall y :: 0 <= y < b ==> !MatchAt(s, a, y)
      decreases |s| - b
    {
      if s[b] == '.' && a + 2 <= b && !IsWhitespace(s[b + 1]) {
        found := true;
        assert MatchAt(s, a, b);
      }
      b := b + 1;
    }
    if !found && b + 1 < |s| {
      assert IsWhitespace(s[b]);
      assert !IsWhitespace('.');
      forall y | b <= y < |s| ensures !MatchAt(s, a, y) {
        if y > b {
          assert a < b < y;
        }
      }
    }
  }

  /** The pattern is searched for, not matched against the whole text, and a
      space inside the part after the '@' breaks it. */
  lemma EmailExamples()
    ensures EmailLike("ana@frota.com")
    ensures EmailLike("x y@z.w")
    ensures !EmailLike("ana@frota")
    ensures !EmailLike("ana@fro ta.com")
  {
    assert MatchAt("ana@frota.com", 3, 9);
    assert MatchAt("x y@z.w", 3, 5);
    var s := "ana@fro ta.com";
    forall a, b | 0 <= a < |s| && 0 <= b < |s| ensures !MatchAt(s, a, b) {
      if a != 3 {
        assert s[a] != '@';
      } else if b > 7 {
        assert IsWhitespace(s[7]);
      }
    }
  }

  /** The e-mail check: an empty e-mail is fine, any other must show the pattern. */
  predicate EmailAccepted(email: Option<string>) {
    !Truthy(email) || EmailLike(email.value)
  }

  /** The fields `validateForm` finds fault with. */
  function Failing(f: FormData): (bad: set<Field>)
    ensures Name in bad <==> Blank(f.name)
    ensures Cpf in bad <==> Blank(f.cpf)
    ensures Phone in bad <==> Blank(f.phone)
    ensures CnhNumber in bad <==> Blank(f.cnhNumber)
    ensures BirthDate in bad <==> f.birthDate == ""
    ensures CnhCategoryField in bad <==> f.cnhCategory == ""
    ensures CnhExpirationDate in bad <==> f.cnhExpirationDate == ""
    ensures AdmissionDate in bad <==> f.admissionDate == ""
    ensures StatusField in bad <==> f.status == ""
    ensures Email in bad <==> !EmailAccepted(f.email)
  {
    set g | g in AllFields && Fails(f, g)
  }

  const AllFields: set<Field> :=
    {Name, Cpf, BirthDate, Phone, CnhNumber, CnhCategoryField, CnhExpirationDate, AdmissionDate, StatusField, Email}

  /** The check of one field, in the words of the validator. */
  predicate Fails(f: FormData, g: Field) {
    match g
    case Name => Blank(f.name)
    case Cpf => Blank(f.cpf)
    case BirthDate => f.birthDate == ""
    case Phone => Blank(f.phone)
    case CnhNumber => Blank(f.cnhNumber)
    case CnhCategoryField => f.cnhCategory == ""
    case CnhExpirationDate => f.cnhExpirationDate == ""
    case AdmissionDate => f.admissionDate == ""
    case StatusField => f.status == ""
    case Email => !EmailAccepted(f.email)
  }

  /** The four trimmed checks are `x.trim()` being empty. */
  lemma TrimmedChecksAreTrim(f: FormData, g: Field)
    requires g == Name || g == Cpf || g == Phone || g == CnhNumber
    ensures g in Failing(f) <==> Trim(match g case Name => f.name case Cpf => f.cpf
                                                case Phone => f.phone case _ => f.cnhNumber) == ""
  {
    match g
    case Name => TrimEmptyIffBlank(f.name);
    case Cpf => TrimEmptyIffBlank(f.cpf);
    case Phone => TrimEmptyIffBlank(f.phone);
    case CnhNumber => TrimEmptyIffBlank(f.cnhNumber);
  }

  /** The message shown under a failing field. */
  function Message(g: Field): string {
    match g
    case Name => "Nome completo é obrigatório."
    case Cpf => "CPF é obrigatório."
    case BirthDate => "Data de nascimento é obrigatória."
    case Phone => "Telefone é obrigatório."
    case CnhNumber => "Número da CNH é obrigatório."
    case CnhCategoryField => "Categoria da CNH é obrigatória."
    case CnhExpirationDate => "Data de validade da CNH é obrigatória."
    case AdmissionDate => "Data de admissão é obrigatória."
    case StatusField => "Status é obrigatório."
    case Email => "Formato de e-mail inválido."
  }

  /** `validateForm`: a message for every failing field. */
  function Validate(f: FormData): (errs: map<Field, string>)
    ensures errs.Keys == Failing(f)
    ensures forall g :: g in errs ==> errs[g] == Message(g)
  {
    map g | g in Failing(f) :: Message(g)
  }

  /** The form is valid exactly when every required field is filled and the
      e-mail, if any, shows the pattern. */
  lemma ValidIffAllChecksPass(f: FormData)
    ensures NoErrors(Validate(f)) <==>
      !Blank(f.name) && !Blank(f.cpf) && !Blank(f.phone) && !Blank(f.cnhNumber) &&
      f.birthDate != "" && f.cnhCategory != "" && f.cnhExpirationDate != "" &&
      f.admissionDate != "" && f.status != "" && EmailAccepted(f.email)
  {
    var e := Validate(f);
    NoErrorsIffNoKey(e);
    assert NoErrors(e) <==> Failing(f) == {};
  }

  /** A new form asks for the seven fields without a default. */
  lemma InitialFailures()
    ensures Failing(Initial) == {Name, Cpf, BirthDate, Phone, CnhNumber, CnhExpirationDate, AdmissionDate}
  {
    assert Blank(Initial.name);
  }

  /** `x || ''` kept as a present string. */
  function Filled(o: Option<string>): (r: Option<string>)
    ensures r.Some? && NullIfEmpty(r) == NullIfEmpty(o)
  {
    Some(EmptyIfNull(o))
  }

  /** Loading: `address?.part || ''` for each part, all '' without an address. */
  function Flatten(a: Option<Address>): (r: Address)
    ensures a.None? ==> r == EmptyFields
    ensures a.Some? ==> r == MapParts(a.value, Filled)
  {
    match a
    case None => EmptyFields
    case Some(x) => MapParts(x, Filled)
  }

  /** Submitting: `address_part || null` for each input. */
  function Assemble(fields: Address): (r: Address)
    ensures r == MapParts(fields, NullIfEmpty)
    ensures SameModuloEmpty(r, fields)
  {
    NullIfEmptyTwice(fields);
    MapParts(fields, NullIfEmpty)
  }

  lemma NullIfEmptyTwice(a: Address)
    ensures MapParts(MapParts(a, NullIfEmpty), NullIfEmpty) == MapParts(a, NullIfEmpty)
  {
  }

  /** Loading an address and submitting it unchanged gives the stored
      address back, with '' parts stored as null; no address at all comes back
      as seven nulls. */
  lemma FlattenThenAssemble(a: Option<Address>)
    ensures a.Some? ==> SameModuloEmpty(Assemble(Flatten(a)), a.value)
    ensures a.Some? ==> Assemble(Flatten(a)) == MapParts(a.value, NullIfEmpty)
    ensures a.None? ==> Assemble(Flatten(a)) == Address(None, None, None, None, None, None, None)
  {
    if a.Some? {
      NullIfEmptyTwice(a.value);
    }
  }

  /** Submitting the inputs and loading the result back restores the inputs,
      with null inputs shown as ''. */
  lemma AssembleThenFlatten(fields: Address)
    ensures Flatten(Some(Assemble(fields))) == MapParts(fields, Filled)
    ensures SameModuloEmpty(Flatten(Some(Assemble(fields))), fields)
  {
  }

  /** The record `dataToSave` builds. */
  datatype SavedDriver = SavedDriver(
    name: string,
    cpf: string,
    birthDate: string,
    phone: string,
    email: Option<string>,
    profilePictureUrl: Option<string>,
    cnhNumber: string,
    cnhCategory: string,
    cnhExpirationDate: string,
    admissionDate: string,
    status: string,
    address: Address,
    emergencyContactName: Option<string>,
    emergencyContactPhone: Option<string>,
    notes: Option<string>,
    tenantId: string)

  /** No optional text is saved as ''. */
  predicate NoEmptyText(d: SavedDriver) {
    d.email != Some("") && d.profilePictureUrl != Some("") &&
    d.emergencyContactName != Some("") && d.emergencyContactPhone != Some("") && d.notes != Some("") &&
    MapParts(d.address, NullIfEmpty) == d.address
  }

  /** `dataToSave`: the address assembled and the optional texts `|| null`. */
  function ToSave(f: FormData, tenant: string): (d: SavedDriver)
    ensures NoEmptyText(d)
    ensures d.address == Assemble(f.address)
    ensures d.email == NullIfEmpty(f.email) && d.notes == NullIfEmpty(f.notes)
    ensures d.profilePictureUrl == NullIfEmpty(f.profilePictureUrl)
    ensures d.emergencyContactName == NullIfEmpty(f.emergencyContactName)
    ensures d.emergencyContactPhone == NullIfEmpty(f.emergencyContactPhone)
    ensures d.name == f.name && d.cpf == f.cpf && d.cnhNumber == f.cnhNumber && d.tenantId == tenant
    ensures d.birthDate == f.birthDate && d.phone == f.phone && d.cnhCategory == f.cnhCategory
    ensures d.cnhExpirationDate == f.cnhExpirationDate && d.admissionDate == f.admissionDate
    ensures d.status == f.status
  {
    NullIfEmptyTwice(f.address);
    SavedDriver(f.name, f.cpf, f.birthDate, f.phone, NullIfEmpty(f.email), NullIfEmpty(f.profilePictureUrl),
                f.cnhNumber, f.cnhCategory, f.cnhExpirationDate, f.admissionDate, f.status,
                Assemble(f.address), NullIfEmpty(f.emergencyContactName), NullIfEmpty(f.emergencyContactPhone),
                NullIfEmpty(f.notes), tenant)
  }

  /** The write a submit performs. */
  datatype SaveAction = Insert(data: SavedDriver) | Update(id: string, data: SavedDriver)

  datatype SubmitError = NotSignedIn | Invalid(errors: map<Field, string>)

  /** `handleSubmit` up to the database write. */
  function Submit(user: Option<User>, f: FormData, isEdit: bool, driverId: Option<string>): (r: Result<SaveAction, SubmitError>)
    ensures TenantOf(user).None? <==> r == Err(NotSignedIn)
    ensures r.Ok? <==> TenantOf(user).Some? && NoErrors(Validate(f))
    ensures TenantOf(user).Some? && !NoErrors(Validate(f)) ==> r == Err(Invalid(Validate(f)))
    ensures r.Ok? ==> r.value.data == ToSave(f, TenantOf(user).value)
    ensures r.Ok? ==> (r.value.Update? <==> isEdit && Truthy(driverId))
  {
    var tenant := TenantOf(user);
    if tenant.None? then Err(NotSignedIn)
    else
      var errs := Validate(f);
      if !NoErrors(errs) then Err(Invalid(errs))
      else
        var d := ToSave(f, tenant.value);
        if isEdit && Truthy(driverId) then Ok(Update(driverId.value, d)) else Ok(Insert(d))
  }

  /** A stored driver as the edit form loads it. */
  datatype StoredDriver = StoredDriver(
    name: string,
    cpf: string,
    birthDate: string,
    phone: string,
    email: Option<string>,
    profilePictureUrl: Option<string>,
    cnhNumber: string,
    cnhCategory: string,
    cnhExpirationDate: string,
    admissionDate: string,
    status: string,
    address: Option<Address>,
    emergencyContactName: Option<string>,
    emergencyContactPhone: Option<string>,
    notes: Option<string>)

  /** `fetchDriverDetails`: the stored row, with the address flattened into its inputs. */
  function Load(d: StoredDriver): (f: FormData)
    ensures f.address == Flatten(d.address)
    ensures f.name == d.name && f.cpf == d.cpf && f.birthDate == d.birthDate && f.phone == d.phone
    ensures f.email == d.email && f.profilePictureUrl == d.profilePictureUrl
    ensures f.cnhNumber == d.cnhNumber && f.cnhCategory == d.cnhCategory
    ensures f.cnhExpirationDate == d.cnhExpirationDate && f.admissionDate == d.admissionDate
    ensures f.status == d.status && f.notes == d.notes
    ensures f.emergencyContactName == d.emergencyContactName && f.emergencyContactPhone == d.emergencyContactPhone
  {
    FormData(d.name, d.cpf, d.birthDate, d.phone, d.email, d.profilePictureUrl, d.cnhNumber,
             d.cnhCategory, d.cnhExpirationDate, d.admissionDate, d.status, Flatten(d.address),
             d.emergencyContactName, d.emergencyContactPhone, d.notes)
  }

  /** Saving a loaded driver unchanged writes back what was stored, up to ''
      against null. */
  lemma LoadThenSave(d: StoredDriver, tenant: string)
    ensures var s := ToSave(Load(d), tenant);
      (d.address.Some? ==> SameModuloEmpty(s.address, d.address.value)) &&
      (d.address.None? ==> s.address == Address(None, None, None, None, None, None, None)) &&
      s.email == NullIfEmpty(d.email) && s.notes == NullIfEmpty(d.notes) &&
      s.name == d.name && s.cpf == d.cpf && s.status == d.status
    ensures var s := ToSave(Load(d), tenant);
      s.phone == d.phone && s.cnhNumber == d.cnhNumber && s.cnhCategory == d.cnhCategory &&
      s.birthDate == d.birthDate && s.cnhExpirationDate == d.cnhExpirationDate &&
      s.admissionDate == d.admissionDate && s.tenantId == tenant
    ensures var s := ToSave(Load(d), tenant);
      s.profilePictureUrl == NullIfEmpty(d.profilePictureUrl) &&
      s.emergencyContactName == NullIfEmpty(d.emergencyContactName) &&
      s.emergencyContactPhone == NullIfEmpty(d.emergencyContactPhone)
  {
    FlattenThenAssemble(d.address);
  }
}

=== FILE: driver_photo.dfy ===
/** The driver photo widget: which picked files are uploaded, where they are
    stored, and which stored file a removal deletes. The storage calls
    themselves are not modelled; the random file stem is a parameter. */
module DriverPhoto {
  import opened Wrappers
  import opened Strings

  /** The largest photo accepted, 5 MiB. */
  const MaxPhotoBytes: nat := 5 * 1024 * 1024

  const NotAnImage: string := "Por favor, selecione apenas arquivos de imagem."
  const TooLarge: string := "A imagem deve ter no máximo 5MB."

  /** The first file of the input. */
  datatype PhotoFile = PhotoFile(name: string, mimeType: string, size: nat)

  /** What `handleFileUpload` does with a picked file. */
  datatype UploadOutcome =
    | NoUpload
    | Rejected(message: string)
    | Upload(path: string)

  /** `name.split('.').pop()`: after the last '.', or the whole name without one. */
  function FileExtension(name: string): (ext: string)
    ensures |ext| <= |name| && name[|name| - |ext|..] == ext
    ensures '.' !in ext
    ensures '.' !in name ==> ext == name
  {
    LastPieceSuffix(name, ".");
    ContainsCharIff(LastPiece(name, "."), '.');
    ContainsCharIff(name, '.');
    if '.' !in name then LastPieceWithoutSeparator(name, "."); LastPiece(name, ".")
    else LastPiece(name, ".")
  }

  /** The stored file name: the random stem, a '.', and the extension. */
  function PhotoFileName(stem: string, name: string): (f: string)
    ensures f != "" && '.' in f
    ensures LastPiece(f, ".") == FileExtension(name)
  {
    LastPieceAfterChar(stem, '.', FileExtension(name));
    stem + "." + FileExtension(name)
  }

  /** The storage path: inside the tenant's folder, keeping the file's extension. */
  function PhotoPath(tenant: string, stem: string, name: string): (p: string)
    ensures StartsWith(p, tenant + "/")
    ensures LastPiece(p, ".") == FileExtension(name)
  {
    var p := tenant + "/" + PhotoFileName(stem, name);
    assert p == (tenant + "/" + stem) + "." + FileExtension(name);
    LastPieceAfterChar(tenant + "/" + stem, '.', FileExtension(name));
    assert p[..|tenant + "/"|] == tenant + "/";
    p
  }

  /** `handleFileUpload` up to the storage call. */
  function HandleFileUpload(file: Option<PhotoFile>, user: Option<User>, stem: string): (r: UploadOutcome)
    ensures r == NoUpload <==> file.None? || TenantOf(user).None?
    ensures r == Rejected(NotAnImage) <==>
      file.Some? && TenantOf(user).Some? && !StartsWith(file.value.mimeType, "image/")
    ensures r == Rejected(TooLarge) <==>
      file.Some? && TenantOf(user).Some? && StartsWith(file.value.mimeType, "image/") && file.value.size > MaxPhotoBytes
    ensures r.Upload? <==>
      file.Some? && TenantOf(user).Some? && StartsWith(file.value.mimeType, "image/") && file.value.size <= MaxPhotoBytes
    ensures r.Upload? ==> r.path == PhotoPath(TenantOf(user).value, stem, file.value.name)
  {
    if file.None? then NoUpload
    else if TenantOf(user).None? then NoUpload
    else if !StartsWith(file.value.mimeType, "image/") then Rejected(NotAnImage)
    else if file.value.size > MaxPhotoBytes then Rejected(TooLarge)
    else Upload(PhotoPath(TenantOf(user).value, stem, file.value.name))
  }

  /** The size limit is inclusive: exactly 5 MiB goes up, one byte more does not. */
  lemma SizeLimitIsInclusive(name: string, user: Option<User>, stem: string)
    requires TenantOf(user).Some?
    ensures HandleFileUpload(Some(PhotoFile(name, "image/png", MaxPhotoBytes)), user, stem).Upload?
    ensures HandleFileUpload(Some(PhotoFile(name, "image/png", MaxPhotoBytes + 1)), user, stem) == Rejected(TooLarge)
  {
  }

  /** `handleRemovePhoto` up to the storage call: the path it removes, if any. */
  function RemovalPath(url: Option<string>, user: Option<User>): (r: Option<string>)
    ensures r.Some? <==> Truthy(url) && TenantOf(user).Some? && LastPiece(url.value, "/") != ""
    ensures r.Some? ==> r.value == TenantOf(user).value + "/" + LastPiece(url.value, "/")
    ensures r.Some? ==> '/' !in LastPiece(url.value, "/")
  {
    if !Truthy(url) || TenantOf(user).None? then None
    else
      var f := LastPiece(url.value, "/");
      LastPieceSuffix(url.value, "/");
      ContainsCharIff(f, '/');
      if f == "" then None else Some(TenantOf(user).value + "/" + f)
  }

  /** Removing the photo just uploaded deletes the file that was stored, as
      long as its public URL ends with the storage path and neither the
      stem nor the picked name holds a '/'. */
  lemma RemovalFindsUploadedPhoto(user: Option<User>, stem: string, name: string, base: string)
    requires TenantOf(user).Some?
    requires '/' !in stem && '/' !in name
    ensures var p := PhotoPath(TenantOf(user).value, stem, name);
      RemovalPath(Some(base + p), user) == Some(p)
  {
    var tenant := TenantOf(user).value;
    var f := PhotoFileName(stem, name);
    var ext := FileExtension(name);
    assert forall i :: 0 <= i < |ext| ==> ext[i] == name[|name| - |ext| + i];
    assert '/' !in ext;
    assert '/' !in f by { assert f == stem + "." + ext; }
    var url := base + PhotoPath(tenant, stem, name);
    assert url == (base + tenant) + "/" + f;
    LastPieceAfterChar(base + tenant, '/', f);
  }
}

=== FILE: drivers.dfy ===
/** Driver records: the CNH categories, the driver statuses and the
    address, which the database keeps as one object of seven nullable parts. */
module Drivers {
  import opened Wrappers

  /** `CnhCategoryType`. */
  datatype CnhCategory = A | B | AB | C | D | E | Acc {
    function Name(): string {
      match this
      case A => "A"
      case B => "B"
      case AB => "AB"
      case C => "C"
      case D => "D"
      case E => "E"
      case Acc => "ACC"
    }
  }

  /** `DriverStatusType`. */
  datatype DriverStatus = Active | Inactive | OnVacation | OnLeave | Dismissed {
    function Name(): string {
      match this
      case Active => "ativo"
      case Inactive => "inativo"
      case OnVacation => "férias"
      case OnLeave => "afastado"
      case Dismissed => "desligado"
    }
  }

  /** The category select's options, in the order the form lists them. */
  const CnhOptions: seq<CnhCategory> := [A, B, AB, C, D, E, Acc]

  /** The status select's options, in the order the form lists them. */
  const StatusOptions: seq<DriverStatus> := [Active, Inactive, OnVacation, OnLeave, Dismissed]

  function ReadCnhCategory(s: string): (c: Option<CnhCategory>)
    ensures c.Some? ==> c.value.Name() == s
  {
    if s == "A" then Some(A)
    else if s == "B" then Some(B)
    else if s == "AB" then Some(AB)
    else if s == "C" then Some(C)
    else if s == "D" then Some(D)
    else if s == "E" then Some(E)
    else if s == "ACC" then Some(Acc)
    else None
  }

  function ReadDriverStatus(s: string): (t: Option<DriverStatus>)
    ensures t.Some? ==> t.value.Name() == s
  {
    if s == "ativo" then Some(Active)
    else if s == "inativo" then Some(Inactive)
    else if s == "férias" then Some(OnVacation)
    else if s == "afastado" then Some(OnLeave)
    else if s == "desligado" then Some(Dismissed)
    else None
  }

  /** Each value is read back from its own name, so the names are distinct;
      the selects offer every value, and none is empty. */
  lemma OptionsAreTheTypes(c: CnhCategory, t: DriverStatus)
    ensures ReadCnhCategory(c.Name()) == Some(c) && ReadDriverStatus(t.Name()) == Some(t)
    ensures c in CnhOptions && t in StatusOptions
    ensures c.Name() != "" && t.Name() != ""
  {
  }

  /** `DriverAddress`. */
  datatype Address = Address(
    cep: Option<string>,
    street: Option<string>,
    number: Option<string>,
    complement: Option<string>,
    neighborhood: Option<string>,
    city: Option<string>,
    state: Option<string>)

  /** The same change applied to each of the seven parts. */
  function MapParts(a: Address, f: Option<string> -> Option<string>): (r: Address)
    ensures r.cep == f(a.cep) && r.street == f(a.street) && r.number == f(a.number)
    ensures r.complement == f(a.complement) && r.neighborhood == f(a.neighborhood)
    ensures r.city == f(a.city) && r.state == f(a.state)
  {
    Address(f(a.cep), f(a.street), f(a.number), f(a.complement), f(a.neighborhood), f(a.city), f(a.state))
  }

  /** The parts in the order the detail page prints them. */
  function PrintOrder(a: Address): (ps: seq<Option<string>>)
    ensures |ps| == 7
  {
    [a.street, a.number, a.complement, a.neighborhood, a.city, a.state, a.cep]
  }

  /** Two addresses that differ at most in '' against null. */
  predicate SameModuloEmpty(a: Address, b: Address) {
    MapParts(a, NullIfEmpty) == MapParts(b, NullIfEmpty)
  }
}

=== FILE: form_errors.dfy ===
/** The validation-error maps the forms keep: one message per failing field.
    A form is valid exactly when its map is empty. */
module FormErrors {

  /** Add `message` for `field` unless `ok`. */
  function Check<F(!new)>(errs: map<F, string>, field: F, ok: bool, message: string): (r: map<F, string>)
    ensures ok ==> r == errs
    ensures !ok ==> field in r && r[field] == message
    ensures forall g :: g != field ==> (g in r <==> g in errs)
    ensures forall g :: g != field && g in errs ==> r[g] == errs[g]
  {
    if ok then errs else errs[field := message]
  }

  /** Editing a field forgets that field's error and no other. */
  function ClearError<F(!new)>(errs: map<F, string>, field: F): (r: map<F, string>)
    ensures field !in r
    ensures forall g :: g != field ==> (g in r <==> g in errs)
    ensures forall g :: g != field && g in errs ==> r[g] == errs[g]
    ensures |r| <= |errs|
  {
    errs - {field}
  }

  /** Clearing a field without an error changes nothing. */
  lemma ClearAbsentChangesNothing<F(!new)>(errs: map<F, string>, field: F)
    requires field !in errs
    ensures ClearError(errs, field) == errs
  {
  }

  /** `Object.keys(errors).length === 0`. */
  predicate NoErrors<F>(errs: map<F, string>) {
    |errs| == 0
  }

  lemma NoErrorsIffNoKey<F>(errs: map<F, string>)
    ensures NoErrors(errs) <==> forall g :: g !in errs
  {
    if !NoErrors(errs) {
      var g :| g in errs;
    }
  }
}

=== FILE: lists.dfy ===
/** `Array.prototype.filter` and the list updates built on it. */
module Lists {
  import opened Wrappers

  /** `a` is `b` with some elements left out, order kept. */
  predicate IsSubsequence<T(==)>(a: seq<T>, b: seq<T>)
    decreases |b|
  {
    if a == [] then true
    else if b == [] then false
    else (a[0] == b[0] && IsSubsequence(a[1..], b[1..])) || IsSubsequence(a, b[1..])
  }

  /** Leaving nothing out is a subsequence too. */
  lemma {:induction false} SubsequenceOfItself<T>(xs: seq<T>)
    ensures IsSubsequence(xs, xs)
    decreases |xs|
  {
    if xs != [] {
      SubsequenceOfItself(xs[1..]);
    }
  }

  /** `xs.filter(keep)`. */
  function Filter<T>(xs: seq<T>, keep: T -> bool): (r: seq<T>)
    ensures |r| <= |xs|
    ensures forall i :: 0 <= i < |r| ==> keep(r[i])
    ensures forall i :: 0 <= i < |r| ==> r[i] in xs
    ensures forall i :: 0 <= i < |xs| && keep(xs[i]) ==> xs[i] in r
  {
    if xs == [] then []
    else
      var rest := Filter(xs[1..], keep);
      assert forall i :: 1 <= i < |xs| ==> xs[i] == xs[1..][i - 1];
      if keep(xs[0]) then [xs[0]] + rest else rest
  }

  /** The filtered list is the input with elements left out, in the original order. */
  lemma {:induction false} FilterIsSubsequence<T>(xs: seq<T>, keep: T -> bool)
    ensures IsSubsequence(Filter(xs, keep), xs)
  {
    if xs != [] {
      FilterIsSubsequence(xs[1..], keep);
      var rest := Filter(xs[1..], keep);
      if keep(xs[0]) {
        assert Filter(xs, keep) == [xs[0]] + rest;
        assert ([xs[0]] + rest)[1..] == rest;
      } else {
        SubsequenceOfTail(rest, xs);
      }
    }
  }

  lemma SubsequenceOfTail<T>(a: seq<T>, b: seq<T>)
    requires b != [] && IsSubsequence(a, b[1..])
    ensures IsSubsequence(a, b)
  {
  }

  /** A test every element passes keeps the whole list. */
  lemma {:induction false} FilterKeepsAll<T>(xs: seq<T>, keep: T -> bool)
    requires forall i :: 0 <= i < |xs| ==> keep(xs[i])
    ensures Filter(xs, keep) == xs
  {
    if xs != [] {
      FilterKeepsAll(xs[1..], keep);
      assert [xs[0]] + xs[1..] == xs;
    }
  }

  /** Number of elements of `xs` that pass `keep`. */
  function CountWhere<T>(xs: seq<T>, keep: T -> bool): nat {
    if xs == [] then 0 else (if keep(xs[0]) then 1 else 0) + CountWhere(xs[1..], keep)
  }

  lemma {:induction false} FilterLength<T>(xs: seq<T>, keep: T -> bool)
    ensures |Filter(xs, keep)| == CountWhere(xs, keep)
  {
    if xs != [] {
      FilterLength(xs[1..], keep);
    }
  }

  /** Every element of `xs` has its own id. */
  predicate DistinctIds<T, K(==)>(xs: seq<T>, id: T -> K) {
    forall i, j :: 0 <= i < j < |xs| ==> id(xs[i]) != id(xs[j])
  }

  /** `rows.filter(r => r.id !== k)`: the delete-by-id list update. */
  function RemoveId<T, K(==)>(xs: seq<T>, id: T -> K, k: K): (r: seq<T>)
    ensures forall i :: 0 <= i < |r| ==> r[i] in xs && id(r[i]) != k
    ensures forall i :: 0 <= i < |xs| && id(xs[i]) != k ==> xs[i] in r
    ensures IsSubsequence(r, xs)
  {
    FilterIsSubsequence(xs, x => id(x) != k);
    Filter(xs, x => id(x) != k)
  }

  /** With distinct ids, deleting an id on the list removes exactly one row. */
  lemma {:induction false} RemovePresentIdDropsOne<T, K>(xs: seq<T>, id: T -> K, k: K)
    requires DistinctIds(xs, id)
    requires exists i :: 0 <= i < |xs| && id(xs[i]) == k
    ensures |RemoveId(xs, id, k)| == |xs| - 1
  {
    var keep := x => id(x) != k;
    FilterLength(xs, keep);
    CountWithOneMiss(xs, id, k);
  }

  lemma {:induction false} CountWithOneMiss<T, K>(xs: seq<T>, id: T -> K, k: K)
    requires DistinctIds(xs, id)
    requires exists i :: 0 <= i < |xs| && id(xs[i]) == k
    ensures CountWhere(xs, x => id(x) != k) == |xs| - 1
  {
    var keep := x => id(x) != k;
    var tail := xs[1..];
    assert DistinctIds(tail, id) by {
      forall i, j | 0 <= i < j < |tail| ensures id(tail[i]) != id(tail[j]) {
        assert tail[i] == xs[i + 1] && tail[j] == xs[j + 1];
      }
    }
    if id(xs[0]) == k {
      forall i | 0 <= i < |tail| ensures keep(tail[i]) {
        assert tail[i] == xs[i + 1];
      }
      CountAll(tail, keep);
    } else {
      var i :| 0 <= i < |xs| && id(xs[i]) == k;
      assert id(tail[i - 1]) == k;
      CountWithOneMiss(tail, id, k);
    }
  }

  lemma {:induction false} CountAll<T>(xs: seq<T>, keep: T -> bool)
    requires forall i :: 0 <= i < |xs| ==> keep(xs[i])
    ensures CountWhere(xs, keep) == |xs|
  {
    if xs != [] {
      CountAll(xs[1..], keep);
    }
  }

  /** Deleting an id that is not on the list changes nothing. */
  lemma RemoveAbsentId<T, K>(xs: seq<T>, id: T -> K, k: K)
    requires forall i :: 0 <= i < |xs| ==> id(xs[i]) != k
    ensures RemoveId(xs, id, k) == xs
  {
    FilterKeepsAll(xs, x => id(x) != k);
  }

  /** What a to-one join comes back as: an object, an array of objects, or null. */
  datatype Joined<T> = One(item: T) | Many(items: seq<T>) | Null

  /** `Array.isArray(j) ? j[0] : j`. */
  function FirstJoined<T>(j: Joined<T>): (r: Option<T>)
    ensures j.One? ==> r == Some(j.item)
    ensures j.Many? && j.items != [] ==> r == Some(j.items[0])
    ensures r.None? <==> j.Null? || (j.Many? && j.items == [])
  {
    match j
    case One(x) => Some(x)
    case Many(xs) => if xs == [] then None else Some(xs[0])
    case Null => None
  }
}

=== FILE: maintenance_form.dfy ===
/** The maintenance form: its validation, the error clearing of its change
    handlers, the edit-mode load, and the one payload both the insert and
    the update write. */
module MaintenanceForm {
  import opened Wrappers
  import opened Strings
  import opened Numbers
  import opened FormErrors
  import SupplyForm

  /** `MaintenanceCategoryType`. */
  datatype Category = Preventive | Corrective | Predictive | Improvement | OtherCategory {
    function Name(): string {
      match this
      case Preventive => "preventiva"
      case Corrective => "corretiva"
      case Predictive => "preditiva"
      case Improvement => "melhoria"
      case OtherCategory => "outra"
    }
  }

  /** `MaintenanceStatusType`. */
  datatype MaintenanceStatus = Scheduled | InProgress | Completed | Cancelled | Pending {
    function Name(): string {
      match this
      case Scheduled => "agendada"
      case InProgress => "em andamento"
      case Completed => "concluída"
      case Cancelled => "cancelada"
      case Pending => "pendente"
    }
  }

  /** The category select's options, in the order it lists them. */
  const CategoryOptions: seq<Category> := [Preventive, Corrective, Predictive, Improvement, OtherCategory]

  /** The status select's options, in the order it lists them. */
  const StatusOptions: seq<MaintenanceStatus> := [Scheduled, InProgress, Completed, Cancelled, Pending]

  /** The category whose name is `s`, if any. */
  function ReadCategory(s: string): (c: Option<Category>)
    ensures c.Some? ==> c.value.Name() == s
  {
    if s == "preventiva" then Some(Preventive)
    else if s == "corretiva" then Some(Corrective)
    else if s == "preditiva" then Some(Predictive)
    else if s == "melhoria" then Some(Improvement)
    else if s == "outra" then Some(OtherCategory)
    else None
  }

  /** The status whose name is `s`, if any. */
  function ReadStatus(s: string): (t: Option<MaintenanceStatus>)
    ensures t.Some? ==> t.value.Name() == s
  {
    if s == "agendada" then Some(Scheduled)
    else if s == "em andamento" then Some(InProgress)
    else if s == "concluída" then Some(Completed)
    else if s == "cancelada" then Some(Cancelled)
    else if s == "pendente" then Some(Pending)
    else None
  }

  /** Each option is read back from its own name, so the names are distinct,
      and the selects offer every value of the two types. */
  lemma OptionsAreTheTypes(c: Category, t: MaintenanceStatus)
    ensures ReadCategory(c.Name()) == Some(c) && ReadStatus(t.Name()) == Some(t)
    ensures c in CategoryOptions && t in StatusOptions
    ensures c.Name() != "" && t.Name() != ""
  {
  }

  /** `MaintenanceFormData`; the selects hold the chosen option's name. */
  datatype FormData = FormData(
    vehicleId: string,
    maintenanceType: string,
    description: string,
    scheduledDate: Option<string>,
    completionDate: Option<string>,
    costParts: Option<string>,
    costServices: Option<string>,
    supplierName: Option<string>,
    status: string,
    notes: Option<string>)

  /** The form's inputs, by their `name`. */
  datatype Field =
    | VehicleId | MaintenanceType | Description | ScheduledDate | CompletionDate
    | CostParts | CostServices | SupplierName | StatusField | Notes

  /** A new maintenance: empty, a preventive one, pending. */
  const Initial: FormData :=
    FormData("", Preventive.Name(), "", Some(""), Some(""), Some(""), Some(""), Some(""), Pending.Name(), Some(""))

  function Get(f: FormData, field: Field): Option<string> {
    match field
    case VehicleId => Some(f.vehicleId)
    case MaintenanceType => Some(f.maintenanceType)
    case Description => Some(f.description)
    case ScheduledDate => f.scheduledDate
    case CompletionDate => f.completionDate
    case CostParts => f.costParts
    case CostServices => f.costServices
    case SupplierName => f.supplierName
    case StatusField => Some(f.status)
    case Notes => f.notes
  }

  /** `{ ...prev, [name]: value }`. */
  function Set(f: FormData, field: Field, value: string): (r: FormData)
    ensures Get(r, field) == Some(value)
    ensures forall g :: g != field ==> Get(r, g) == Get(f, g)
  {
    match field
    case VehicleId => f.(vehicleId := value)
    case MaintenanceType => f.(maintenanceType := value)
    case Description => f.(description := value)
    case ScheduledDate => f.(scheduledDate := Some(value))
    case CompletionDate => f.(completionDate := Some(value))
    case CostParts => f.(costParts := Some(value))
    case CostServices => f.(costServices := Some(value))
    case SupplierName => f.(supplierName := Some(value))
    case StatusField => f.(status := value)
    case Notes => f.(notes := Some(value))
  }

  /** The cost check with `read` as the number reader: an empty cost is
      fine, any other must not read as NaN. */
  predicate CostAcceptedBy(read: string -> Option<real>, c: Option<string>) {
    !Truthy(c) || read(c.value).Some?
  }

  /** The cost check: empty, or `parseFloat` finds a numeral at its front. */
  predicate CostAccepted(c: Option<string>) {
    CostAcceptedBy(ParseFloat, c)
  }

  /** The fields `validateForm` finds fault with, for a given number reader. */
  function FailingBy(f: FormData, read: string -> Option<real>): (bad: set<Field>)
    ensures VehicleId in bad <==> f.vehicleId == ""
    ensures Description in bad <==> Blank(f.description)
    ensures MaintenanceType in bad <==> f.maintenanceType == ""
    ensures StatusField in bad <==> f.status == ""
    ensures CostParts in bad <==> !CostAcceptedBy(read, f.costParts)
    ensures CostServices in bad <==> !CostAcceptedBy(read, f.costServices)
    ensures bad <= {VehicleId, Description, MaintenanceType, StatusField, CostParts, CostServices}
  {
    (if f.vehicleId == "" then {VehicleId} else {}) +
    (if Blank(f.description) then {Description} else {}) +
    (if f.maintenanceType == "" then {MaintenanceType} else {}) +
    (if f.status == "" then {StatusField} else {}) +
    (if !CostAcceptedBy(read, f.costParts) then {CostParts} else {}) +
    (if !CostAcceptedBy(read, f.costServices) then {CostServices} else {})
  }

  /** The fields `validateForm` finds fault with. */
  function Failing(f: FormData): (bad: set<Field>)
    ensures VehicleId in bad <==> f.vehicleId == ""
    ensures Description in bad <==> Blank(f.description)
    ensures MaintenanceType in bad <==> f.maintenanceType == ""
    ensures StatusField in bad <==> f.status == ""
    ensures CostParts in bad <==> !CostAccepted(f.costParts)
    ensures CostServices in bad <==> !CostAccepted(f.costServices)
    ensures bad <= {VehicleId, Description, MaintenanceType, StatusField, CostParts, CostServices}
  {
    FailingBy(f, ParseFloat)
  }

  /** The description check is `description.trim()` being empty. */
  lemma DescriptionCheckIsTrim(f: FormData)
    ensures Description in Failing(f) <==> Trim(f.description) == ""
  {
    TrimEmptyIffBlank(f.description);
  }

  /** The message shown under a failing field. */
  function Message(g: Field): string {
    match g
    case VehicleId => "Veículo é obrigatório."
    case Description => "Descrição é obrigatória."
    case MaintenanceType => "Tipo de manutenção é obrigatório."
    case StatusField => "Status é obrigatório."
    case CostParts => "Custo das peças deve ser um número válido."
    case CostServices => "Custo dos serviços deve ser um número válido."
    case _ => ""
  }

  /** `validateForm`: a message for every failing field. */
  function Validate(f: FormData): (errs: map<Field, string>)
    ensures errs.Keys == Failing(f)
    ensures forall g :: g in errs ==> errs[g] == Message(g)
  {
    map g | g in Failing(f) :: Message(g)
  }

  /** The form is valid exactly when the required fields are filled and each
      cost is empty or numeric at its front. */
  lemma ValidIffAllChecksPass(f: FormData)
    ensures NoErrors(Validate(f)) <==>
      f.vehicleId != "" && !Blank(f.description) && f.maintenanceType != "" && f.status != "" &&
      CostAccepted(f.costParts) && CostAccepted(f.costServices)
  {
    var e := Validate(f);
    NoErrorsIffNoKey(e);
    assert NoErrors(e) <==> Failing(f) == {};
  }

  /** A new form asks for exactly a vehicle and a description. */
  lemma InitialFailsOnVehicleAndDescription()
    ensures Failing(Initial) == {VehicleId, Description}
  {
    assert Blank(Initial.description);
  }

  /** `handleChange` and `handleSelectChange`: set the field and forget its error. */
  function HandleChange(f: FormData, errs: map<Field, string>, field: Field, value: string): (r: (FormData, map<Field, string>))
    ensures Get(r.0, field) == Some(value)
    ensures forall g :: g != field ==> Get(r.0, g) == Get(f, g)
    ensures field !in r.1
    ensures forall g :: g != field ==> (g in r.1 <==> g in errs)
    ensures forall g :: g != field && g in errs ==> r.1[g] == errs[g]
  {
    (Set(f, field, value), if field in errs then ClearError(errs, field) else errs)
  }

  /** `cost ? parseFloat(cost) : 0`, with NaN as `None`. */
  function CostValue(c: Option<string>): (r: Option<real>)
    ensures !Truthy(c) ==> r == Some(0.0)
    ensures Truthy(c) ==> r == ParseFloat(c.value)
  {
    if Truthy(c) then ParseFloat(c.value) else Some(0.0)
  }

  /** The validator and the payload agree: a cost is saved as a number
      exactly when the validator accepts it. */
  lemma SavedCostIsNumberIffAccepted(c: Option<string>)
    ensures CostValue(c).Some? <==> CostAccepted(c)
  {
  }

  /** A cost with text after its numeral passes here and is saved as that
      numeral, while the supply form's whole-text check rejects the same text. */
  lemma PrefixCostAccepted()
    ensures CostAccepted(Some("1x")) && CostValue(Some("1x")) == Some(1.0)
    ensures !SupplyForm.PositiveNumber("1x")
  {
    var s := "1x";
    assert !IsWhitespace(s[0]);
    assert TrimStart(s) == s;
    assert LeadingDigits(s) == 1;
    assert s[..1] == "1";
    assert ScanMagnitude(s) == Some(Numeral(Unsigned, "1", false, ""));
    SupplyForm.TrailingTextFails();
  }

  /** The row the insert and the update write. */
  datatype Payload = Payload(
    vehicleId: string,
    maintenanceType: string,
    description: string,
    scheduledDate: Option<string>,
    completionDate: Option<string>,
    costParts: Option<real>,
    costServices: Option<real>,
    supplierName: string,
    status: string,
    notes: string,
    tenantId: string)

  /** The object literal both writes spell out. */
  function ToPayload(f: FormData, tenant: string): (p: Payload)
    ensures p.scheduledDate.None? <==> !Truthy(f.scheduledDate)
    ensures p.completionDate.None? <==> !Truthy(f.completionDate)
    ensures p.scheduledDate.Some? ==> p.scheduledDate == f.scheduledDate
    ensures p.completionDate.Some? ==> p.completionDate == f.completionDate
    ensures !Truthy(f.costParts) ==> p.costParts == Some(0.0)
    ensures !Truthy(f.costServices) ==> p.costServices == Some(0.0)
    ensures p.costParts.Some? <==> CostAccepted(f.costParts)
    ensures p.costServices.Some? <==> CostAccepted(f.costServices)
    ensures p.costParts == CostValue(f.costParts) && p.costServices == CostValue(f.costServices)
    ensures (p.supplierName == "" <==> !Truthy(f.supplierName)) && (p.notes == "" <==> !Truthy(f.notes))
    ensures p.supplierName == EmptyIfNull(f.supplierName) && p.notes == EmptyIfNull(f.notes)
    ensures p.vehicleId == f.vehicleId && p.description == f.description && p.tenantId == tenant
    ensures p.maintenanceType == f.maintenanceType && p.status == f.status
  {
    SavedCostIsNumberIffAccepted(f.costParts);
    SavedCostIsNumberIffAccepted(f.costServices);
    Payload(f.vehicleId, f.maintenanceType, f.description,
            NullIfEmpty(f.scheduledDate), NullIfEmpty(f.completionDate),
            CostValue(f.costParts), CostValue(f.costServices),
            EmptyIfNull(f.supplierName), f.status, EmptyIfNull(f.notes), tenant)
  }

  /** The tenant the submit handler falls back to when the user has none. */
  const FallbackTenant: string := "bda52dfb-1543-4718-b3e9-9523919d8e11"

  /** The write a submit performs. */
  datatype SaveAction = Insert(payload: Payload) | Update(id: string, payload: Payload)

  datatype SubmitError = NotSignedIn | Invalid(errors: map<Field, string>)

  /** `handleSubmit` up to the database write: an update in edit mode with an
      id, an insert otherwise. */
  function Submit(user: Option<User>, f: FormData, isEdit: bool, maintenanceId: Option<string>): (r: Result<SaveAction, SubmitError>)
    ensures TenantOf(user).None? <==> r == Err(NotSignedIn)
    ensures TenantOf(user).Some? && !NoErrors(Validate(f)) ==> r == Err(Invalid(Validate(f)))
    ensures r.Ok? <==> TenantOf(user).Some? && NoErrors(Validate(f))
    ensures r.Ok? ==> r.value.payload == ToPayload(f, TenantOf(user).value)
    ensures r.Ok? ==> (r.value.Update? <==> isEdit && Truthy(maintenanceId))
    ensures r.Ok? && r.value.Update? ==> r.value.id == maintenanceId.value
  {
    var tenant := TenantOf(user);
    if tenant.None? then Err(NotSignedIn)
    else
      var errs := Validate(f);
      if !NoErrors(errs) then Err(Invalid(errs))
      else
        var p := ToPayload(f, OrElse(user.value.tenantId, FallbackTenant));
        if isEdit && Truthy(maintenanceId) then Ok(Update(maintenanceId.value, p)) else Ok(Insert(p))
  }

  /** Whatever the mode, the same form is written as the same row. */
  lemma InsertAndUpdateAgree(user: Option<User>, f: FormData, id: string)
    requires id != ""
    requires Submit(user, f, false, None).Ok?
    ensures Submit(user, f, true, Some(id)).Ok?
    ensures Submit(user, f, true, Some(id)).value == Update(id, Submit(user, f, false, None).value.payload)
  {
  }

  /** A valid submit never writes a NaN cost. */
  lemma ValidSubmitSavesNumbers(user: Option<User>, f: FormData, isEdit: bool, maintenanceId: Option<string>)
    requires Submit(user, f, isEdit, maintenanceId).Ok?
    ensures Submit(user, f, isEdit, maintenanceId).value.payload.costParts.Some?
    ensures Submit(user, f, isEdit, maintenanceId).value.payload.costServices.Some?
  {
    ValidIffAllChecksPass(f);
  }

  /** A stored maintenance as the edit form loads it. */
  datatype StoredMaintenance = StoredMaintenance(
    vehicleId: string,
    maintenanceType: string,
    description: string,
    scheduledDate: Option<string>,
    completionDate: Option<string>,
    costParts: Option<real>,
    costServices: Option<real>,
    supplierName: Option<string>,
    status: string,
    notes: Option<string>)

  /** `cost?.toString() || ''`; `show` is `Number.prototype.toString`. */
  function LoadedCost(c: Option<real>, show: real -> string): (r: string)
    ensures c.None? ==> r == ""
    ensures c.Some? ==> r == show(c.value)
  {
    match c
    case Some(x) => EmptyIfNull(Some(show(x)))
    case None => ""
  }

  /** `d ? d.split('T')[0] : ''`. */
  function LoadedDate(d: Option<string>): (r: string)
    ensures !Truthy(d) ==> r == ""
    ensures Truthy(d) ==> r <= d.value && !Contains(r, "T")
  {
    if Truthy(d) then DatePart(d.value) else ""
  }

  /** `fetchMaintenanceDetails`: the stored row with its costs as text and
      its timestamps cut to their date part. */
  function Load(m: StoredMaintenance, show: real -> string): (f: FormData)
    ensures f.vehicleId == m.vehicleId && f.description == m.description && f.status == m.status
    ensures f.maintenanceType == m.maintenanceType && f.supplierName == m.supplierName && f.notes == m.notes
    ensures f.costParts == Some(LoadedCost(m.costParts, show)) && f.costServices == Some(LoadedCost(m.costServices, show))
    ensures f.scheduledDate == Some(LoadedDate(m.scheduledDate)) && f.completionDate == Some(LoadedDate(m.completionDate))
  {
    FormData(m.vehicleId, m.maintenanceType, m.description,
             Some(LoadedDate(m.scheduledDate)), Some(LoadedDate(m.completionDate)),
             Some(LoadedCost(m.costParts, show)), Some(LoadedCost(m.costServices, show)),
             m.supplierName, m.status, m.notes)
  }

  /** When `show` prints a cost so that `parseFloat` reads it back, a loaded
      cost is saved unchanged, and a missing one as 0. */
  lemma LoadedCostSavedBack(c: Option<real>, show: real -> string)
    requires c.Some? ==> ParseFloat(show(c.value)) == Some(c.value)
    ensures CostValue(Some(LoadedCost(c, show))) == Some(c.GetOr(0.0))
  {
    if c.Some? {
      assert show(c.value) != "";
    }
  }

  /** A stored date without a time part is loaded and saved back unchanged;
      an empty one is saved as null. */
  lemma LoadedDateSavedBack(d: Option<string>)
    requires Truthy(d) ==> !Contains(d.value, "T")
    ensures NullIfEmpty(Some(LoadedDate(d))) == NullIfEmpty(d)
  {
    if Truthy(d) {
      DatePartOfDate(d.value);
    }
  }

  /** Saving a loaded maintenance unchanged writes back what was stored,
      with missing costs as 0 and the texts `|| ''`, for the tenant given. */
  lemma LoadThenSave(m: StoredMaintenance, show: real -> string, tenant: string)
    requires m.costParts.Some? ==> ParseFloat(show(m.costParts.value)) == Some(m.costParts.value)
    requires m.costServices.Some? ==> ParseFloat(show(m.costServices.value)) == Some(m.costServices.value)
    requires Truthy(m.scheduledDate) ==> !Contains(m.scheduledDate.value, "T")
    requires Truthy(m.completionDate) ==> !Contains(m.completionDate.value, "T")
    ensures var p := ToPayload(Load(m, show), tenant);
      p.vehicleId == m.vehicleId && p.maintenanceType == m.maintenanceType &&
      p.description == m.description && p.status == m.status && p.tenantId == tenant
    ensures var p := ToPayload(Load(m, show), tenant);
      p.costParts == Some(m.costParts.GetOr(0.0)) && p.costServices == Some(m.costServices.GetOr(0.0)) &&
      p.scheduledDate == NullIfEmpty(m.scheduledDate) && p.completionDate == NullIfEmpty(m.completionDate) &&
      p.supplierName == EmptyIfNull(m.supplierName) && p.notes == EmptyIfNull(m.notes)
  {
    LoadedCostSavedBack(m.costParts, show);
    LoadedCostSavedBack(m.costServices, show);
    LoadedDateSavedBack(m.scheduledDate);
    LoadedDateSavedBack(m.completionDate);
  }
}

=== FILE: maintenances_page.dfy ===
/** The maintenances list: its four filters and the query they build, the
    vehicle join, the list handlers, and the vehicle and description cells. */
module MaintenancesPage {
  import opened Wrappers
  import opened Strings
  import opened Lists
  import opened Paging
  import opened MaintenanceForm
  import Documents

  /** The filter fields; '' and `None` mean "any". */
  datatype Filters = Filters(vehicleId: string, status: Option<MaintenanceStatus>, startDate: string, endDate: string)

  const NoFilters: Filters := Filters("", None, "", "")

  /** One condition the list query adds to `tenant_id = tenant`; the dates
      bound `scheduled_date`. */
  datatype Condition =
    | VehicleIs(vehicleId: string)
    | StatusIs(status: string)
    | ScheduledFrom(date: string)
    | ScheduledUntil(date: string)

  /** The conditions of the list query, in the order the code adds them. */
  function Conditions(f: Filters): (cs: seq<Condition>)
    ensures VehicleIs(f.vehicleId) in cs <==> f.vehicleId != ""
    ensures forall t :: StatusIs(t) in cs <==> f.status.Some? && t == f.status.value.Name()
    ensures ScheduledFrom(f.startDate) in cs <==> f.startDate != ""
    ensures ScheduledUntil(f.endDate) in cs <==> f.endDate != ""
    ensures |cs| <= 4
  {
    (if f.vehicleId != "" then [VehicleIs(f.vehicleId)] else []) +
    (if f.status.Some? then [StatusIs(f.status.value.Name())] else []) +
    (if f.startDate != "" then [ScheduledFrom(f.startDate)] else []) +
    (if f.endDate != "" then [ScheduledUntil(f.endDate)] else [])
  }

  /** The joined `vehicles(id, plate, model, brand)` row. */
  datatype MaintenanceVehicle = MaintenanceVehicle(id: string, plate: Option<string>, model: Option<string>, brand: Option<string>)

  /** A maintenance as the list keeps it. */
  datatype MaintenanceRow = MaintenanceRow(id: string, vehicle: Option<MaintenanceVehicle>, description: string)

  /** A maintenance as the query returns it, its vehicle join still raw. */
  datatype FetchedMaintenance = FetchedMaintenance(id: string, vehicles: Joined<MaintenanceVehicle>, description: string)

  /** `formattedData`: each join becomes its object, or the first of its array. */
  function Normalise(data: seq<FetchedMaintenance>): (rows: seq<MaintenanceRow>)
    ensures |rows| == |data|
    ensures forall i :: 0 <= i < |rows| ==>
      rows[i].id == data[i].id && rows[i].description == data[i].description &&
      rows[i].vehicle == FirstJoined(data[i].vehicles)
  {
    seq(|data|, i requires 0 <= i < |data| =>
      MaintenanceRow(data[i].id, FirstJoined(data[i].vehicles), data[i].description))
  }

  /** Descriptions longer than this are cut in the table. */
  const DescriptionWidth: nat := 50

  /** The description cell: the first 50 characters, then '...' when the
      description is longer. */
  function Truncate(desc: string): (r: string)
    ensures |desc| <= DescriptionWidth ==> r == desc
    ensures |desc| > DescriptionWidth ==>
      |r| == DescriptionWidth + 3 && r[..DescriptionWidth] == desc[..DescriptionWidth] && r[DescriptionWidth..] == "..."
  {
    Prefix(desc, DescriptionWidth) + (if |desc| > DescriptionWidth then "..." else "")
  }

  /** The cell shows the description unchanged exactly when it fits in 50
      characters, or when it is 53 long and its last three are already "...". */
  lemma TruncateUnchanged(desc: string)
    ensures Truncate(desc) == desc <==>
      |desc| <= DescriptionWidth || (|desc| == DescriptionWidth + 3 && desc[DescriptionWidth..] == "...")
  {
  }

  /** The vehicle cell: `plate (model)`, each part 'N/A' when missing; the
      same label the documents list builds, with the plate defaulted too. */
  function VehicleCell(v: Option<MaintenanceVehicle>): (r: string)
    ensures v.None? ==> r == "N/A (N/A)"
    ensures v.Some? && Truthy(v.value.plate) ==> v.value.plate.value <= r
    ensures v.Some? && !Truthy(v.value.plate) ==> "N/A (" <= r
    ensures v.Some? ==> var plate := OrElse(v.value.plate, "N/A"); var model := OrElse(v.value.model, "N/A");
      |r| == |plate| + |model| + 3 && r[..|plate|] == plate && r[|plate|..|plate| + 2] == " (" &&
      r[|plate| + 2..|r| - 1] == model && r[|r| - 1] == ')'
  {
    var plate := if v.Some? then v.value.plate else None;
    var model := if v.Some? then v.value.model else None;
    Documents.Labelled(OrElse(plate, "N/A"), model)
  }

  /** `handleClearFilters`. */
  function ClearFilters(v: ListView<Filters, MaintenanceRow>): (r: ListView<Filters, MaintenanceRow>)
    ensures r.filters == NoFilters && r.page == 0 && Conditions(r.filters) == []
    ensures r.rows == v.rows && r.rowsPerPage == v.rowsPerPage
  {
    Clear(v, NoFilters)
  }

  /** `handleDeleteMaintenance` after the database delete succeeded. */
  function DeleteMaintenance(v: ListView<Filters, MaintenanceRow>, id: string): (r: ListView<Filters, MaintenanceRow>)
    ensures forall i :: 0 <= i < |r.rows| ==> r.rows[i] in v.rows && r.rows[i].id != id
    ensures forall i :: 0 <= i < |v.rows| && v.rows[i].id != id ==> v.rows[i] in r.rows
    ensures IsSubsequence(r.rows, v.rows)
    ensures r.filters == v.filters && r.page == v.page && r.rowsPerPage == v.rowsPerPage
  {
    Deleted(v, (m: MaintenanceRow) => m.id, id)
  }

  /** `handleDeleteMaintenance`: nothing happens without a maintenance picked or
      without a tenant, and the row leaves the list only when the database
      delete succeeds (`deleted`); a failed delete lands in the `catch` with
      the list unchanged. */
  function HandleDeleteMaintenance(v: ListView<Filters, MaintenanceRow>, toDelete: Option<string>, user: Option<User>,
                                   deleted: bool): (r: ListView<Filters, MaintenanceRow>)
    ensures toDelete.Some? && TenantOf(user).Some? && deleted ==> r == DeleteMaintenance(v, toDelete.value)
    ensures toDelete.None? || TenantOf(user).None? || !deleted ==> r == v
    ensures toDelete.Some? && TenantOf(user).Some? && deleted ==>
      forall i :: 0 <= i < |r.rows| ==> r.rows[i].id != toDelete.value
    ensures IsSubsequence(r.rows, v.rows) && r.filters == v.filters && r.page == v.page
  {
    if toDelete.None? || TenantOf(user).None? || !deleted then
      SubsequenceOfItself(v.rows);
      v
    else DeleteMaintenance(v, toDelete.value)
  }
}

=== FILE: numbers.dfy ===
/** The three ways the forms turn text into numbers: `Number(s)` (the whole
    string must be a numeral), `parseFloat(s)` and `parseInt(s)` (the longest
    numeric prefix counts). Only the plain decimal grammar is modelled: an
    optional sign, digits, and an optional '.' followed by digits. NaN is `None`. */
module Numbers {
  import opened Wrappers
  import opened Strings

  predicate IsDigit(c: char) {
    '0' <= c <= '9'
  }

  predicate AllDigits(s: string) {
    forall i :: 0 <= i < |s| ==> IsDigit(s[i])
  }

  function DigitValue(c: char): nat
    requires IsDigit(c)
  {
    (c as int) - ('0' as int)
  }

  function Pow10(k: nat): (p: nat)
    ensures p >= 1
  {
    if k == 0 then 1 else 10 * Pow10(k - 1)
  }

  /** The value of a run of decimal digits, most significant first. */
  function DigitsValue(ds: string): (v: nat)
    requires AllDigits(ds)
    ensures v < Pow10(|ds|)
  {
    if ds == [] then 0
    else DigitsValue(ds[..|ds| - 1]) * 10 + DigitValue(ds[|ds| - 1])
  }

  /** The number of digits at the front of `s`. */
  function LeadingDigits(s: string): (n: nat)
    ensures n <= |s|
    ensures AllDigits(s[..n])
    ensures n == |s| || !IsDigit(s[n])
  {
    if s == [] || !IsDigit(s[0]) then 0
    else
      var n := 1 + LeadingDigits(s[1..]);
      assert s[..n] == [s[0]] + s[1..][..n - 1];
      n
  }

  datatype Sign = Unsigned | Plus | Minus

  /** A decimal numeral as written: sign, integer digits and, when a '.' was
      written, the fraction digits after it. */
  datatype Numeral = Numeral(sign: Sign, whole: string, dot: bool, fraction: string) {
    predicate Valid() {
      AllDigits(whole) && AllDigits(fraction) && (whole != [] || fraction != [])
      && (!dot ==> fraction == [])
    }

    /** The digits and the point, without the sign. */
    function Magnitude(): string {
      whole + (if dot then "." else "") + fraction
    }

    function Text(): string {
      SignText(sign) + Magnitude()
    }

    function Value(): real
      requires Valid()
    {
      var magnitude := DigitsValue(whole) as real
        + DigitsValue(fraction) as real / Pow10(|fraction|) as real;
      if sign == Minus then -magnitude else magnitude
    }
  }

  function SignText(sign: Sign): string {
    match sign
    case Unsigned => ""
    case Plus => "+"
    case Minus => "-"
  }

  function SignOf(s: string): (r: (Sign, nat))
    ensures r.1 <= |s| && r.1 <= 1
    ensures r.1 == 1 <==> |s| > 0 && (s[0] == '-' || s[0] == '+')
    ensures r.0 == Minus <==> |s| > 0 && s[0] == '-'
    ensures r.0 == Plus <==> |s| > 0 && s[0] == '+'
    ensures SignText(r.0) == s[..r.1]
  {
    if |s| > 0 && s[0] == '-' then (Minus, 1)
    else if |s| > 0 && s[0] == '+' then (Plus, 1)
    else (Unsigned, 0)
  }

  /** Whether `s` begins with something the decimal grammar can start a
      numeral with: an optional sign, then a digit or a '.' and a digit. */
  predicate StartsNumeral(s: string) {
    var k := SignOf(s).1;
    (k < |s| && IsDigit(s[k])) || (k + 1 < |s| && s[k] == '.' && IsDigit(s[k + 1]))
  }

  lemma SliceJoin(s: string, i: nat, j: nat)
    requires i <= j <= |s|
    ensures s[..j] == s[..i] + s[i..j]
  {
  }

  /** Whether a '.' follows the leading digits. */
  predicate HasPoint(s: string) {
    LeadingDigits(s) < |s| && s[LeadingDigits(s)] == '.'
  }

  /** The digits after that '.', if there is one. */
  function Fraction(s: string): (f: string)
    ensures AllDigits(f)
    ensures HasPoint(s) ==> LeadingDigits(s) + 1 + |f| <= |s|
    ensures !HasPoint(s) ==> f == ""
  {
    if HasPoint(s) then
      var w := LeadingDigits(s);
      var f := LeadingDigits(s[w + 1..]);
      assert s[w + 1..][..f] == s[w + 1..w + 1 + f];
      s[w + 1..w + 1 + f]
    else ""
  }

  /** The longest unsigned numeral at the front of `s`. */
  function ScanMagnitude(s: string): (r: Option<Numeral>)
    ensures r.Some? <==> (0 < |s| && IsDigit(s[0])) || (1 < |s| && s[0] == '.' && IsDigit(s[1]))
    ensures r.Some? ==> r.value.sign == Unsigned && r.value.Valid()
  {
    if LeadingDigits(s) == 0 && Fraction(s) == "" then None
    else Some(Numeral(Unsigned, s[..LeadingDigits(s)], HasPoint(s), Fraction(s)))
  }

  /** The scanned magnitude is a prefix of `s` that no digit continues. */
  lemma MagnitudeReads(s: string)
    requires ScanMagnitude(s).Some?
    ensures var m := ScanMagnitude(s).value.Magnitude();
      |m| <= |s| && s[..|m|] == m && (|m| == |s| || !IsDigit(s[|m|]))
    ensures var m := ScanMagnitude(s).value.Magnitude();
      |m| < |s| && s[|m|] == '.' ==> ScanMagnitude(s).value.dot
  {
    var w := LeadingDigits(s);
    if w < |s| && s[w] == '.' {
      var f := LeadingDigits(s[w + 1..]);
      SliceJoin(s, w, w + 1);
      SliceJoin(s, w + 1, w + 1 + f);
      assert s[w..w + 1] == ".";
      assert w + 1 + f < |s| ==> s[w + 1 + f] == s[w + 1..][f];
    }
  }

  /** The longest numeral, sign included, at the front of `s`. */
  function Scan(s: string): (r: Option<Numeral>)
    ensures r.Some? <==> StartsNumeral(s)
    ensures r.Some? ==> r.value.Valid()
  {
    var (sign, k) := SignOf(s);
    match ScanMagnitude(s[k..])
    case None => None
    case Some(m) => Some(Numeral(sign, m.whole, m.dot, m.fraction))
  }

  /** The scanned numeral is written at the front of `s`, and no digit
      continues it. */
  lemma ScanReads(s: string)
    requires Scan(s).Some?
    ensures var t := Scan(s).value.Text();
      |t| <= |s| && s[..|t|] == t && (|t| == |s| || !IsDigit(s[|t|]))
    ensures LongestNumeralAt(Scan(s).value, s)
  {
    var (sign, k) := SignOf(s);
    var rest := s[k..];
    MagnitudeReads(rest);
    var len := |ScanMagnitude(rest).value.Magnitude()|;
    assert rest[..len] == s[k..k + len];
    SliceJoin(s, k, k + len);
    assert k + len < |s| ==> s[k + len] == rest[len];
  }

  /** `n` is written at the front of `t` and nothing the grammar could add
      follows it: no digit, and no '.' after a numeral that has none yet. */
  predicate LongestNumeralAt(n: Numeral, t: string) {
    var u := n.Text();
    n.Valid() && u <= t && (|u| == |t| || (!IsDigit(t[|u|]) && (t[|u|] == '.' ==> n.dot)))
  }

  /** `Number(s)`: surrounding white space is ignored, blank text is 0, and
      otherwise the whole rest must be one numeral. */
  function JsNumber(s: string): (r: Option<real>)
    ensures Blank(s) ==> r == Some(0.0)
    ensures r.Some? && !Blank(s) ==> exists n: Numeral :: n.Valid() && n.Text() == Trim(s) && r.value == n.Value()
  {
    var t := Trim(s);
    TrimEmptyIffBlank(s);
    if t == "" then Some(0.0)
    else match Scan(t)
      case Some(n) => if |n.Text()| == |t| then ScanReads(t); Some(n.Value()) else None
      case None => None
  }

  /** `parseFloat(s)`: leading white space is skipped and the longest numeral
      there is read; without one the result is NaN. */
  function ParseFloat(s: string): (r: Option<real>)
    ensures r.Some? <==> StartsNumeral(TrimStart(s))
    ensures r.Some? ==> exists n: Numeral :: LongestNumeralAt(n, TrimStart(s)) && r.value == n.Value()
  {
    match Scan(TrimStart(s))
    case Some(n) => ScanReads(TrimStart(s)); Some(n.Value())
    case None => None
  }

  /** `parseInt(s)` in base 10: leading white space is skipped, then an
      optional sign and at least one digit are read. */
  function ParseInt(s: string): (r: Option<int>)
    ensures var t := TrimStart(s); var k := SignOf(t).1;
      r.Some? <==> k < |t| && IsDigit(t[k])
  {
    var t := TrimStart(s);
    var (sign, k) := SignOf(t);
    var w := LeadingDigits(t[k..]);
    if w == 0 then None
    else
      var v := DigitsValue(t[k..][..w]);
      Some(if sign == Minus then -(v as int) else v)
  }

  /** JavaScript truthiness of a number: NaN and 0 are falsy. */
  predicate NumberTruthy(x: Option<real>) {
    x.Some? && x.value != 0.0
  }

  /** Truncation toward zero, as `Math.trunc`. */
  function Trunc(x: real): (n: int)
    ensures x >= 0.0 ==> n as real <= x < n as real + 1.0
    ensures x < 0.0 ==> n as real - 1.0 < x <= n as real
  {
    if x >= 0.0 then x.Floor else -((-x).Floor)
  }

  /** `parseInt` reads the integer part of the numeral `parseFloat` reads. */
  lemma ParseIntTruncatesParseFloat(s: string)
    requires ParseInt(s).Some?
    ensures ParseFloat(s).Some? && ParseInt(s).value == Trunc(ParseFloat(s).value)
  {
    var t := TrimStart(s);
    var (sign, k) := SignOf(t);
    var n := Scan(t).value;
    assert n.whole == t[k..][..LeadingDigits(t[k..])];
    assert ParseFloat(s) == Some(n.Value());
    FractionBelowOne(n.fraction);
    TruncOfNumeral(n);
  }

  lemma FractionBelowOne(f: string)
    requires AllDigits(f)
    ensures 0.0 <= DigitsValue(f) as real / Pow10(|f|) as real < 1.0
  {
    DivisionBelowOne(DigitsValue(f) as real, Pow10(|f|) as real);
  }

  lemma DivisionBelowOne(a: real, b: real)
    requires 0.0 <= a < b
    ensures 0.0 <= a / b < 1.0
  {
    var q := a / b;
    assert q * b == a;
  }

  /** A numeral's integer part is its value truncated toward zero. */
  lemma TruncOfNumeral(n: Numeral)
    requires n.Valid()
    requires 0.0 <= DigitsValue(n.fraction) as real / Pow10(|n.fraction|) as real < 1.0
    ensures var w := DigitsValue(n.whole);
      Trunc(n.Value()) == if n.sign == Minus then -(w as int) else w
  {
    var w := DigitsValue(n.whole);
    var part := DigitsValue(n.fraction) as real / Pow10(|n.fraction|) as real;
    assert n.Value() == if n.sign == Minus then -(w as real + part) else w as real + part;
  }

  /** A numeral that is exactly the trimmed text is also the longest numeral
      at its front, so `Number` and `parseFloat` agree wherever `Number`
      gives a value for non-blank text. */
  lemma NumberAgreesWithParseFloat(s: string)
    requires !Blank(s) && JsNumber(s).Some?
    ensures ParseFloat(s) == JsNumber(s)
  {
    var t := Trim(s);
    var u := TrimStart(s);
    assert t != "" by {
      TrimEmptyIffBlank(s);
    }
    assert Scan(t).Some? && |Scan(t).value.Text()| == |t|;
    assert Ends(t, u) by {
      if |t| < |u| {
        assert u[|t|..][0] == u[|t|];
        WhitespaceIsNotNumeric(u[|t|]);
      }
    }
    ScanExtends(t, u);
  }

  lemma WhitespaceIsNotNumeric(c: char)
    requires IsWhitespace(c)
    ensures !IsDigit(c) && c != '.'
  {
  }

  /** What may follow a complete numeral without changing how it scans. */
  predicate Ends(t: string, u: string) {
    t <= u && (|t| < |u| ==> !IsDigit(u[|t|]) && u[|t|] != '.')
  }

  /** Text that continues a complete numeral with a character that cannot
      extend it scans to the same numeral. */
  lemma ScanExtends(t: string, u: string)
    requires Ends(t, u)
    requires Scan(t).Some? && |Scan(t).value.Text()| == |t|
    ensures Scan(u) == Scan(t)
  {
    var (sign, k) := SignOf(t);
    assert t == u[..|t|];
    assert SignOf(u) == SignOf(t);
    assert u[k..][|t[k..]|..] == u[|t|..];
    MagnitudeExtends(t[k..], u[k..]);
  }

  lemma MagnitudeExtends(t: string, u: string)
    requires Ends(t, u)
    requires ScanMagnitude(t).Some? && |ScanMagnitude(t).value.Magnitude()| == |t|
    ensures ScanMagnitude(u) == ScanMagnitude(t)
  {
    LeadingDigitsPrefix(t, u);
    var w := LeadingDigits(t);
    assert t[..w] == u[..w];
    var m := ScanMagnitude(t).value;
    assert m.whole == t[..w] && m.dot == HasPoint(t) && m.fraction == Fraction(t);
    assert |m.Magnitude()| == w + (if HasPoint(t) then 1 else 0) + |Fraction(t)|;
    PointAgrees(t, u);
  }

  /** When the whole of `t` is its magnitude, `u` has the same point and
      fraction. */
  lemma PointAgrees(t: string, u: string)
    requires Ends(t, u) && LeadingDigits(t) == LeadingDigits(u)
    requires LeadingDigits(t) + (if HasPoint(t) then 1 else 0) + |Fraction(t)| == |t|
    ensures HasPoint(u) == HasPoint(t) && Fraction(u) == Fraction(t)
  {
    var w := LeadingDigits(t);
    if HasPoint(t) {
      FractionDigitsAgree(t, u, w);
    } else {
      assert w == |t|;
    }
  }

  lemma FractionDigitsAgree(t: string, u: string, w: nat)
    requires Ends(t, u) && w < |t|
    ensures u[w] == t[w]
    ensures LeadingDigits(t[w + 1..]) == LeadingDigits(u[w + 1..])
    ensures var f := LeadingDigits(t[w + 1..]); t[w + 1..w + 1 + f] == u[w + 1..w + 1 + f]
  {
    assert t[w + 1..] <= u[w + 1..];
    assert |t| < |u| ==> u[w + 1..][|t[w + 1..]|] == u[|t|];
    LeadingDigitsPrefix(t[w + 1..], u[w + 1..]);
  }

  lemma LeadingDigitsPrefix(t: string, u: string)
    requires t <= u && (|t| < |u| ==> !IsDigit(u[|t|]))
    ensures LeadingDigits(t) == LeadingDigits(u)
  {
    if t != [] && IsDigit(t[0]) {
      assert t[1..] <= u[1..];
      assert |t| < |u| ==> u[1..][|t[1..]|] == u[|t|];
      LeadingDigitsPrefix(t[1..], u[1..]);
    }
  }

  /** The decimal digits of a natural number, as `String(n)` writes them. */
  function NatText(n: nat): (s: string)
    ensures AllDigits(s) && |s| >= 1
    ensures DigitsValue(s) == n
  {
    var last := ['0' + (n % 10) as char];
    if n < 10 then last
    else
      var s := NatText(n / 10) + last;
      assert s[..|s| - 1] == NatText(n / 10);
      s
  }

  /** The magnitude of a numeral scans back to the numeral without its sign. */
  lemma MagnitudeOfNumeral(n: Numeral)
    requires n.Valid()
    ensures ScanMagnitude(n.Magnitude()) == Some(n.(sign := Unsigned))
    ensures IsDigit(n.Magnitude()[0]) || n.Magnitude()[0] == '.'
    ensures IsDigit(n.Magnitude()[|n.Magnitude()| - 1]) || n.Magnitude()[|n.Magnitude()| - 1] == '.'
  {
    WholeOfMagnitude(n);
    FractionOfMagnitude(n);
    var m := n.Magnitude();
    assert m == n.whole + (if n.dot then "." else "") + n.fraction;
  }

  lemma WholeOfMagnitude(n: Numeral)
    requires n.Valid()
    ensures LeadingDigits(n.Magnitude()) == |n.whole| && n.Magnitude()[..|n.whole|] == n.whole
    ensures HasPoint(n.Magnitude()) == n.dot
  {
    var m := n.Magnitude();
    var w := |n.whole|;
    assert m == n.whole + (if n.dot then "." else "") + n.fraction;
    AllDigitsLead(n.whole);
    assert w < |m| ==> m[w] == '.';
    LeadingDigitsPrefix(n.whole, m);
    assert m[..w] == n.whole;
  }

  lemma FractionOfMagnitude(n: Numeral)
    requires n.Valid()
    ensures Fraction(n.Magnitude()) == n.fraction
  {
    WholeOfMagnitude(n);
    if n.dot {
      var m := n.Magnitude();
      var w := |n.whole|;
      assert m[w + 1..] == n.fraction;
      AllDigitsLead(n.fraction);
      assert m[w + 1..w + 1 + |n.fraction|] == n.fraction;
    }
  }

  /** A sign before text that starts with a digit or a '.' is read as that sign. */
  lemma SignOfSigned(sign: Sign, m: string)
    requires m != "" && (IsDigit(m[0]) || m[0] == '.')
    ensures SignOf(SignText(sign) + m) == (sign, |SignText(sign)|)
    ensures (SignText(sign) + m)[|SignText(sign)|..] == m
  {
  }

  /** The text of a valid numeral scans back to that numeral. */
  lemma ScanOfNumeral(n: Numeral)
    requires n.Valid()
    ensures Scan(n.Text()) == Some(n)
  {
    MagnitudeOfNumeral(n);
    SignOfSigned(n.sign, n.Magnitude());
  }

  /** No numeral written at the front of `t` is longer than one that
      `LongestNumeralAt` accepts, so that one is the longest. */
  lemma LongestNumeralIsLongest(n: Numeral, m: Numeral, t: string)
    requires LongestNumeralAt(n, t) && m.Valid() && m.Text() <= t
    ensures |m.Text()| <= |n.Text()|
  {
    if |m.Text()| > |n.Text()| {
      MagnitudePrefix(n, m, t);
      MagnitudeGrowth(n, m);
    }
  }

  /** Of two numerals written at the front of `t`, the shorter one's
      magnitude is a prefix of the longer one's, followed by `t`'s next
      character. */
  lemma MagnitudePrefix(n: Numeral, m: Numeral, t: string)
    requires n.Valid() && m.Valid() && n.Text() <= t && m.Text() <= t
    requires |n.Text()| < |m.Text()|
    ensures |n.Magnitude()| < |m.Magnitude()|
    ensures m.Magnitude()[..|n.Magnitude()|] == n.Magnitude()
    ensures m.Magnitude()[|n.Magnitude()|] == t[|n.Text()|]
  {
    var u, v := n.Text(), m.Text();
    SignOfText(n);
    SignOfText(m);
    assert u[0] == t[0] == v[0];
    assert n.sign == m.sign;
    var k := |SignText(n.sign)|;
    assert u == t[..|u|] == v[..|u|];
    assert n.Magnitude() == u[k..] && m.Magnitude() == v[k..];
  }

  /** A magnitude grows only by a digit, or by a '.' when it has none yet. */
  lemma MagnitudeGrowth(n: Numeral, m: Numeral)
    requires n.Valid() && m.Valid()
    requires |n.Magnitude()| < |m.Magnitude()| && m.Magnitude()[..|n.Magnitude()|] == n.Magnitude()
    ensures var c := m.Magnitude()[|n.Magnitude()|];
      IsDigit(c) || (c == '.' && !n.dot)
  {
    var a, b := n.Magnitude(), m.Magnitude();
    MagnitudeChars(m, |a|);
    if n.dot && b[|a|] == '.' {
      assert a[|n.whole|] == '.' && b[|n.whole|] == a[|n.whole|];
      PointFollowsWhole(m, |n.whole|);
      PointFollowsWhole(m, |a|);
    }
  }

  /** The first character of a numeral's text tells its sign. */
  lemma SignOfText(n: Numeral)
    requires n.Valid()
    ensures n.Text() != ""
    ensures n.Text()[0] == '-' <==> n.sign == Minus
    ensures n.Text()[0] == '+' <==> n.sign == Plus
  {
    MagnitudeOfNumeral(n);
  }

  /** Every character of a magnitude is a digit or a '.'. */
  lemma MagnitudeChars(n: Numeral, i: nat)
    requires n.Valid() && i < |n.Magnitude()|
    ensures IsDigit(n.Magnitude()[i]) || n.Magnitude()[i] == '.'
  {
    var w := |n.whole|;
    if i >= w && n.dot && i > w {
      assert n.Magnitude()[i] == n.fraction[i - w - 1];
    }
  }

  /** A magnitude's only '.' is the one right after its whole digits. */
  lemma PointFollowsWhole(n: Numeral, i: nat)
    requires n.Valid() && i < |n.Magnitude()| && n.Magnitude()[i] == '.'
    ensures n.dot && i == |n.whole|
  {
  }

  /** A numeral's text neither starts nor ends with white space. */
  lemma NumeralEnds(n: Numeral)
    requires n.Valid()
    ensures var t := n.Text(); t != "" && !IsWhitespace(t[0]) && !IsWhitespace(t[|t| - 1])
  {
    var t := n.Text();
    var m := n.Magnitude();
    MagnitudeOfNumeral(n);
    assert t[|t| - 1] == m[|m| - 1];
    assert t[0] == m[0] || t[0] == '-' || t[0] == '+';
    if IsWhitespace(t[0]) { WhitespaceIsNotNumeric(t[0]); }
    if IsWhitespace(t[|t| - 1]) { WhitespaceIsNotNumeric(t[|t| - 1]); }
  }

  /** `Number` reads a numeral written with white space around it as the
      numeral's value. */
  lemma NumberOfNumeral(n: Numeral, pre: string, post: string)
    requires n.Valid() && Blank(pre) && Blank(post)
    ensures JsNumber(pre + n.Text() + post) == Some(n.Value())
  {
    NumeralEnds(n);
    TrimPadded(pre, n.Text(), post);
    ScanOfNumeral(n);
    NumberOfWholeText(pre + n.Text() + post, n);
  }

  /** `parseFloat` reads a numeral after leading white space as the
      numeral's value, whatever follows it that cannot continue it. */
  lemma ParseFloatOfNumeral(n: Numeral, pre: string, rest: string)
    requires n.Valid() && Blank(pre)
    requires rest == "" || (!IsDigit(rest[0]) && rest[0] != '.')
    ensures ParseFloat(pre + n.Text() + rest) == Some(n.Value())
  {
    var t := n.Text();
    NumeralEnds(n);
    assert pre + t + rest == pre + (t + rest);
    TrimStartPadded(pre, t + rest);
    ScanOfNumeral(n);
    assert (t + rest)[..|t|] == t;
    assert |rest| > 0 ==> (t + rest)[|t|] == rest[0];
    ScanExtends(t, t + rest);
  }

  /** A run of digits is read back as its value by both `Number` and
      `parseInt`; with `NatText`'s contract this gives `Number(String(n)) == n`. */
  lemma NumberOfDigits(s: string)
    requires AllDigits(s) && |s| >= 1
    ensures JsNumber(s) == Some(DigitsValue(s) as real)
    ensures ParseInt(s) == Some(DigitsValue(s))
  {
    NoSpaceInDigits(s);
    AllDigitsLead(s);
    ScanDigits(s);
    ParseIntDigits(s);
  }

  lemma ScanDigits(s: string)
    requires AllDigits(s) && |s| >= 1 && LeadingDigits(s) == |s| && Trim(s) == s
    ensures JsNumber(s) == Some(DigitsValue(s) as real)
  {
    var m := Numeral(Unsigned, s, false, "");
    ScanOfDigits(s);
    WholeText(m);
    NumberOfWholeText(s, m);
    WholeValue(m);
  }

  lemma ScanOfDigits(s: string)
    requires AllDigits(s) && |s| >= 1 && LeadingDigits(s) == |s|
    ensures Scan(s) == Some(Numeral(Unsigned, s, false, ""))
  {
    assert SignOf(s) == (Unsigned, 0);
    assert s[0..] == s && s[..|s|] == s;
    assert !HasPoint(s);
  }

  lemma WholeText(m: Numeral)
    requires m.sign == Unsigned && !m.dot && m.fraction == ""
    ensures m.Text() == m.whole
  {
    assert m.Magnitude() == m.whole;
  }

  lemma WholeValue(m: Numeral)
    requires m.Valid() && m.sign == Unsigned && m.fraction == ""
    ensures m.Value() == DigitsValue(m.whole) as real
  {
    assert DigitsValue(m.fraction) == 0 && Pow10(|m.fraction|) == 1;
  }

  lemma NumberOfWholeText(s: string, m: Numeral)
    requires Trim(s) != "" && Scan(Trim(s)) == Some(m) && m.Text() == Trim(s)
    ensures JsNumber(s) == Some(m.Value())
  {
  }


  lemma ParseIntDigits(s: string)
    requires AllDigits(s) && |s| >= 1 && LeadingDigits(s) == |s| && TrimStart(s) == s
    ensures ParseInt(s) == Some(DigitsValue(s))
  {
    assert SignOf(s) == (Unsigned, 0);
    assert s[0..] == s && s[..|s|] == s;
  }

  lemma AllDigitsLead(s: string)
    requires AllDigits(s)
    ensures LeadingDigits(s) == |s|
  {
    if s != [] {
      assert AllDigits(s[1..]);
      AllDigitsLead(s[1..]);
    }
  }

  lemma NoSpaceInDigits(s: string)
    requires AllDigits(s) && |s| >= 1
    ensures Trim(s) == s && TrimStart(s) == s
  {
    assert !IsWhitespace(s[0]) && !IsWhitespace(s[|s| - 1]);
  }
}

=== FILE: paging.dfy ===
/** The state every paginated list page keeps (filters, page, rows per page,
    the fetched rows, the server's row count) and the handlers that move it.
    The documents, supplies and maintenances pages all follow this shape;
    only their filter records differ. */
module Paging {
  import opened Wrappers
  import opened Numbers
  import opened Lists

  /** The inclusive index pair `.range(page * n, (page + 1) * n - 1)` asks for. */
  datatype Range = Range(first: int, last: int)

  function PageRange(page: nat, rowsPerPage: nat): (r: Range)
    ensures r.first == page * rowsPerPage
    ensures r.last - r.first + 1 == rowsPerPage
  {
    Range(page * rowsPerPage, (page + 1) * rowsPerPage - 1)
  }

  /** Index `i` is asked for by the request of range `r`. */
  predicate Covers(r: Range, i: int) {
    r.first <= i <= r.last
  }

  /** The indices a range asks for, in order. */
  function Indices(r: Range): (ix: seq<int>)
    ensures |ix| == if r.last < r.first then 0 else r.last - r.first + 1
    ensures forall k :: 0 <= k < |ix| ==> Covers(r, ix[k])
  {
    if r.last < r.first then [] else seq(r.last - r.first + 1, k => r.first + k)
  }

  lemma MulMonotone(a: nat, b: nat, n: nat)
    requires a <= b
    ensures a * n <= b * n
  {
    assert b * n == a * n + (b - a) * n;
  }

  /** With a positive page size every row index is asked for by exactly one
      page: the page `i / rowsPerPage`. */
  lemma {:induction false} IndexIsOnOnePage(i: nat, page: nat, rowsPerPage: nat)
    requires rowsPerPage > 0
    ensures Covers(PageRange(page, rowsPerPage), i) <==> page == i / rowsPerPage
  {
    var q := i / rowsPerPage;
    var n := rowsPerPage;
    assert q * n <= i < (q + 1) * n;
    if page < q {
      MulMonotone(page + 1, q, n);
    } else if page > q {
      MulMonotone(q + 1, page, n);
    }
  }

  /** The list state of a paginated page with filter record `F` and row type `R`. */
  datatype ListView<F, R> = ListView(filters: F, page: nat, rowsPerPage: nat, rows: seq<R>, totalRows: int)

  /** The rows the next fetch asks for. */
  function Request<F, R>(v: ListView<F, R>): (r: Range)
    ensures |Indices(r)| == v.rowsPerPage
    ensures r.first == v.page * v.rowsPerPage
  {
    PageRange(v.page, v.rowsPerPage)
  }

  /** The rows per page of a freshly opened list. */
  const InitialRowsPerPage: nat := 10

  function Initial<F, R>(empty: F): (v: ListView<F, R>)
    ensures v.filters == empty && v.page == 0 && v.rowsPerPage == InitialRowsPerPage
    ensures v.rows == [] && v.totalRows == 0
  {
    ListView(empty, 0, InitialRowsPerPage, [], 0)
  }

  /** `handleApplyFilters`: back to the first page, filters kept. */
  function Apply<F, R>(v: ListView<F, R>): (r: ListView<F, R>)
    ensures r.page == 0
    ensures r.filters == v.filters && r.rowsPerPage == v.rowsPerPage
    ensures r.rows == v.rows && r.totalRows == v.totalRows
  {
    v.(page := 0)
  }

  /** `handleClearFilters`: every filter back to its empty value and the first page. */
  function Clear<F, R>(v: ListView<F, R>, empty: F): (r: ListView<F, R>)
    ensures r.filters == empty && r.page == 0
    ensures r.rowsPerPage == v.rowsPerPage && r.rows == v.rows && r.totalRows == v.totalRows
  {
    v.(filters := empty, page := 0)
  }

  /** `handleChangePage`. */
  function ChangePage<F, R>(v: ListView<F, R>, newPage: nat): (r: ListView<F, R>)
    ensures r.page == newPage
    ensures r.filters == v.filters && r.rowsPerPage == v.rowsPerPage
    ensures r.rows == v.rows && r.totalRows == v.totalRows
  {
    v.(page := newPage)
  }

  /** `handleChangeRowsPerPage`: the menu option's text is read back with
      `parseInt(value, 10)` and the page returns to 0. */
  function ChangeRowsPerPage<F, R>(v: ListView<F, R>, option: nat): (r: ListView<F, R>)
    ensures r.rowsPerPage == option && r.page == 0
    ensures r.filters == v.filters && r.rows == v.rows && r.totalRows == v.totalRows
  {
    var parsed := ParseInt(NatText(option));
    NumberOfDigits(NatText(option));
    v.(rowsPerPage := parsed.value, page := 0)
  }

  /** A finished fetch: the page's rows and `count || 0`. */
  function Loaded<F, R>(v: ListView<F, R>, rows: seq<R>, count: Option<int>): (r: ListView<F, R>)
    ensures r.rows == rows
    ensures count.None? ==> r.totalRows == 0
    ensures count.Some? ==> r.totalRows == count.value
    ensures r.filters == v.filters && r.page == v.page && r.rowsPerPage == v.rowsPerPage
  {
    v.(rows := rows, totalRows := count.GetOr(0))
  }

  /** A successful delete: `rows.filter(r => r.id !== k)`. */
  function Deleted<F, R, K(==)>(v: ListView<F, R>, id: R -> K, k: K): (r: ListView<F, R>)
    ensures forall i :: 0 <= i < |r.rows| ==> r.rows[i] in v.rows && id(r.rows[i]) != k
    ensures forall i :: 0 <= i < |v.rows| && id(v.rows[i]) != k ==> v.rows[i] in r.rows
    ensures IsSubsequence(r.rows, v.rows)
    ensures r.filters == v.filters && r.page == v.page && r.rowsPerPage == v.rowsPerPage
    ensures r.totalRows == v.totalRows
  {
    v.(rows := RemoveId(v.rows, id, k))
  }

  /** After apply, clear or a change of page size the next request starts at row 0. */
  lemma ResetsRequestFirstPage<F, R>(v: ListView<F, R>, empty: F, option: nat)
    ensures Request(Apply(v)).first == 0
    ensures Request(Clear(v, empty)).first == 0
    ensures Request(ChangeRowsPerPage(v, option)) == Range(0, option - 1)
  {
  }
}

=== FILE: strings.dfy ===
/** The string operations the pages call: `trim`, `toLowerCase`,
    `toUpperCase`, `includes`, `startsWith`, `split`, `substring`. Strings are
    sequences of characters. */
module Strings {

  /** JavaScript's `\s` class, which is also what `trim` strips. */
  predicate IsWhitespace(c: char) {
    var n := c as int;
    (9 <= n <= 13) || n == 0x20 || n == 0xA0 || n == 0x1680
    || (0x2000 <= n <= 0x200A) || n == 0x2028 || n == 0x2029
    || n == 0x202F || n == 0x205F || n == 0x3000 || n == 0xFEFF
  }

  predicate Blank(s: string) {
    forall i :: 0 <= i < |s| ==> IsWhitespace(s[i])
  }

  /** Number of whitespace characters at the front of `s`. */
  function LeadingSpace(s: string): (n: nat)
    ensures n <= |s|
    ensures Blank(s[..n])
    ensures n < |s| ==> !IsWhitespace(s[n])
  {
    if |s| > 0 && IsWhitespace(s[0]) then
      var k := LeadingSpace(s[1..]);
      assert forall i :: 1 <= i < 1 + k ==> s[i] == s[1..][..k][i - 1];
      1 + k
    else 0
  }

  /** Number of whitespace characters at the back of `s`. */
  function TrailingSpace(s: string): (n: nat)
    ensures n <= |s|
    ensures Blank(s[|s| - n..])
    ensures n < |s| ==> !IsWhitespace(s[|s| - n - 1])
  {
    if |s| > 0 && IsWhitespace(s[|s| - 1]) then
      var k := TrailingSpace(s[..|s| - 1]);
      assert forall i :: |s| - 1 - k <= i < |s| - 1 ==> s[i] == s[..|s| - 1][i];
      1 + k
    else 0
  }

  /** `s.trimStart()`. */
  function TrimStart(s: string): (r: string)
    ensures r == s[LeadingSpace(s)..]
  {
    s[LeadingSpace(s)..]
  }

  /** `s.trim()`: the slice of `s` left after whitespace is removed from both
      ends. It starts and ends with a non-whitespace character, or is empty. */
  function Trim(s: string): (r: string)
    ensures exists i, j :: 0 <= i <= j <= |s| && r == s[i..j] && Blank(s[..i]) && Blank(s[j..])
    ensures r != "" ==> !IsWhitespace(r[0]) && !IsWhitespace(r[|r| - 1])
    ensures r <= TrimStart(s) && Blank(TrimStart(s)[|r|..])
  {
    var a := LeadingSpace(s);
    var rest := s[a..];
    var b := TrailingSpace(rest);
    var r := rest[..|rest| - b];
    assert r == s[a..|s| - b];
    assert Blank(s[|s| - b..]) by { assert s[|s| - b..] == rest[|rest| - b..]; }
    assert Blank(rest[|r|..]) by { assert rest[|r|..] == rest[|rest| - b..]; }
    assert 0 <= a <= |s| - b <= |s| && r == s[a..|s| - b] && Blank(s[..a]) && Blank(s[|s| - b..]);
    assert r != "" ==> r[0] == rest[0] && r[|r| - 1] == rest[|rest| - b - 1];
    r
  }

  /** `!s.trim()`: a string trims to nothing exactly when it is all whitespace. */
  lemma TrimEmptyIffBlank(s: string)
    ensures Trim(s) == "" <==> Blank(s)
  {
    var r := Trim(s);
    var i, j :| 0 <= i <= j <= |s| && r == s[i..j] && Blank(s[..i]) && Blank(s[j..]);
    if r == "" {
      assert i == j;
      forall k | 0 <= k < |s| ensures IsWhitespace(s[k]) {
        if k < i { assert s[k] == s[..i][k]; } else { assert s[k] == s[j..][k - j]; }
      }
    } else {
      assert s[i] == r[0];
    }
  }

  /** White space before text that starts with something else is what
      `trimStart` removes. */
  lemma TrimStartPadded(pre: string, x: string)
    requires Blank(pre) && x != "" && !IsWhitespace(x[0])
    ensures TrimStart(pre + x) == x
  {
    var s := pre + x;
    var n := LeadingSpace(s);
    assert s[|pre|..] == x;
  }

  /** A blank tail starts after every character that is not white space. */
  lemma BlankTailStartsAfter(u: string, k: nat, j: nat)
    requires k <= |u| && Blank(u[k..]) && j < |u| && !IsWhitespace(u[j])
    ensures j < k
  {
  }

  /** White space around text that starts and ends with something else is
      what `trim` removes. */
  lemma TrimPadded(pre: string, t: string, post: string)
    requires Blank(pre) && Blank(post)
    requires t != "" && !IsWhitespace(t[0]) && !IsWhitespace(t[|t| - 1])
    ensures TrimStart(pre + t + post) == t + post
    ensures Trim(pre + t + post) == t
  {
    var s := pre + t + post;
    assert s == pre + (t + post);
    TrimStartPadded(pre, t + post);
    var u := t + post;
    var r := Trim(s);
    BlankTailStartsAfter(u, |r|, |t| - 1);
    assert r == u[..|r|];
  }

  /** `toLowerCase` on one character; only ASCII and Latin-1 letters are mapped. */
  function LowerChar(c: char): char {
    if 'A' <= c <= 'Z' then (c as int + 32) as char
    else if 0xC0 <= c as int <= 0xDE && c as int != 0xD7 then (c as int + 32) as char
    else c
  }

  /** `toUpperCase` on one character; only ASCII and Latin-1 letters are mapped. */
  function UpperChar(c: char): char {
    if 'a' <= c <= 'z' then (c as int - 32) as char
    else if 0xE0 <= c as int <= 0xFE && c as int != 0xF7 then (c as int - 32) as char
    else c
  }

  function ToLower(s: string): (r: string)
    ensures |r| == |s|
    ensures forall i :: 0 <= i < |s| ==> r[i] == LowerChar(s[i])
  {
    seq(|s|, i requires 0 <= i < |s| => LowerChar(s[i]))
  }

  /** Lower-casing twice is lower-casing once. */
  lemma ToLowerIdempotent(s: string)
    ensures ToLower(ToLower(s)) == ToLower(s)
  {
    forall i | 0 <= i < |s| ensures LowerChar(LowerChar(s[i])) == LowerChar(s[i]) {
    }
  }

  /** `needle` occurs in `hay` starting at index `i`. */
  predicate OccursAt(hay: string, needle: string, i: int) {
    0 <= i <= |hay| - |needle| && hay[i..i + |needle|] == needle
  }

  /** `hay.includes(needle)`: `needle` occurs somewhere in `hay`. */
  predicate Contains(hay: string, needle: string) {
    exists i :: 0 <= i <= |hay| - |needle| && OccursAt(hay, needle, i)
  }

  /** Every string contains the empty string. */
  lemma ContainsEmpty(hay: string)
    ensures Contains(hay, "")
  {
    assert OccursAt(hay, "", 0);
  }

  /** The search loop behind `includes`. */
  method Includes(hay: string, needle: string) returns (found: bool)
    ensures found <==> Contains(hay, needle)
  {
    var i := 0;
    while i <= |hay| - |needle|
      invariant 0 <= i
      invariant |needle| <= |hay| ==> i <= |hay| - |needle| + 1
      invariant forall k :: 0 <= k < i ==> !OccursAt(hay, needle, k)
      decreases |hay| - i
    {
      if hay[i..i + |needle|] == needle {
        assert OccursAt(hay, needle, i);
        return true;
      }
      i := i + 1;
    }
    return false;
  }

  /** `s.startsWith(p)`. */
  predicate StartsWith(s: string, p: string) {
    |p| <= |s| && s[..|p|] == p
  }

  /** `s.split(sep)` for a non-empty separator: the pieces between
      non-overlapping occurrences of `sep`, scanned from the left. */
  function Split(s: string, sep: string): (parts: seq<string>)
    requires |sep| > 0
    ensures |parts| >= 1
    ensures parts[0] <= s
    decreases |s|
  {
    if |s| < |sep| then [s]
    else if s[..|sep|] == sep then [""] + Split(s[|sep|..], sep)
    else
      var rest := Split(s[1..], sep);
      [[s[0]] + rest[0]] + rest[1..]
  }

  /** `parts.join(sep)`. */
  function Join(parts: seq<string>, sep: string): string
    decreases |parts|
  {
    if |parts| == 0 then ""
    else if |parts| == 1 then parts[0]
    else parts[0] + sep + Join(parts[1..], sep)
  }

  /** Joining the pieces of a split with the same separator gives the string back. */
  lemma {:induction false} SplitJoin(s: string, sep: string)
    requires |sep| > 0
    ensures Join(Split(s, sep), sep) == s
    decreases |s|
  {
    if |s| < |sep| {
    } else if s[..|sep|] == sep {
      var rest := Split(s[|sep|..], sep);
      SplitJoin(s[|sep|..], sep);
      assert Split(s, sep) == [""] + rest;
      assert ([""] + rest)[1..] == rest;
      assert s == sep + s[|sep|..];
    } else {
      var rest := Split(s[1..], sep);
      SplitJoin(s[1..], sep);
      var parts := Split(s, sep);
      assert parts == [[s[0]] + rest[0]] + rest[1..];
      if |rest| == 1 {
        assert s == [s[0]] + s[1..];
      } else {
        assert parts[1..] == rest[1..];
        assert s == [s[0]] + s[1..];
      }
    }
  }

  /** Moving one character off the front keeps occurrences that do not start at 0. */
  lemma ContainsTail(s: string, sep: string)
    requires |s| > 0
    ensures Contains(s[1..], sep) ==> Contains(s, sep)
    ensures Contains(s, sep) && !(|sep| <= |s| && s[..|sep|] == sep) ==> Contains(s[1..], sep)
  {
    if Contains(s[1..], sep) {
      var i :| 0 <= i <= |s[1..]| - |sep| && OccursAt(s[1..], sep, i);
      assert s[i + 1..i + 1 + |sep|] == s[1..][i..i + |sep|];
      assert OccursAt(s, sep, i + 1);
    }
    if Contains(s, sep) && !(|sep| <= |s| && s[..|sep|] == sep) {
      var i :| 0 <= i <= |s| - |sep| && OccursAt(s, sep, i);
      assert i != 0;
      assert s[1..][i - 1..i - 1 + |sep|] == s[i..i + |sep|];
      assert OccursAt(s[1..], sep, i - 1);
    }
  }

  /** No piece of a split contains the separator. */
  lemma {:induction false} SplitPiecesFree(s: string, sep: string)
    requires |sep| > 0
    ensures forall k :: 0 <= k < |Split(s, sep)| ==> !Contains(Split(s, sep)[k], sep)
    decreases |s|
  {
    var parts := Split(s, sep);
    if |s| < |sep| {
      assert parts == [s];
    } else if s[..|sep|] == sep {
      SplitPiecesFree(s[|sep|..], sep);
      var rest := Split(s[|sep|..], sep);
      assert parts == [""] + rest;
      forall k | 0 <= k < |parts| ensures !Contains(parts[k], sep) {
        if k == 0 {
          assert !Contains("", sep);
        } else {
          assert parts[k] == rest[k - 1];
        }
      }
    } else {
      SplitPiecesFree(s[1..], sep);
      var rest := Split(s[1..], sep);
      var head := [s[0]] + rest[0];
      assert parts == [head] + rest[1..];
      assert head <= s;
      forall k | 0 <= k < |parts| ensures !Contains(parts[k], sep) {
        if k == 0 {
          if Contains(head, sep) {
            var i :| 0 <= i <= |head| - |sep| && OccursAt(head, sep, i);
            if i == 0 {
              assert false;
            } else {
              assert rest[0][i - 1..i - 1 + |sep|] == head[i..i + |sep|];
              assert OccursAt(rest[0], sep, i - 1);
              assert false;
            }
          }
        } else {
          assert parts[k] == rest[k];
        }
      }
    }
  }

  /** A string without the separator splits into itself alone. */
  lemma {:induction false} SplitWithoutSeparator(s: string, sep: string)
    requires |sep| > 0
    requires !Contains(s, sep)
    ensures Split(s, sep) == [s]
    decreases |s|
  {
    assert |sep| <= |s| && s[..|sep|] == sep ==> OccursAt(s, sep, 0);
    if |s| < |sep| {
    } else if s[..|sep|] == sep {
      assert false;
    } else {
      ContainsTail(s, sep);
      SplitWithoutSeparator(s[1..], sep);
      assert Split(s[1..], sep) == [s[1..]];
      assert [s[0]] + s[1..] == s;
    }
  }

  /** A split has a second piece exactly when the separator occurs. */
  lemma {:induction false} SplitManyIffContains(s: string, sep: string)
    requires |sep| > 0
    ensures |Split(s, sep)| > 1 <==> Contains(s, sep)
    decreases |s|
  {
    if |s| < |sep| {
    } else if s[..|sep|] == sep {
      assert OccursAt(s, sep, 0);
    } else {
      ContainsTail(s, sep);
      SplitManyIffContains(s[1..], sep);
    }
  }

  /** `s.split(sep).pop()`: the text after the last separator. */
  function LastPiece(s: string, sep: string): string
    requires |sep| > 0
  {
    var parts := Split(s, sep);
    parts[|parts| - 1]
  }

  /** The last piece is a suffix of `s` that holds no separator. */
  lemma {:induction false} LastPieceSuffix(s: string, sep: string)
    requires |sep| > 0
    ensures |LastPiece(s, sep)| <= |s|
    ensures s[|s| - |LastPiece(s, sep)|..] == LastPiece(s, sep)
    ensures !Contains(LastPiece(s, sep), sep)
    decreases |s|
  {
    SplitPiecesFree(s, sep);
    var last := LastPiece(s, sep);
    if |s| < |sep| {
    } else if s[..|sep|] == sep {
      var t := s[|sep|..];
      assert Split(s, sep) == [""] + Split(t, sep);
      assert last == LastPiece(t, sep);
      LastPieceSuffix(t, sep);
      assert s[|s| - |last|..] == t[|t| - |last|..];
    } else {
      var t := s[1..];
      var rest := Split(t, sep);
      assert Split(s, sep) == [[s[0]] + rest[0]] + rest[1..];
      if |rest| == 1 {
        SplitJoin(t, sep);
        assert last == [s[0]] + t == s;
      } else {
        assert last == LastPiece(t, sep);
        LastPieceSuffix(t, sep);
        assert s[|s| - |last|..] == t[|t| - |last|..];
      }
    }
  }

  /** Without a separator in `s`, the last piece is all of `s`. */
  lemma LastPieceWithoutSeparator(s: string, sep: string)
    requires |sep| > 0
    requires !Contains(s, sep)
    ensures LastPiece(s, sep) == s
  {
    SplitWithoutSeparator(s, sep);
  }

  /** The last of several pieces is joined on after a separator. */
  lemma {:induction false} JoinLast(parts: seq<string>, sep: string)
    requires |parts| >= 2
    ensures Join(parts, sep) == Join(parts[..|parts| - 1], sep) + sep + parts[|parts| - 1]
    decreases |parts|
  {
    var init := parts[..|parts| - 1];
    if |parts| == 2 {
      assert parts[1..] == [parts[1]];
      assert init == [parts[0]];
    } else {
      var tail := parts[1..];
      JoinLast(tail, sep);
      assert tail[..|tail| - 1] == init[1..];
      assert tail[|tail| - 1] == parts[|parts| - 1];
      assert Join(init, sep) == parts[0] + sep + Join(init[1..], sep);
    }
  }

  /** With a separator in `s`, one stands right before the last piece. */
  lemma LastPiecePreceded(s: string, sep: string)
    requires |sep| > 0
    requires Contains(s, sep)
    ensures |LastPiece(s, sep)| + |sep| <= |s|
    ensures s[|s| - |LastPiece(s, sep)| - |sep|..|s| - |LastPiece(s, sep)|] == sep
  {
    var parts := Split(s, sep);
    var last := LastPiece(s, sep);
    SplitManyIffContains(s, sep);
    SplitJoin(s, sep);
    JoinLast(parts, sep);
    var x := Join(parts[..|parts| - 1], sep);
    assert s == x + sep + last;
    assert s[|s| - |last| - |sep|..|s| - |last|] == (x + sep + last)[|x|..|x| + |sep|];
  }

  /** For a one-character needle, `includes` is plain membership. */
  lemma ContainsCharIff(s: string, c: char)
    ensures Contains(s, [c]) <==> c in s
  {
    if c in s {
      var i :| 0 <= i < |s| && s[i] == c;
      assert OccursAt(s, [c], i);
    }
    if Contains(s, [c]) {
      var i :| 0 <= i <= |s| - 1 && OccursAt(s, [c], i);
      assert s[i] == s[i..i + 1][0];
    }
  }

  /** Splitting on a one-character separator cuts at its first occurrence:
      the text before it is the first piece and the rest splits on its own. */
  lemma {:induction false} SplitAtFirstChar(a: string, c: char, rest: string)
    requires c !in a
    ensures Split(a + ([c] + rest), [c]) == [a] + Split(rest, [c])
    decreases |a|
  {
    var s := a + ([c] + rest);
    if a == [] {
      assert s[..1] == [c] && s[1..] == rest;
    } else {
      assert s[1..] == a[1..] + ([c] + rest);
      assert s[..1] != [c] by { assert s[..1][0] == a[0]; }
      SplitAtFirstChar(a[1..], c, rest);
      assert [s[0]] + a[1..] == a;
    }
  }

  /** A string without a one-character separator splits into itself alone. */
  lemma SplitWithoutChar(s: string, c: char)
    requires c !in s
    ensures Split(s, [c]) == [s]
  {
    ContainsCharIff(s, c);
    SplitWithoutSeparator(s, [c]);
  }

  /** Whatever precedes it, the text after a last one-character separator
      is the last piece. */
  lemma {:induction false} LastPieceAfterChar(a: string, c: char, b: string)
    requires c !in b
    ensures LastPiece(a + [c] + b, [c]) == b
    decreases |a|
  {
    var s := a + [c] + b;
    ContainsCharIff(b, c);
    if a == [] {
      assert s[..1] == [c] && s[1..] == b;
      SplitWithoutSeparator(b, [c]);
      assert Split(s, [c]) == [""] + [b];
    } else if a[0] == c {
      assert s[..1] == [c];
      assert s[1..] == a[1..] + [c] + b;
      LastPieceAfterChar(a[1..], c, b);
      assert Split(s, [c]) == [""] + Split(s[1..], [c]);
    } else {
      var t := s[1..];
      assert t == a[1..] + [c] + b;
      assert s[0] == a[0];
      assert s[..1] != [c] by { assert s[..1][0] == a[0]; }
      assert t[|a| - 1] == c;
      ContainsCharIff(t, c);
      SplitManyIffContains(t, [c]);
      LastPieceAfterChar(a[1..], c, b);
      var rest := Split(t, [c]);
      assert Split(s, [c]) == [[s[0]] + rest[0]] + rest[1..];
    }
  }

  lemma SliceOfSlice(s: string, k: nat, a: nat, b: nat)
    requires k <= |s| && a <= b <= |s| - k
    ensures s[k..][a..b] == s[k + a..k + b]
  {
  }

  /** `s.substring(0, n)`. */
  function Prefix(s: string, n: nat): (r: string)
    ensures |r| == if |s| < n then |s| else n
    ensures r <= s
  {
    if |s| < n then s else s[..n]
  }

  /** `date.split("T")[0]`: the date part of a stored timestamp. */
  function DatePart(s: string): (r: string)
    ensures r <= s && !Contains(r, "T")
  {
    SplitPiecesFree(s, "T");
    Split(s, "T")[0]
  }

  /** A plain date is its own date part. */
  lemma DatePartOfDate(s: string)
    requires !Contains(s, "T")
    ensures DatePart(s) == s
  {
    SplitWithoutSeparator(s, "T");
  }
}

=== FILE: supplies_page.dfy ===
/** The supplies list: its four filters and the query they build, the
    vehicle join, the client-side search, the list handlers, and the fuel
    prices the settings dialog saves and reloads. */
module SuppliesPage {
  import opened Wrappers
  import opened Strings
  import opened Lists
  import opened Paging
  import SupplyForm

  /** The `value`s of `fuelTypeOptions`, in order. */
  const FuelOptions: seq<string> := [
    "gasolina comum", "gasolina aditivada", "gasolina premium", "etanol hidratado",
    "etanol aditivado", "diesel comum", "diesel s10", "diesel aditivado", "gnv", "elétrico", "outro"]

  /** The supply form starts with the first fuel option. */
  lemma DefaultFuelIsFirstOption()
    ensures SupplyForm.DefaultFuelType == FuelOptions[0]
  {
  }

  /** The filter fields; '' means "any". */
  datatype Filters = Filters(vehicleId: string, fuelType: string, startDate: string, endDate: string)

  const NoFilters: Filters := Filters("", "", "", "")

  /** One condition the list query adds to `tenant_id = tenant`. */
  datatype Condition =
    | VehicleIs(vehicleId: string)
    | FuelIs(fuelType: string)
    | OnOrAfter(date: string)
    | OnOrBefore(date: string)

  /** The conditions of the list query, in the order the code adds them. */
  function Conditions(f: Filters): (cs: seq<Condition>)
    ensures VehicleIs(f.vehicleId) in cs <==> f.vehicleId != ""
    ensures FuelIs(f.fuelType) in cs <==> f.fuelType != ""
    ensures OnOrAfter(f.startDate) in cs <==> f.startDate != ""
    ensures OnOrBefore(f.endDate) in cs <==> f.endDate != ""
    ensures forall i :: 0 <= i < |cs| ==> cs[i] in [VehicleIs(f.vehicleId), FuelIs(f.fuelType), OnOrAfter(f.startDate), OnOrBefore(f.endDate)]
  {
    (if f.vehicleId != "" then [VehicleIs(f.vehicleId)] else []) +
    (if f.fuelType != "" then [FuelIs(f.fuelType)] else []) +
    (if f.startDate != "" then [OnOrAfter(f.startDate)] else []) +
    (if f.endDate != "" then [OnOrBefore(f.endDate)] else [])
  }

  /** The joined `vehicles(id, plate, model)` row. */
  datatype SupplyVehicle = SupplyVehicle(id: string, plate: Option<string>, model: Option<string>)

  /** A supply as the list keeps it. */
  datatype SupplyRow = SupplyRow(id: string, vehicle: Option<SupplyVehicle>, fuelType: string)

  /** A supply as the query returns it, its vehicle join still raw. */
  datatype FetchedSupply = FetchedSupply(id: string, vehicles: Joined<SupplyVehicle>, fuelType: string)

  /** `formattedData`: each join becomes its object, or the first of its array. */
  function Normalise(data: seq<FetchedSupply>): (rows: seq<SupplyRow>)
    ensures |rows| == |data|
    ensures forall i :: 0 <= i < |rows| ==>
      rows[i].id == data[i].id && rows[i].fuelType == data[i].fuelType && rows[i].vehicle == FirstJoined(data[i].vehicles)
  {
    seq(|data|, i requires 0 <= i < |data| => SupplyRow(data[i].id, FirstJoined(data[i].vehicles), data[i].fuelType))
  }

  /** `x?.toLowerCase().includes(q)` for a text that may be missing. */
  predicate MentionsLower(x: Option<string>, q: string) {
    x.Some? && Contains(ToLower(x.value), q)
  }

  /** The search test with the term already lower-cased. */
  predicate Matches(s: SupplyRow, q: string) {
    (s.vehicle.Some? && MentionsLower(s.vehicle.value.plate, q)) ||
    (s.vehicle.Some? && MentionsLower(s.vehicle.value.model, q)) ||
    Contains(ToLower(s.fuelType), q)
  }

  /** `filteredSupplies`: the rows whose plate, model or fuel type contains
      the term, ignoring case, in their original order. */
  function Search(rows: seq<SupplyRow>, term: string): (r: seq<SupplyRow>)
    ensures forall i :: 0 <= i < |r| ==> Matches(r[i], ToLower(term)) && r[i] in rows
    ensures forall i :: 0 <= i < |rows| && Matches(rows[i], ToLower(term)) ==> rows[i] in r
    ensures IsSubsequence(r, rows)
  {
    var q := ToLower(term);
    FilterIsSubsequence(rows, (s: SupplyRow) => Matches(s, q));
    Filter(rows, (s: SupplyRow) => Matches(s, q))
  }

  /** An empty search keeps every supply. */
  lemma EmptySearchKeepsAll(rows: seq<SupplyRow>)
    ensures Search(rows, "") == rows
  {
    var q := ToLower("");
    forall i | 0 <= i < |rows| ensures Matches(rows[i], q) {
      ContainsEmpty(ToLower(rows[i].fuelType));
    }
    FilterKeepsAll(rows, (s: SupplyRow) => Matches(s, q));
  }

  /** The case of the term does not matter. */
  lemma SearchIgnoresTermCase(rows: seq<SupplyRow>, term: string)
    ensures Search(rows, ToLower(term)) == Search(rows, term)
  {
    ToLowerIdempotent(term);
  }

  /** `handleClearFilters`. */
  function ClearFilters(v: ListView<Filters, SupplyRow>): (r: ListView<Filters, SupplyRow>)
    ensures r.filters == NoFilters && r.page == 0 && Conditions(r.filters) == []
    ensures r.rows == v.rows && r.rowsPerPage == v.rowsPerPage
  {
    Clear(v, NoFilters)
  }

  /** `handleDeleteSupply` after the database delete succeeded. */
  function DeleteSupply(v: ListView<Filters, SupplyRow>, id: string): (r: ListView<Filters, SupplyRow>)
    ensures forall i :: 0 <= i < |r.rows| ==> r.rows[i] in v.rows && r.rows[i].id != id
    ensures forall i :: 0 <= i < |v.rows| && v.rows[i].id != id ==> v.rows[i] in r.rows
    ensures IsSubsequence(r.rows, v.rows)
    ensures r.filters == v.filters && r.page == v.page && r.rowsPerPage == v.rowsPerPage
  {
    Deleted(v, (s: SupplyRow) => s.id, id)
  }

  /** `handleDeleteSupply`: nothing happens without a supply picked or
      without a tenant, and the row leaves the list only when the database
      delete succeeds (`deleted`); a failed delete lands in the `catch` with
      the list unchanged. */
  function HandleDeleteSupply(v: ListView<Filters, SupplyRow>, toDelete: Option<string>, user: Option<User>,
                              deleted: bool): (r: ListView<Filters, SupplyRow>)
    ensures toDelete.Some? && TenantOf(user).Some? && deleted ==> r == DeleteSupply(v, toDelete.value)
    ensures toDelete.None? || TenantOf(user).None? || !deleted ==> r == v
    ensures toDelete.Some? && TenantOf(user).Some? && deleted ==>
      forall i :: 0 <= i < |r.rows| ==> r.rows[i].id != toDelete.value
    ensures IsSubsequence(r.rows, v.rows) && r.filters == v.filters && r.page == v.page
  {
    if toDelete.None? || TenantOf(user).None? || !deleted then
      SubsequenceOfItself(v.rows);
      v
    else DeleteSupply(v, toDelete.value)
  }

  /** One stored fuel price. */
  datatype PriceRow = PriceRow(fuelType: string, price: string)

  /** A price the settings dialog has filled in for fuel `f`. */
  predicate PriceFilled(prices: map<string, string>, f: string) {
    f in prices && prices[f] != ""
  }

  /** One upsert per option, in order, for the options with a filled-in price. */
  function UpsertsFor(opts: seq<string>, prices: map<string, string>): (r: seq<PriceRow>)
    ensures forall i :: 0 <= i < |r| ==>
      r[i].fuelType in opts && PriceFilled(prices, r[i].fuelType) && r[i].price == prices[r[i].fuelType]
    ensures forall f :: f in opts && PriceFilled(prices, f) ==>
      exists i :: 0 <= i < |r| && r[i].fuelType == f
  {
    var kept := Filter(opts, (f: string) => PriceFilled(prices, f));
    var r := seq(|kept|, i requires 0 <= i < |kept| => PriceRow(kept[i], prices[kept[i]]));
    assert forall f :: f in kept ==> exists i :: 0 <= i < |r| && r[i].fuelType == f by {
      forall f | f in kept ensures exists i :: 0 <= i < |r| && r[i].fuelType == f {
        var i :| 0 <= i < |kept| && kept[i] == f;
        assert r[i].fuelType == f;
      }
    }
    r
  }

  /** The price upserts of `handleSaveSettings`: one per fuel option whose
      price is filled in, in the order of the options. */
  function PriceUpserts(prices: map<string, string>): (r: seq<PriceRow>)
    ensures forall i :: 0 <= i < |r| ==>
      r[i].fuelType in FuelOptions && PriceFilled(prices, r[i].fuelType) && r[i].price == prices[r[i].fuelType]
    ensures forall f :: f in FuelOptions && PriceFilled(prices, f) ==>
      exists i :: 0 <= i < |r| && r[i].fuelType == f
  {
    UpsertsFor(FuelOptions, prices)
  }

  /** `fetchFuelPrices`: fuel type to price, a later row overriding an earlier one. */
  function PricesOf(rows: seq<PriceRow>): (m: map<string, string>)
    ensures forall k :: k in m <==> exists i :: 0 <= i < |rows| && rows[i].fuelType == k
    ensures forall k :: k in m ==> exists i :: 0 <= i < |rows| && rows[i].fuelType == k && rows[i].price == m[k]
  {
    if rows == [] then map[]
    else
      var init := rows[..|rows| - 1];
      var last := rows[|rows| - 1];
      assert forall i :: 0 <= i < |init| ==> init[i] == rows[i];
      PricesOf(init)[last.fuelType := last.price]
  }

  /** When a fuel is stored in several rows, the last one read wins. */
  lemma {:induction false} PricesOfLastRowWins(rows: seq<PriceRow>, i: nat)
    requires i < |rows|
    requires forall j :: i < j < |rows| ==> rows[j].fuelType != rows[i].fuelType
    ensures rows[i].fuelType in PricesOf(rows) && PricesOf(rows)[rows[i].fuelType] == rows[i].price
    decreases |rows|
  {
    if i < |rows| - 1 {
      var init := rows[..|rows| - 1];
      assert init[i] == rows[i];
      PricesOfLastRowWins(init, i);
    }
  }

  lemma PricesOfAppend(rows: seq<PriceRow>, row: PriceRow)
    ensures PricesOf(rows + [row]) == PricesOf(rows)[row.fuelType := row.price]
  {
    assert (rows + [row])[..|rows|] == rows;
  }

  /** The stored rows of every fuel but `k`, in order. */
  function WithoutFuel(rows: seq<PriceRow>, k: string): (r: seq<PriceRow>)
    ensures forall i :: 0 <= i < |r| ==> r[i].fuelType != k
    decreases |rows|
  {
    if rows == [] then []
    else
      var init := WithoutFuel(rows[..|rows| - 1], k);
      var last := rows[|rows| - 1];
      if last.fuelType == k then init else init + [last]
  }

  lemma DropUpdated(m: map<string, string>, k: string, v: string)
    ensures m[k := v] - {k} == m - {k}
  {
  }

  lemma DropOther(m: map<string, string>, j: string, v: string, k: string)
    requires j != k
    ensures (m - {k})[j := v] == m[j := v] - {k}
  {
  }

  lemma DropThenUpdate(m: map<string, string>, k: string, v: string)
    ensures (m - {k})[k := v] == m[k := v]
  {
  }

  /** Dropping a fuel's rows drops exactly that fuel from the price map. */
  lemma {:induction false} PricesOfWithoutFuel(rows: seq<PriceRow>, k: string)
    ensures PricesOf(WithoutFuel(rows, k)) == PricesOf(rows) - {k}
    decreases |rows|
  {
    if rows != [] {
      var init := rows[..|rows| - 1];
      var last := rows[|rows| - 1];
      var p := PricesOf(init);
      assert PricesOf(rows) == p[last.fuelType := last.price];
      PricesOfWithoutFuel(init, k);
      if last.fuelType == k {
        assert WithoutFuel(rows, k) == WithoutFuel(init, k);
        DropUpdated(p, k, last.price);
      } else {
        assert WithoutFuel(rows, k) == WithoutFuel(init, k) + [last];
        PricesOfAppend(WithoutFuel(init, k), last);
        DropOther(p, last.fuelType, last.price, k);
      }
    }
  }

  /** `upsert(..., { onConflict: 'tenant_id,fuel_type' })`: the stored row of
      the fuel, if there is one, is replaced by the new row; no other row changes. */
  function Upsert(rows: seq<PriceRow>, row: PriceRow): (r: seq<PriceRow>)
    ensures PricesOf(r) == PricesOf(rows)[row.fuelType := row.price]
    ensures forall i :: 0 <= i < |r| && r[i].fuelType == row.fuelType ==> r[i] == row
  {
    var rest := WithoutFuel(rows, row.fuelType);
    PricesOfWithoutFuel(rows, row.fuelType);
    PricesOfAppend(rest, row);
    DropThenUpdate(PricesOf(rows), row.fuelType, row.price);
    OnlyRowOfItsFuel(rest, row);
    rest + [row]
  }

  lemma OnlyRowOfItsFuel(rest: seq<PriceRow>, row: PriceRow)
    requires forall i :: 0 <= i < |rest| ==> rest[i].fuelType != row.fuelType
    ensures forall i :: 0 <= i < |rest + [row]| && (rest + [row])[i].fuelType == row.fuelType ==> (rest + [row])[i] == row
  {
  }

  /** The upserts of a save, one after another. */
  function UpsertAll(rows: seq<PriceRow>, upserts: seq<PriceRow>): seq<PriceRow>
    decreases |upserts|
  {
    if upserts == [] then rows else UpsertAll(Upsert(rows, upserts[0]), upserts[1..])
  }

  /** The fuels a list of rows mentions. */
  function FuelsOf(rows: seq<PriceRow>): (fs: set<string>)
    ensures forall f :: f in fs <==> exists i :: 0 <= i < |rows| && rows[i].fuelType == f
    decreases |rows|
  {
    if rows == [] then {}
    else
      var fs := {rows[0].fuelType} + FuelsOf(rows[1..]);
      assert forall i :: 1 <= i < |rows| ==> rows[i] == rows[1..][i - 1];
      fs
  }

  /** After a run of upserts whose prices all come from `prices`, every
      upserted fuel has its price from `prices`, and every other stored fuel
      keeps the price it had. */
  lemma {:induction false} UpsertAllPrices(rows: seq<PriceRow>, upserts: seq<PriceRow>, prices: map<string, string>)
    requires forall i :: 0 <= i < |upserts| ==> upserts[i].fuelType in prices && upserts[i].price == prices[upserts[i].fuelType]
    ensures var m := PricesOf(UpsertAll(rows, upserts));
      (forall f :: f in m <==> f in PricesOf(rows) || f in FuelsOf(upserts)) &&
      (forall f :: f in FuelsOf(upserts) ==> m[f] == prices[f]) &&
      (forall f :: f in m && f !in FuelsOf(upserts) ==> m[f] == PricesOf(rows)[f])
    decreases |upserts|
  {
    if upserts != [] {
      var next := Upsert(rows, upserts[0]);
      assert forall i :: 0 <= i < |upserts[1..]| ==> upserts[1..][i] == upserts[i + 1];
      UpsertAllPrices(next, upserts[1..], prices);
      assert FuelsOf(upserts) == {upserts[0].fuelType} + FuelsOf(upserts[1..]);
    }
  }

  /** The settings save upserts on (tenant, fuel) and deletes nothing, so
      reloading the prices afterwards shows the new price of every filled-in
      fuel option and the old price of every other stored fuel. */
  lemma SavedPricesReload(stored: seq<PriceRow>, prices: map<string, string>)
    ensures var m := PricesOf(UpsertAll(stored, PriceUpserts(prices)));
      (forall f :: f in m <==> f in PricesOf(stored) || (f in FuelOptions && PriceFilled(prices, f))) &&
      (forall f :: f in FuelOptions && PriceFilled(prices, f) ==> m[f] == prices[f]) &&
      (forall f :: f in m && !(f in FuelOptions && PriceFilled(prices, f)) ==> m[f] == PricesOf(stored)[f])
  {
    var ups := PriceUpserts(prices);
    UpsertAllPrices(stored, ups, prices);
    assert forall f :: f in FuelsOf(ups) <==> f in FuelOptions && PriceFilled(prices, f);
  }
}

=== FILE: supply_form.dfy ===
/** The fuel-supply form: its validation, the handlers that keep the error
    map, the fuel type and the default price in step, and the record a
    submit saves. */
module SupplyForm {
  import opened Wrappers
  import opened Strings
  import opened Numbers
  import opened FormErrors

  /** `SupplyFormData`; the numbers are the text typed into their inputs. */
  datatype FormData = FormData(
    vehicleId: string,
    supplyDate: string,
    odometer: string,
    fuelType: string,
    quantity: string,
    price: string,
    gasStation: Option<string>,
    invoiceNumber: Option<string>,
    driverId: Option<string>,
    notes: Option<string>)

  /** The form's inputs, by their `name`. */
  datatype Field =
    | VehicleId | SupplyDate | Odometer | FuelType | Quantity | Price
    | GasStation | InvoiceNumber | DriverId | Notes

  /** The fuel type a new supply starts with. */
  const DefaultFuelType: string := "gasolina comum"

  /** A new supply: empty except the date, which the caller supplies, and the fuel type. */
  function Initial(now: string): (f: FormData)
    ensures f.vehicleId == "" && f.odometer == "" && f.quantity == "" && f.price == ""
    ensures f.supplyDate == now && f.fuelType == DefaultFuelType && f.driverId.None?
    ensures f.gasStation == Some("") && f.invoiceNumber == Some("") && f.notes == Some("")
  {
    FormData("", now, "", DefaultFuelType, "", "", Some(""), Some(""), None, Some(""))
  }

  function Get(f: FormData, field: Field): Option<string> {
    match field
    case VehicleId => Some(f.vehicleId)
    case SupplyDate => Some(f.supplyDate)
    case Odometer => Some(f.odometer)
    case FuelType => Some(f.fuelType)
    case Quantity => Some(f.quantity)
    case Price => Some(f.price)
    case GasStation => f.gasStation
    case InvoiceNumber => f.invoiceNumber
    case DriverId => f.driverId
    case Notes => f.notes
  }

  /** `{ ...prev, [name]: value }`. */
  function Set(f: FormData, field: Field, value: string): (r: FormData)
    ensures Get(r, field) == Some(value)
    ensures forall g :: g != field ==> Get(r, g) == Get(f, g)
  {
    match field
    case VehicleId => f.(vehicleId := value)
    case SupplyDate => f.(supplyDate := value)
    case Odometer => f.(odometer := value)
    case FuelType => f.(fuelType := value)
    case Quantity => f.(quantity := value)
    case Price => f.(price := value)
    case GasStation => f.(gasStation := Some(value))
    case InvoiceNumber => f.(invoiceNumber := Some(value))
    case DriverId => f.(driverId := Some(value))
    case Notes => f.(notes := Some(value))
  }

  /** The validator's number test with `read` as the number reader: the
      text is not blank (`String(s).trim()` is truthy), is not NaN and is
      above zero. */
  predicate PositiveBy(read: string -> Option<real>, s: string) {
    !Blank(s) && read(s).Some? && read(s).value > 0.0
  }

  /** Text that `Number` reads, as a whole, as a number above zero. */
  predicate PositiveNumber(s: string) {
    PositiveBy(JsNumber, s)
  }

  /** The fields `validateForm` finds fault with, for a given number reader. */
  function FailingBy(f: FormData, read: string -> Option<real>): (bad: set<Field>)
    ensures VehicleId in bad <==> f.vehicleId == ""
    ensures SupplyDate in bad <==> f.supplyDate == ""
    ensures FuelType in bad <==> f.fuelType == ""
    ensures Odometer in bad <==> !PositiveBy(read, f.odometer)
    ensures Quantity in bad <==> !PositiveBy(read, f.quantity)
    ensures Price in bad <==> !PositiveBy(read, f.price)
    ensures bad <= {VehicleId, SupplyDate, FuelType, Odometer, Quantity, Price}
  {
    (if f.vehicleId == "" then {VehicleId} else {}) +
    (if f.supplyDate == "" then {SupplyDate} else {}) +
    (if !PositiveBy(read, f.odometer) then {Odometer} else {}) +
    (if f.fuelType == "" then {FuelType} else {}) +
    (if !PositiveBy(read, f.quantity) then {Quantity} else {}) +
    (if !PositiveBy(read, f.price) then {Price} else {})
  }

  /** The fields `validateForm` finds fault with. */
  function Failing(f: FormData): (bad: set<Field>)
    ensures VehicleId in bad <==> f.vehicleId == ""
    ensures SupplyDate in bad <==> f.supplyDate == ""
    ensures FuelType in bad <==> f.fuelType == ""
    ensures Odometer in bad <==> !PositiveNumber(f.odometer)
    ensures Quantity in bad <==> !PositiveNumber(f.quantity)
    ensures Price in bad <==> !PositiveNumber(f.price)
    ensures bad <= {VehicleId, SupplyDate, FuelType, Odometer, Quantity, Price}
  {
    FailingBy(f, JsNumber)
  }

  /** `validateForm`: a message for every failing field. */
  function Validate(f: FormData): (errs: map<Field, string>)
    ensures errs.Keys == Failing(f)
    ensures forall g :: g in errs ==> errs[g] == Message(g)
  {
    map g | g in Failing(f) :: Message(g)
  }

  /** The message shown under a failing field. */
  function Message(g: Field): string {
    match g
    case VehicleId => "Veículo é obrigatório."
    case SupplyDate => "Data do abastecimento é obrigatória."
    case Odometer => "Kilometragem deve ser um número positivo."
    case FuelType => "Tipo de combustível é obrigatório."
    case Quantity => "Quantidade deve ser um número positivo."
    case Price => "Preço por litro deve ser um número positivo."
    case _ => ""
  }

  /** The form is valid exactly when every required field is filled and the
      three numbers are positive. */
  lemma ValidIffAllChecksPass(f: FormData)
    ensures NoErrors(Validate(f)) <==>
      f.vehicleId != "" && f.supplyDate != "" && f.fuelType != "" &&
      PositiveNumber(f.odometer) && PositiveNumber(f.quantity) && PositiveNumber(f.price)
  {
    var e := Validate(f);
    NoErrorsIffNoKey(e);
    assert NoErrors(e) <==> Failing(f) == {};
  }

  /** A run of digits with a positive value passes the number checks. */
  lemma PositiveWholeNumberPasses(s: string)
    requires AllDigits(s) && |s| >= 1 && DigitsValue(s) > 0
    ensures PositiveNumber(s)
  {
    var v := DigitsValue(s) as real;
    assert !Blank(s) by { assert IsDigit(s[0]); }
    NumberOfDigits(s);
    ReadPositive(s, v);
  }

  lemma ReadPositive(s: string, v: real)
    requires !Blank(s) && JsNumber(s) == Some(v) && v > 0.0
    ensures PositiveNumber(s)
  {
  }

  /** Text with a numeric prefix but more after it fails: the whole string must be a number. */
  lemma TrailingTextFails()
    ensures !PositiveNumber("1x")
  {
    var s := "1x";
    assert !IsWhitespace(s[0]) && !IsWhitespace(s[1]);
    assert Trim(s) == s;
    assert LeadingDigits(s) == 1;
    assert Scan(s).value.Text() == "1";
  }

  /** The form with its error map, the default-price switch and the default price. */
  datatype Editor = Editor(form: FormData, errors: map<Field, string>, useDefaultPrice: bool, defaultPrice: string)

  /** `handleChange`: set the field, forget its error, and while the default
      price is in use, a typed price also becomes the default. */
  function HandleChange(e: Editor, field: Field, value: string): (r: Editor)
    ensures Get(r.form, field) == Some(value)
    ensures forall g :: g != field ==> Get(r.form, g) == Get(e.form, g)
    ensures field !in r.errors
    ensures forall g :: g != field ==> (g in r.errors <==> g in e.errors)
    ensures r.useDefaultPrice == e.useDefaultPrice
    ensures field == Price && e.useDefaultPrice ==> r.defaultPrice == value
    ensures !(field == Price && e.useDefaultPrice) ==> r.defaultPrice == e.defaultPrice
  {
    var errs := if field in e.errors then ClearError(e.errors, field) else e.errors;
    var d := if field == Price && e.useDefaultPrice then value else e.defaultPrice;
    Editor(Set(e.form, field, value), errs, e.useDefaultPrice, d)
  }

  /** `handleSelectChange`: set the field and forget its error. */
  function HandleSelectChange(e: Editor, field: Field, value: string): (r: Editor)
    ensures Get(r.form, field) == Some(value)
    ensures forall g :: g != field ==> Get(r.form, g) == Get(e.form, g)
    ensures field !in r.errors
    ensures forall g :: g != field ==> (g in r.errors <==> g in e.errors)
    ensures r.useDefaultPrice == e.useDefaultPrice && r.defaultPrice == e.defaultPrice
  {
    var errs := if field in e.errors then ClearError(e.errors, field) else e.errors;
    e.(form := Set(e.form, field, value), errors := errs)
  }

  /** A vehicle as the form lists it. */
  datatype VehicleChoice = VehicleChoice(id: string, fuelType: string)

  /** `vehicles.find(v => v.id === id)`, as the position of the first match. */
  function FindIndex(vs: seq<VehicleChoice>, id: string): (r: Option<nat>)
    ensures r.None? <==> forall i :: 0 <= i < |vs| ==> vs[i].id != id
    ensures r.Some? ==> r.value < |vs| && vs[r.value].id == id
    ensures r.Some? ==> forall j :: 0 <= j < r.value ==> vs[j].id != id
  {
    if vs == [] then None
    else if vs[0].id == id then Some(0)
    else
      assert forall j :: 1 <= j < |vs| ==> vs[j] == vs[1..][j - 1];
      match FindIndex(vs[1..], id)
      case None => None
      case Some(i) => Some(i + 1)
  }

  /** The effect on a vehicle choice: a listed vehicle sets the fuel type to
      that of the first vehicle with the chosen id; nothing else changes. */
  function SyncFuelType(f: FormData, vs: seq<VehicleChoice>): (r: FormData)
    ensures f.vehicleId != "" && FindIndex(vs, f.vehicleId).Some? ==>
      r == f.(fuelType := vs[FindIndex(vs, f.vehicleId).value].fuelType)
    ensures f.vehicleId == "" || FindIndex(vs, f.vehicleId).None? ==> r == f
  {
    if f.vehicleId != "" && |vs| > 0 then
      match FindIndex(vs, f.vehicleId)
      case Some(i) => f.(fuelType := vs[i].fuelType)
      case None => f
    else f
  }

  /** `fuelPrices[fuelType] || ''`. */
  function PriceFor(prices: map<string, string>, fuelType: string): (p: string)
    ensures fuelType in prices ==> p == prices[fuelType]
    ensures fuelType !in prices ==> p == ""
  {
    if fuelType in prices then prices[fuelType] else ""
  }

  /** The effect on the fuel type while the default price is in use: the
      price becomes the stored price of that fuel. */
  function SyncDefaultPrice(e: Editor, prices: map<string, string>): (r: Editor)
    ensures e.useDefaultPrice && e.form.fuelType != "" ==> r.form == e.form.(price := PriceFor(prices, e.form.fuelType))
    ensures !(e.useDefaultPrice && e.form.fuelType != "") ==> r == e
    ensures r.errors == e.errors && r.defaultPrice == e.defaultPrice && r.useDefaultPrice == e.useDefaultPrice
  {
    if e.useDefaultPrice && e.form.fuelType != "" then
      e.(form := e.form.(price := PriceFor(prices, e.form.fuelType)))
    else e
  }

  /** `handleDefaultPriceChange`. */
  function HandleDefaultPriceChange(e: Editor, value: string): (r: Editor)
    ensures r.defaultPrice == value
    ensures e.useDefaultPrice ==> r.form == e.form.(price := value)
    ensures !e.useDefaultPrice ==> r.form == e.form
    ensures r.errors == e.errors && r.useDefaultPrice == e.useDefaultPrice
  {
    e.(defaultPrice := value, form := if e.useDefaultPrice then e.form.(price := value) else e.form)
  }

  /** `handleUseDefaultPrice`: switching it on fills in the fuel's stored
      price and the tenant's default station. */
  function HandleUseDefaultPrice(e: Editor, checked: bool, prices: map<string, string>,
                                 defaultStation: Option<string>): (r: Editor)
    ensures r.useDefaultPrice == checked && r.errors == e.errors
    ensures checked && e.form.fuelType != "" ==>
      r.form == e.form.(price := PriceFor(prices, e.form.fuelType), gasStation := Some(OrElse(defaultStation, "")))
      && r.defaultPrice == PriceFor(prices, e.form.fuelType)
    ensures !(checked && e.form.fuelType != "") ==> r.form == e.form && r.defaultPrice == e.defaultPrice
  {
    if checked && e.form.fuelType != "" then
      var p := PriceFor(prices, e.form.fuelType);
      Editor(e.form.(price := p, gasStation := Some(OrElse(defaultStation, ""))), e.errors, checked, p)
    else e.(useDefaultPrice := checked)
  }

  /** Switching the default price on already sets the price its effect would set. */
  lemma UseDefaultPriceIsStable(e: Editor, prices: map<string, string>, defaultStation: Option<string>)
    ensures var r := HandleUseDefaultPrice(e, true, prices, defaultStation);
      SyncDefaultPrice(r, prices) == r
  {
  }

  /** The record a submit saves; NaN is `None`. */
  datatype SavedSupply = SavedSupply(
    tenantId: string,
    vehicleId: string,
    supplyDate: string,
    odometer: Option<int>,
    fuelType: string,
    quantity: Option<real>,
    price: Option<real>,
    totalCost: Option<real>,
    gasStation: Option<string>,
    invoiceNumber: Option<string>,
    driverId: Option<string>,
    notes: Option<string>)

  /** NaN times anything is NaN. */
  function Times(a: Option<real>, b: Option<real>): (r: Option<real>)
    ensures r.Some? <==> a.Some? && b.Some?
    ensures r.Some? ==> r.value == a.value * b.value
  {
    if a.Some? && b.Some? then Some(a.value * b.value) else None
  }

  /** `dataToSave`; `toIso` is `new Date(d).toISOString()`. */
  function ToSave(tenant: string, f: FormData, toIso: string -> string): (s: SavedSupply)
    ensures s.quantity == ParseFloat(f.quantity) && s.price == ParseFloat(f.price)
    ensures s.totalCost == Times(ParseFloat(f.quantity), ParseFloat(f.price))
    ensures s.odometer == ParseInt(f.odometer)
    ensures s.tenantId == tenant && s.vehicleId == f.vehicleId && s.fuelType == f.fuelType
    ensures s.supplyDate == toIso(f.supplyDate)
    ensures s.gasStation == f.gasStation && s.invoiceNumber == f.invoiceNumber
    ensures s.driverId == f.driverId && s.notes == f.notes
  {
    var q := ParseFloat(f.quantity);
    var p := ParseFloat(f.price);
    SavedSupply(tenant, f.vehicleId, toIso(f.supplyDate), ParseInt(f.odometer), f.fuelType,
                q, p, Times(q, p), f.gasStation, f.invoiceNumber, f.driverId, f.notes)
  }

  datatype SubmitError = NotSignedIn | Invalid(errors: map<Field, string>)

  /** The write a submit performs: `update(...).eq('id', supplyId)` or `insert`. */
  datatype SaveAction = Insert(record: SavedSupply) | Update(id: string, record: SavedSupply)

  /** `handleSubmit` up to the database write: an update in edit mode with a
      route id, an insert otherwise. */
  function Submit(user: Option<User>, f: FormData, toIso: string -> string,
                  isEdit: bool, supplyId: Option<string>): (r: Result<SaveAction, SubmitError>)
    ensures TenantOf(user).None? <==> r == Err(NotSignedIn)
    ensures TenantOf(user).Some? && !NoErrors(Validate(f)) ==> r == Err(Invalid(Validate(f)))
    ensures r.Ok? <==> TenantOf(user).Some? && NoErrors(Validate(f))
    ensures r.Ok? ==> r.value.record == ToSave(TenantOf(user).value, f, toIso) && r.value.record.tenantId != ""
    ensures r.Ok? ==> (r.value.Update? <==> isEdit && Truthy(supplyId))
    ensures r.Ok? && r.value.Update? ==> r.value.id == supplyId.value
  {
    match TenantOf(user)
    case None => Err(NotSignedIn)
    case Some(tenant) =>
      var errs := Validate(f);
      if !NoErrors(errs) then Err(Invalid(errs))
      else
        var record := ToSave(tenant, f, toIso);
        if isEdit && Truthy(supplyId) then Ok(Update(supplyId.value, record)) else Ok(Insert(record))
  }

  /** When both numbers are read as positive (which `AcceptedNumberIsSaved`
      gives for every number the validator accepts), the saved total is
      their product and is positive. */
  lemma SavedTotalIsProduct(tenant: string, f: FormData, toIso: string -> string, q: real, p: real)
    requires ParseFloat(f.quantity) == Some(q) && ParseFloat(f.price) == Some(p)
    requires q > 0.0 && p > 0.0
    ensures var s := ToSave(tenant, f, toIso);
      s.quantity == Some(q) && s.price == Some(p) && s.totalCost == Some(q * p) && s.totalCost.value > 0.0
  {
    var s := ToSave(tenant, f, toIso);
    assert s.totalCost == Times(Some(q), Some(p));
    PositiveProduct(q, p);
  }

  /** A submit of a valid form saves a positive total: the product of the
      quantity and the price the validator accepted. */
  lemma ValidSubmitSavesPositiveTotal(user: Option<User>, f: FormData, toIso: string -> string,
                                      isEdit: bool, supplyId: Option<string>)
    requires Submit(user, f, toIso, isEdit, supplyId).Ok?
    ensures var s := Submit(user, f, toIso, isEdit, supplyId).value.record;
      s.totalCost.Some? && s.totalCost.value > 0.0 &&
      s.quantity == JsNumber(f.quantity) && s.price == JsNumber(f.price)
  {
    ValidIffAllChecksPass(f);
    AcceptedNumberIsSaved(f.quantity);
    AcceptedNumberIsSaved(f.price);
    SavedTotalIsProduct(TenantOf(user).value, f, toIso, JsNumber(f.quantity).value, JsNumber(f.price).value);
  }

  /** A number the validator accepted is what `parseFloat` saves. */
  lemma AcceptedNumberIsSaved(s: string)
    requires PositiveNumber(s)
    ensures ParseFloat(s) == JsNumber(s) && JsNumber(s).value > 0.0
  {
    NumberAgreesWithParseFloat(s);
  }

  lemma PositiveProduct(a: real, b: real)
    requires a > 0.0 && b > 0.0
    ensures Times(Some(a), Some(b)) == Some(a * b)
    ensures Times(Some(a), Some(b)).value > 0.0
  {
  }

  /** On a valid form a saved odometer is the accepted number with its
      fraction dropped. */
  lemma SavedOdometerTruncates(user: Option<User>, f: FormData, toIso: string -> string,
                                isEdit: bool, supplyId: Option<string>)
    requires Submit(user, f, toIso, isEdit, supplyId).Ok?
    requires ParseInt(f.odometer).Some?
    ensures Submit(user, f, toIso, isEdit, supplyId).value.record.odometer == Some(Trunc(JsNumber(f.odometer).value))
  {
    ValidIffAllChecksPass(f);
    NumberAgreesWithParseFloat(f.odometer);
    ParseIntTruncatesParseFloat(f.odometer);
  }
}

=== FILE: validity.dfy ===
/** The document validity classifier (`getDocumentStatus`), its chip colour
    and its chip label. The classifier is written out identically in the
    documents list, the document detail page and the driver detail page; this
    module is the one definition all three use. Dates are whole days. */
module Validity {
  import opened Wrappers
  import opened Strings

  /** `DocumentStatus`. */
  datatype Status = Valid | ExpiringSoon | Expired | NotApplicable {
    /** The string the pages store and compare. */
    function Name(): string {
      match this
      case Valid => "válido"
      case ExpiringSoon => "próximo_vencimento"
      case Expired => "vencido"
      case NotApplicable => "não_aplicável"
    }
  }

  /** The expiry of a document as the classifier sees it: no date at all, a
      date string the `Date` constructor could not read, or a day. */
  datatype ExpiryDate = NoDate | InvalidDate | OnDay(day: int)

  /** The window, in days, in which a document is about to expire. */
  const WindowDays: int := 30

  const MsPerDay: int := 24 * 60 * 60 * 1000

  /** `expirationDate` as the classifier reads it: a missing or empty string
      is no date; otherwise `parse` is the date parser applied to the string
      with "T00:00:00" appended, giving a day or nothing. */
  function ReadExpiry(raw: Option<string>, parse: string -> Option<int>): (e: ExpiryDate)
    ensures e.NoDate? <==> !Truthy(raw)
    ensures Truthy(raw) && parse(raw.value + "T00:00:00").None? ==> e.InvalidDate?
    ensures Truthy(raw) && parse(raw.value + "T00:00:00").Some? ==>
      e == OnDay(parse(raw.value + "T00:00:00").value)
  {
    if !Truthy(raw) then NoDate
    else match parse(raw.value + "T00:00:00")
      case None => InvalidDate
      case Some(d) => OnDay(d)
  }

  /** `expiry < other`; an invalid date compares false with everything, as NaN does. */
  predicate Before(e: ExpiryDate, other: int) {
    e.OnDay? && e.day < other
  }

  /** `expiry <= other`, again false for an invalid date. */
  predicate AtOrBefore(e: ExpiryDate, other: int) {
    e.OnDay? && e.day <= other
  }

  /** `getDocumentStatus` with `today` as the current day. */
  function Classify(e: ExpiryDate, today: int): (s: Status)
    ensures s == NotApplicable <==> e.NoDate?
    ensures s == Expired <==> e.OnDay? && e.day < today
    ensures s == ExpiringSoon <==> e.OnDay? && today <= e.day <= today + WindowDays
    ensures s == Valid <==> e.InvalidDate? || (e.OnDay? && e.day > today + WindowDays)
  {
    if e.NoDate? then NotApplicable
    else if Before(e, today) then Expired
    else if AtOrBefore(e, today + WindowDays) then ExpiringSoon
    else Valid
  }

  /** The same classifier over millisecond timestamps, as the code computes
      it: `today` is a midnight timestamp, the window end is today plus
      30 * 24 * 60 * 60 * 1000 ms, and `None` is an invalid date (NaN). */
  function ClassifyMillis(expiryMs: Option<Option<int>>, todayMs: int): (s: Status)
    ensures s == NotApplicable <==> expiryMs.None?
  {
    match expiryMs
    case None => NotApplicable
    case Some(None) => Valid
    case Some(Some(ms)) =>
      var thirtyDaysFromNow := todayMs + 30 * 24 * 60 * 60 * 1000;
      if ms < todayMs then Expired
      else if ms <= thirtyDaysFromNow then ExpiringSoon
      else Valid
  }

  /** The timestamp of an expiry: the midnight that starts its day. */
  function ExpiryMillis(e: ExpiryDate): (ms: Option<Option<int>>)
    ensures ms.None? <==> e.NoDate?
    ensures e.OnDay? ==> ms == Some(Some(e.day * MsPerDay))
  {
    match e
    case NoDate => None
    case InvalidDate => Some(None)
    case OnDay(d) => Some(Some(d * MsPerDay))
  }

  /** On midnight timestamps the millisecond classifier and the day
      classifier agree for every expiry and every day. */
  lemma MillisAgreesWithDays(e: ExpiryDate, today: int)
    ensures ClassifyMillis(ExpiryMillis(e), today * MsPerDay) == Classify(e, today)
  {
    if e.OnDay? {
      var d := e.day;
      assert d * MsPerDay < today * MsPerDay <==> d < today;
      assert d * MsPerDay <= today * MsPerDay + 30 * MsPerDay <==> d <= today + 30;
    }
  }

  /** How good a status is: expired is worst, valid is best. */
  function Rank(s: Status): (r: int)
    requires s != NotApplicable
    ensures 0 <= r <= 2
    ensures r == 0 <==> s == Expired
    ensures r == 2 <==> s == Valid
  {
    match s
    case Expired => 0
    case ExpiringSoon => 1
    case Valid => 2
  }

  /** A later expiry never gives a worse status. */
  lemma LaterExpiryNeverWorse(d1: int, d2: int, today: int)
    requires d1 <= d2
    ensures Rank(Classify(OnDay(d1), today)) <= Rank(Classify(OnDay(d2), today))
  {
  }

  /** As days pass a document's status never improves. */
  lemma LaterTodayNeverBetter(d: int, t1: int, t2: int)
    requires t1 <= t2
    ensures Rank(Classify(OnDay(d), t2)) <= Rank(Classify(OnDay(d), t1))
  {
  }

  /** The expiry day itself is still in the window, and so is the 30th day after it. */
  lemma WindowIsInclusive(today: int)
    ensures Classify(OnDay(today), today) == ExpiringSoon
    ensures Classify(OnDay(today + WindowDays), today) == ExpiringSoon
    ensures Classify(OnDay(today - 1), today) == Expired
    ensures Classify(OnDay(today + WindowDays + 1), today) == Valid
  {
  }

  datatype ChipColour = Error | Warning | Success | Default

  /** The colour of the status chip. */
  function Colour(s: Status): (c: ChipColour)
    ensures c == Error <==> s == Expired
    ensures c == Warning <==> s == ExpiringSoon
    ensures c == Success <==> s == Valid
    ensures c == Default <==> s == NotApplicable
  {
    if s.Name() == "vencido" then Error
    else if s.Name() == "próximo_vencimento" then Warning
    else if s.Name() == "válido" then Success
    else Default
  }

  /** The index of the first `a` in `s`, if there is one. */
  function FirstIndex(s: string, a: char): (r: Option<nat>)
    ensures r.None? <==> a !in s
    ensures r.Some? ==> r.value < |s| && s[r.value] == a && a !in s[..r.value]
  {
    if s == [] then None
    else if s[0] == a then Some(0)
    else match FirstIndex(s[1..], a)
      case None => None
      case Some(i) =>
        assert s[..i + 1] == [s[0]] + s[1..][..i];
        Some(i + 1)
  }

  /** `s.replace(a, b)` with single characters: only the first `a` is replaced. */
  function ReplaceFirst(s: string, a: char, b: char): (r: string)
    ensures |r| == |s|
    ensures a !in s ==> r == s
    ensures a in s ==> exists i :: 0 <= i < |s| && s[i] == a && a !in s[..i] && r == s[..i] + [b] + s[i + 1..]
  {
    match FirstIndex(s, a)
    case None => s
    case Some(i) => s[..i] + [b] + s[i + 1..]
  }

  /** A character of the regular-expression class `\w`: ASCII letters,
      digits and '_'. */
  predicate IsWordChar(c: char) {
    ('a' <= c <= 'z') || ('A' <= c <= 'Z') || ('0' <= c <= '9') || c == '_'
  }

  /** `\b\w` matches at `i`: a word character whose left neighbour is not one. */
  predicate WordStartAt(s: string, i: int)
    requires 0 <= i < |s|
  {
    IsWordChar(s[i]) && (i == 0 || !IsWordChar(s[i - 1]))
  }

  /** `s.replace(/\b\w/g, l => l.toUpperCase())`. */
  function UpperWordStarts(s: string): (r: string)
    ensures |r| == |s|
    ensures forall i :: 0 <= i < |s| ==> r[i] == if WordStartAt(s, i) then UpperChar(s[i]) else s[i]
  {
    seq(|s|, i requires 0 <= i < |s| => if WordStartAt(s, i) then UpperChar(s[i]) else s[i])
  }

  /** The chip label exactly as the pages build it: like the corrected
      label it only changes letter case, but it may change it mid-word. */
  function LabelAsWritten(s: Status): (r: string)
    ensures |r| == |s.Name()|
    ensures ToLower(r) == ToLower(ReplaceFirst(s.Name(), '_', ' '))
  {
    var t := ReplaceFirst(s.Name(), '_', ' ');
    UpperWordStartsOnlyChangesCase(t);
    UpperWordStarts(t)
  }

  /** Upper-casing word starts changes letter case only. */
  lemma UpperWordStartsOnlyChangesCase(s: string)
    ensures ToLower(UpperWordStarts(s)) == ToLower(s)
  {
    var r := UpperWordStarts(s);
    forall i | 0 <= i < |s| ensures LowerChar(r[i]) == LowerChar(s[i]) {
      LowerOfUpper(s[i]);
    }
  }

  /** `\w` is ASCII only, so an accented letter ends a "word" and the next
      letter is capitalised as well. */
  lemma LabelAsWrittenBreaksAtAccents()
    ensures LabelAsWritten(Valid) == "VáLido"
  {
    var s := "válido";
    assert ReplaceFirst(s, '_', ' ') == s;
    var r := UpperWordStarts(s);
    assert WordStartAt(s, 0) && !WordStartAt(s, 1) && WordStartAt(s, 2);
    assert !WordStartAt(s, 3) && !WordStartAt(s, 4) && !WordStartAt(s, 5);
    assert r == "VáLido";
  }

  /** Title case over space-separated words: the first character of the
      string and every character after a space is upper-cased. */
  function TitleCase(s: string): (r: string)
    ensures |r| == |s|
    ensures forall i :: 0 <= i < |s| ==> r[i] == if i == 0 || s[i - 1] == ' ' then UpperChar(s[i]) else s[i]
  {
    seq(|s|, i requires 0 <= i < |s| => if i == 0 || s[i - 1] == ' ' then UpperChar(s[i]) else s[i])
  }

  /** The chip label as evidently intended: each word capitalised once, so
      no character inside a word changes. */
  function Label(s: Status): (r: string)
    ensures |r| == |s.Name()|
    ensures var t := ReplaceFirst(s.Name(), '_', ' ');
      forall i :: 0 < i < |r| && t[i - 1] != ' ' ==> r[i] == t[i]
  {
    TitleCase(ReplaceFirst(s.Name(), '_', ' '))
  }

  /** The corrected label capitalises the accented word once. */
  lemma LabelOfValid()
    ensures Label(Valid) == "Válido"
  {
    var s := "válido";
    assert ReplaceFirst(s, '_', ' ') == s;
    assert TitleCase(s) == "Válido";
  }

  /** The label only changes letter case: lower-cased, it is the status name
      with its underscore made a space. */
  lemma LabelIsTheNameUpToCase(s: Status)
    ensures ToLower(Label(s)) == ToLower(ReplaceFirst(s.Name(), '_', ' '))
    ensures |Label(s)| == |s.Name()|
  {
    TitleCaseOnlyChangesCase(ReplaceFirst(s.Name(), '_', ' '));
  }

  /** Title case changes letter case only: lower-casing undoes it. */
  lemma TitleCaseOnlyChangesCase(s: string)
    ensures ToLower(TitleCase(s)) == ToLower(s)
  {
    var r := TitleCase(s);
    forall i | 0 <= i < |s| ensures LowerChar(r[i]) == LowerChar(s[i]) {
      LowerOfUpper(s[i]);
    }
  }

  lemma LowerOfUpper(c: char)
    ensures LowerChar(UpperChar(c)) == LowerChar(c)
  {
  }
}

=== FILE: vehicle_form.dfy ===
/** The vehicle form: a loosely typed draft keyed by input name, the
    number-input coercion of `handleChange`, the submit guards, the numeric
    coercions of the saved record, and the reset after an insert. */
module VehicleForm {
  import opened Wrappers
  import opened Numbers

  /** A draft value: typed text, or the number a number input produced
      (`None` standing for NaN). */
  datatype Value = Text(text: string) | Num(number: Option<real>)

  /** The draft, `Partial<Vehicle>`: any input name may be set. */
  type Draft = map<string, Value>

  const Plate := "plate"
  const Brand := "brand"
  const Model := "model"
  const YearManufacture := "year_manufacture"
  const YearModel := "year_model"
  const CurrentKm := "current_km"
  const PurchasePrice := "purchase_price"
  const AverageConsumption := "average_consumption"

  /** The fixed defaults, with `year` for the current year. */
  function Initial(year: int): (d: Draft)
    ensures Lookup(d, Plate) == Lookup(d, Brand) == Lookup(d, Model) == Some(Text(""))
    ensures Lookup(d, "type") == Some(Text("car")) && Lookup(d, "status") == Some(Text("active"))
    ensures Lookup(d, "fuel_type") == Some(Text("flex")) && Lookup(d, CurrentKm) == Some(Num(Some(0.0)))
    ensures Lookup(d, YearManufacture) == Lookup(d, YearModel) == Some(Num(Some(year as real)))
    ensures PurchasePrice !in d && AverageConsumption !in d
  {
    map[Plate := Text(""), Brand := Text(""), Model := Text(""),
        YearManufacture := Num(Some(year as real)), YearModel := Num(Some(year as real)),
        "type" := Text("car"), CurrentKm := Num(Some(0.0)), "status" := Text("active"),
        "fuel_type" := Text("flex")]
  }

  /** JavaScript truthiness of a draft entry; a missing entry is `undefined`. */
  predicate TruthyEntry(v: Option<Value>) {
    match v
    case None => false
    case Some(Text(s)) => s != ""
    case Some(Num(n)) => NumberTruthy(n)
  }

  function Lookup(d: Draft, k: string): Option<Value> {
    if k in d then Some(d[k]) else None
  }

  /** `handleChange`: a number input keeps '' as text and otherwise stores
      `parseFloat` of what was typed; any other input stores the text. */
  function HandleChange(d: Draft, name: string, value: string, inputType: string): (r: Draft)
    ensures name in r && forall k :: k in d && k != name ==> k in r && r[k] == d[k]
    ensures forall k :: k in r ==> k in d || k == name
    ensures inputType != "number" ==> r[name] == Text(value)
    ensures inputType == "number" ==> (r[name] == Text("") <==> value == "")
    ensures inputType == "number" && value != "" ==> r[name] == Num(ParseFloat(value))
  {
    var processed := if inputType == "number" then (if value == "" then Text("") else Num(ParseFloat(value)))
                     else Text(value);
    d[name := processed]
  }

  const NotAuthenticated: string := "Usuário não autenticado."
  const RequiredMissing: string := "Placa, Marca e Modelo são obrigatórios."

  /** `Number(x)` of a draft entry: `undefined` is NaN. */
  function NumberOf(v: Option<Value>): (r: Option<real>)
    ensures v.Some? && v.value.Num? ==> r == v.value.number
    ensures v.Some? && v.value.Text? ==> r == JsNumber(v.value.text)
    ensures v.None? ==> r.None?
  {
    match v
    case None => None
    case Some(Text(s)) => JsNumber(s)
    case Some(Num(n)) => n
  }

  /** An optional number kept only when truthy, dropped (`undefined`) otherwise. */
  function KeepIfTruthy(d: Draft, k: string): (r: Draft)
    ensures k in r <==> TruthyEntry(Lookup(d, k))
    ensures k in r ==> r[k] == Num(NumberOf(Lookup(d, k)))
    ensures forall j :: j != k ==> (j in r <==> j in d) && (j in r ==> r[j] == d[j])
  {
    if TruthyEntry(Lookup(d, k)) then d[k := Num(NumberOf(Lookup(d, k)))] else d - {k}
  }

  /** `vehicleDataToSave`: the draft with the years and the odometer made
      numbers, and the price and consumption made numbers or dropped. */
  function ToSave(d: Draft): (r: Draft)
    ensures YearManufacture in r && r[YearManufacture] == Num(NumberOf(Lookup(d, YearManufacture)))
    ensures YearModel in r && r[YearModel] == Num(NumberOf(Lookup(d, YearModel)))
    ensures CurrentKm in r && r[CurrentKm] == Num(NumberOf(Lookup(d, CurrentKm)))
    ensures PurchasePrice in r <==> TruthyEntry(Lookup(d, PurchasePrice))
    ensures AverageConsumption in r <==> TruthyEntry(Lookup(d, AverageConsumption))
    ensures PurchasePrice in r ==> r[PurchasePrice] == Num(NumberOf(Lookup(d, PurchasePrice)))
    ensures AverageConsumption in r ==> r[AverageConsumption] == Num(NumberOf(Lookup(d, AverageConsumption)))
    ensures forall k :: k !in {YearManufacture, YearModel, CurrentKm, PurchasePrice, AverageConsumption} ==>
      (k in r <==> k in d) && (k in r ==> r[k] == d[k])
  {
    var numbers := d[YearManufacture := Num(NumberOf(Lookup(d, YearManufacture)))]
                    [YearModel := Num(NumberOf(Lookup(d, YearModel)))]
                    [CurrentKm := Num(NumberOf(Lookup(d, CurrentKm)))];
    KeepIfTruthy(KeepIfTruthy(numbers, PurchasePrice), AverageConsumption)
  }

  /** A price of 0 is dropped like an empty one, since 0 is falsy. */
  lemma ZeroPriceIsDropped(d: Draft)
    ensures PurchasePrice !in ToSave(d[PurchasePrice := Num(Some(0.0))])
    ensures PurchasePrice !in ToSave(d[PurchasePrice := Text("")])
    ensures PurchasePrice !in ToSave(d - {PurchasePrice})
  {
  }

  /** A non-zero price typed into the number input is saved as that number. */
  lemma TypedPriceIsSaved(d: Draft, value: string, x: real)
    requires ParseFloat(value) == Some(x) && x != 0.0
    ensures var s := ToSave(HandleChange(d, PurchasePrice, value, "number"));
      PurchasePrice in s && s[PurchasePrice] == Num(Some(x))
  {
  }

  /** What a submit leads to, before the database call. */
  datatype SaveAction = Insert(record: Draft) | Update(id: string, record: Draft)

  /** `handleSubmit` up to the database call: the guards, then an update in
      edit mode with an id and an insert otherwise. */
  function Submit(user: Option<User>, d: Draft, editMode: bool, id: Option<string>): (r: Result<SaveAction, string>)
    ensures r == Err(NotAuthenticated) <==> user.None?
    ensures r == Err(RequiredMissing) <==>
      user.Some? && !(TruthyEntry(Lookup(d, Plate)) && TruthyEntry(Lookup(d, Brand)) && TruthyEntry(Lookup(d, Model)))
    ensures r.Ok? ==> r.value.record == ToSave(d)
    ensures r.Ok? ==> (r.value.Update? <==> editMode && Truthy(id))
  {
    if user.None? then Err(NotAuthenticated)
    else if !TruthyEntry(Lookup(d, Plate)) || !TruthyEntry(Lookup(d, Brand)) || !TruthyEntry(Lookup(d, Model)) then
      Err(RequiredMissing)
    else if editMode && Truthy(id) then Ok(Update(id.value, ToSave(d)))
    else Ok(Insert(ToSave(d)))
  }

  /** The draft after a successful save: back to the defaults after a
      creation, kept after an edit. */
  function AfterSave(d: Draft, editMode: bool, year: int): (r: Draft)
    ensures !editMode ==> r == Initial(year)
    ensures editMode ==> r == d
  {
    if editMode then d else Initial(year)
  }

  /** Whatever was just created, the form it leaves behind cannot be
      submitted again until plate, brand and model are filled in anew. */
  lemma CreatedFormCannotBeResubmitted(user: User, d: Draft, year: int, editMode: bool, id: Option<string>)
    ensures Submit(Some(user), AfterSave(d, false, year), editMode, id) == Err(RequiredMissing)
  {
  }
}

=== FILE: wrappers.dfy ===
/** Option and Result, plus the JavaScript notions of "falsy" that the forms
    rely on when they write `x || null` or `x || 'N/A'`. */
module Wrappers {

  datatype Option<+T> = None | Some(value: T) {
    function GetOr(default: T): T {
      match this
      case Some(v) => v
      case None => default
    }
  }

  datatype Result<+R, +E> = Ok(value: R) | Err(error: E)

  /** A nullable string is truthy when it is present and not empty. */
  predicate Truthy(o: Option<string>) {
    o.Some? && o.value != ""
  }

  /** `o || d` for a nullable string. */
  function OrElse(o: Option<string>, d: string): (r: string)
    ensures Truthy(o) ==> r == o.value
    ensures !Truthy(o) ==> r == d
  {
    if Truthy(o) then o.value else d
  }

  /** `s || null`: the empty string becomes null, anything else is kept. */
  function NullIfEmpty(o: Option<string>): (r: Option<string>)
    ensures r.None? <==> !Truthy(o)
    ensures r.Some? ==> r == o && r.value != ""
  {
    if Truthy(o) then o else None
  }

  /** `s || ''`: null becomes the empty string. */
  function EmptyIfNull(o: Option<string>): (r: string)
    ensures r == "" <==> !Truthy(o)
    ensures Truthy(o) ==> r == o.value
  {
    if Truthy(o) then o.value else ""
  }

  /** The authenticated user as the pages see it: present or not, with a tenant
      id in its metadata or not. */
  datatype User = User(tenantId: Option<string>)

  /** `user && user.user_metadata?.tenant_id`: the tenant of a signed-in user. */
  function TenantOf(user: Option<User>): (t: Option<string>)
    ensures t.Some? <==> user.Some? && Truthy(user.value.tenantId)
    ensures t.Some? ==> t.value != "" && t == user.value.tenantId
  {
    if user.Some? && Truthy(user.value.tenantId) then user.value.tenantId else None
  }
}
